=== FILE: README.md ===
# Log-Analyzer in Dafny

A model of the log analyzers in Log-Analyzer, together with proofs about them.
The analyzers read lifecycle-service logs and write summaries:

- **`LogAnalyzer`** reads server logs. It counts document checks and lifecycle transitions. It
  groups transition records by document GUID and matches each transition start with the end
  that closes it. The report lists:
  - documents with unfinished transitions;
  - transitions per name;
  - documents with many transitions;
  - transitions longer than six seconds;
  - transition starts per five-minute window.
- **`DLCPerfAnalyzer`** reads the two-line records of the lifecycle performance log (a header
  line, then a line with the transition name and its duration). It keeps the first and last
  header timestamps. It sorts the records by duration, lists the ones over fifteen seconds and
  counts transitions per name.
- **`PoibAnalyzer`** groups the SOBI requests of a POIB log by request type. It counts the
  resource pairs of `getAllowedResources` requests, and counts each type's requests per
  five-minute window.
- **`ForTests.generateReport`** turns `date:product:count;...` into per-quarter product totals.
- **`MethodFinder`** scans lifecycle XML files for `call-ref` elements that call
  `updateFundsInFundsJournalLCAllnew`. It reports the opening line of each such call that looks
  up by the current document's GUID and not by the source document's.

The modules follow the classes:

| module | models |
|---|---|
| `LogAnalyzer` | the line scanner of `LogAnalyzer.analyze` and the state it updates |
| `LogReport` | `logAnalysis` and its helpers `startNotEndTransitions`, `writeLongestTransitions`, `writeTransitionsByInterval` |
| `Tallies` | `TransitionCount.compareTo`, the comparator of `formatTransitionCounts1`, and the sorted listings they produce |
| `DlcPerf` | `DLCPerfAnalyzer` |
| `Poib` | `PoibAnalyzer` |
| `Sales` | `ForTests.generateReport` and `SalesData` |
| `MethodFinder` | `MethodFinder` |

Four modules support the others:

- `Strings` models the commons-lang `StringUtils` calls and `String.split`.
- `Numbers` models `Integer.parseInt`, `Integer.toString` and 32-bit `int` addition.
- `Intervals` models the epoch-aligned window arithmetic.
- `Collections` holds maps of lists, stable sorting, filtering and map sums.

These conventions hold throughout:

- Timestamps are epoch milliseconds.
- The date parsers are parameters of type `string -> Option<int>`. `None` stands for the
  `ParseException` that abandons the rest of a file.
- A `HashMap`'s iteration order is an explicit parameter `order` that lists every key exactly
  once.
- Java's `null` is `None`.
- The two initial bounds of `DLCPerfAnalyzer.main` are `java.sql.Date.valueOf` dates, which are
  local midnight in the default time zone. `DlcPerf.Initial` takes their epoch values as
  parameters.

The model keeps these behaviours of the code, which are easy to miss:

- **Window start.** The window start is `(t / w) * w` in Java's `long` division, which truncates
  toward zero, so the model does too (`Intervals.JavaDiv`). Before 1970 a timestamp that is
  not a multiple of the width lies before its window, which starts one width too late.
- **Sorted lists.** `logAnalysis` runs `startNotEndTransitions` before the other sections. That
  call sorts every document's list by time in place. So the positional pairing of
  `writeLongestTransitions` and the busy-document listing both see time-sorted lists
  (`LogReport.LogAnalysis`).
- **Missing request type.** In `PoibAnalyzer`, a request line with no `(` after the marker has a
  `null` type. `getRequest` then fails on the null dereference, and the rest of the file is
  abandoned (`Poib.Step`).
- **Bounds before the detail line.** In `DLCPerfAnalyzer.analyze`, the first and last
  timestamps are updated before the detail line is parsed. A detail line that fails
  `Integer.parseInt` has still moved them (`DlcPerf.ScanFile`).

## Model

Paths are relative to the repository root.

| member | source | states |
|---|---|---|
| LogAnalyzer.ClassifyLine | src/main/java/ru/sam47kon/log_analyzer/LogAnalyzer.java:96-118 | a line is a check line exactly when it holds "Операция checkDocument", finished exactly when it also holds "завершена"; it is ignored exactly when it is no check line and lacks either transition marker; its timestamp fails exactly on the parse-error path; a transition carries the parsed time, the thread between the first brackets, the name and GUID from the two parts around " для документа ", and is a start exactly when the status after "] " is "запущен." |
| LogAnalyzer.AddByTime | src/main/java/ru/sam47kon/log_analyzer/LogAnalyzer.java:127-129 | adding a start to the time-ordered set leaves the set unchanged when a record with that time is present, and otherwise adds exactly that record |
| LogAnalyzer.AddByTimeOrdered | src/main/java/ru/sam47kon/log_analyzer/LogAnalyzer.java:128 | the set stays strictly ordered by time, one record per timestamp |
| LogAnalyzer.Step | src/main/java/ru/sam47kon/log_analyzer/LogAnalyzer.java:96-136 | a line throws exactly when its timestamp does not parse; a check line bumps exactly one check counter; ignored and unsplittable lines change nothing; a transition is appended to its document's list and bumps the start or the end counter by its kind; a start also raises its name's count by one and goes into the time-ordered set, while an end leaves both alone |
| LogAnalyzer.Record | src/main/java/ru/sam47kon/log_analyzer/LogAnalyzer.java:119-136 | recording a transition creates or extends its document's list by that record, leaves the other lists, raises the start or the end counter by its kind, raises exactly the started name's count by one, and for a start puts its time into the time-ordered set, which grows by at most one and loses nothing; an end leaves that set alone |
| LogAnalyzer.StartsNamedAppend | src/main/java/ru/sam47kon/log_analyzer/LogAnalyzer.java:121 | appending a record to a document raises the number of starts with a name by one exactly when the record is a start with that name |
| LogAnalyzer.RecordConsistent | src/main/java/ru/sam47kon/log_analyzer/LogAnalyzer.java:119-136 | recording a transition keeps the list lengths equal to starts plus ends, each name's count equal to the number of starts with that name in the lists, the per-name counts summing to the starts, and the time-ordered set holding only starts, no more of them than were counted |
| LogAnalyzer.StepConsistent | src/main/java/ru/sam47kon/log_analyzer/LogAnalyzer.java:96-136 | every line that does not throw keeps the counters consistent with the records |
| LogAnalyzer.AnalyzeFile | src/main/java/ru/sam47kon/log_analyzer/LogAnalyzer.java:82-137 | a file is abandoned exactly when one of its lines has an unreadable timestamp; a first line that fails leaves the state as it was |
| LogAnalyzer.AnalyzeFileConsistent | src/main/java/ru/sam47kon/log_analyzer/LogAnalyzer.java:82-137 | a whole file, abandoned or not, keeps the counters consistent with the records |
| LogAnalyzer.AbortKeepsPrefix | src/main/java/ru/sam47kon/log_analyzer/LogAnalyzer.java:57-63 | a file abandoned at line k ends in the state its first k lines produce |
| LogAnalyzer.AnalyzeFiles | src/main/java/ru/sam47kon/log_analyzer/LogAnalyzer.java:57-64 | the time-ordered set stays ordered over any sequence of files |
| LogAnalyzer.AnalyzeFilesConsistent | src/main/java/ru/sam47kon/log_analyzer/LogAnalyzer.java:57-64 | any sequence of files keeps the counters consistent with the records |
| LogAnalyzer.EmptyConsistent | src/main/java/ru/sam47kon/log_analyzer/LogAnalyzer.java:286-293 | the initial state is consistent |
| LogReport.TimeSort | src/main/java/ru/sam47kon/log_analyzer/LogAnalyzer.java:144 | a document's list sorted by time is ordered by time, a permutation of the list, and stable: records with equal times keep their order |
| LogReport.StartsAndEnds | src/main/java/ru/sam47kon/log_analyzer/LogAnalyzer.java:145-146 | the starts and the ends of a list together are the list |
| LogReport.FirstClosing | src/main/java/ru/sam47kon/log_analyzer/LogAnalyzer.java:148-165 | the end chosen for a start has the same transition name and is not earlier than the start, no earlier end qualifies, and none is chosen exactly when no end qualifies |
| LogReport.FirstClosingEarliest | src/main/java/ru/sam47kon/log_analyzer/LogAnalyzer.java:148-165 | on time-ordered ends the chosen end is the earliest one that closes the start |
| LogReport.MatchStarts | src/main/java/ru/sam47kon/log_analyzer/LogAnalyzer.java:147-171 | every pair is a start with an end that closes it; pairs plus dangling starts are the starts, pairs plus left-over ends are the ends |
| LogReport.MatchConserves | src/main/java/ru/sam47kon/log_analyzer/LogAnalyzer.java:147-171 | as multisets, the paired and dangling starts are exactly the starts, and the paired and left-over ends exactly the ends |
| LogReport.MatchMaximal | src/main/java/ru/sam47kon/log_analyzer/LogAnalyzer.java:147-171 | no left-over end could have closed any dangling start |
| LogReport.LeftoverFromEnds | src/main/java/ru/sam47kon/log_analyzer/LogAnalyzer.java:146-162 | every left-over end is one of the ends given |
| LogReport.MatchDocumentAccounts | src/main/java/ru/sam47kon/log_analyzer/LogAnalyzer.java:143-171 | per document, two records per pair plus the dangling starts plus the left-over ends are the whole list, only starts dangle and only ends are left over |
| LogReport.StartThenEndMatched | src/main/java/ru/sam47kon/log_analyzer/LogAnalyzer.java:157-162 | a start and an end that closes it are paired whichever of them was logged first |
| LogReport.EarlyEndLeftOver | src/main/java/ru/sam47kon/log_analyzer/LogAnalyzer.java:157-158 | an end logged before its start does not close it: the start dangles and the end is left over |
| LogReport.NoEndsDangle | src/main/java/ru/sam47kon/log_analyzer/LogAnalyzer.java:166-170 | without ends every start dangles, in order |
| LogReport.DanglingDocuments | src/main/java/ru/sam47kon/log_analyzer/LogAnalyzer.java:141-172 | a document is reported exactly when it has a dangling start, and is reported with exactly its dangling starts |
| LogReport.SingleDocument | src/main/java/ru/sam47kon/log_analyzer/LogAnalyzer.java:141-172 | a log of one document reports that document, with its dangling starts, exactly when it has one, and nothing otherwise |
| LogReport.TwoDanglingOneDocument | src/main/java/ru/sam47kon/log_analyzer/LogAnalyzer.java:166-170 | two unfinished starts of one document are one reported document with both starts |
| LogReport.DanglingCountBound | src/main/java/ru/sam47kon/log_analyzer/LogAnalyzer.java:173-176 | the number of reported documents is at most the number of dangling starts |
| LogReport.SortedEntries | src/main/java/ru/sam47kon/log_analyzer/LogAnalyzer.java:176-178 | the report lines are one per document, ordered by their first dangling start, each with exactly that document's starts |
| LogReport.DanglingReport | src/main/java/ru/sam47kon/log_analyzer/LogAnalyzer.java:141-178 | the dangling report lists each document with dangling starts exactly once, with its starts, ordered by the first start's time |
| LogReport.PositionalPairs | src/main/java/ru/sam47kon/log_analyzer/LogAnalyzer.java:225-234 | element 2i is paired with element 2i+1, whatever their names and kinds; an odd last element is dropped |
| LogReport.LongPairs | src/main/java/ru/sam47kon/log_analyzer/LogAnalyzer.java:236-241 | every listed long transition comes from a pair of the document longer than 6000 ms, with the pair's duration |
| LogReport.LongPairsKeeps | src/main/java/ru/sam47kon/log_analyzer/LogAnalyzer.java:236-241 | every pair longer than 6000 ms is listed |
| LogReport.CollectLong | src/main/java/ru/sam47kon/log_analyzer/LogAnalyzer.java:224-243 | everything collected is a pair over the threshold of the document it names |
| LogReport.CollectLongKeeps | src/main/java/ru/sam47kon/log_analyzer/LogAnalyzer.java:224-243 | every long pair of every visited document is collected |
| LogReport.LongTransitions | src/main/java/ru/sam47kon/log_analyzer/LogAnalyzer.java:222-249 | the long-transition list is ordered longest first and, counting repeats, holds exactly the long pairs collected from the documents; the sort is stable, so pairs of equal duration keep the order in which they were collected |
| LogReport.LongTransitionsComplete | src/main/java/ru/sam47kon/log_analyzer/LogAnalyzer.java:222-249 | every positional pair over the threshold, of every document, is in the list |
| LogReport.PositionalIgnoresNames | src/main/java/ru/sam47kon/log_analyzer/LogAnalyzer.java:225-241 | for interleaved transitions A, B the positional pairing reports B's end as the start of a long transition, while the matcher pairs A with A and B with B |
| LogReport.TransitionsByInterval | src/main/java/ru/sam47kon/log_analyzer/LogAnalyzer.java:258-274 | the window counts add up to the number of starts in the time-ordered set, every window is five minutes wide, every start's window is counted, and each window's count is exactly the number of starts assigned to it (a window with no start is absent) |
| LogReport.TransitionsByIntervalWithin | src/main/java/ru/sam47kon/log_analyzer/LogAnalyzer.java:262-273 | when no start lies before 1970, each window's count is the number of starts whose times fall between its start and its end |
| LogReport.AssignedWidth | src/main/java/ru/sam47kon/log_analyzer/LogAnalyzer.java:263-267 | a window that receives a timestamp is exactly one width long |
| LogReport.IntervalTotalBound | src/main/java/ru/sam47kon/log_analyzer/LogAnalyzer.java:127-129 | the windows count no more than the starts counted, because equal timestamps were collapsed in the set |
| LogReport.BusyDocuments | src/main/java/ru/sam47kon/log_analyzer/LogAnalyzer.java:198-205 | each listed document has at least ten pairs, with its pair count and its distinct transition names; when the iteration order names each document once, no document is listed twice |
| LogReport.BusyDocumentsCovers | src/main/java/ru/sam47kon/log_analyzer/LogAnalyzer.java:198-205 | every document with at least ten pairs is listed |
| LogReport.SortedLists | src/main/java/ru/sam47kon/log_analyzer/LogAnalyzer.java:143-144 | sorting the lists in place keeps the documents and each list's records, now in time order |
| LogReport.LogAnalysis | src/main/java/ru/sam47kon/log_analyzer/LogAnalyzer.java:181-214 | the report carries the four counters as collected, one line per dangling document, one per transition name ordered by the descending tie-break, long transitions longest first and all over the threshold, and window counts adding up to the time-ordered starts |
| Tallies.CompareInts | src/main/java/ru/sam47kon/log_analyzer/LogAnalyzer.java:306 | the result is zero, negative or positive as x equals, is below or is above y |
| Tallies.CompareTransitionCount | src/main/java/ru/sam47kon/log_analyzer/LogAnalyzer.java:305-309 | a count comes before another when it is larger, or equal with a greater name; zero only for equal tallies |
| Tallies.CompareByCountThenName | src/main/java/ru/sam47kon/log_analyzer/DLCPerfAnalyzer.java:132-133 | a count comes before another when it is larger, or equal with a smaller name; zero only for equal tallies |
| Tallies.TieBreaksDisagree | src/main/java/ru/sam47kon/log_analyzer/DLCPerfAnalyzer.java:132-133 | on equal counts and different names the two comparators order a pair oppositely |
| Tallies.CountsAgree | src/main/java/ru/sam47kon/log_analyzer/DLCPerfAnalyzer.java:132-133 | on different counts the two comparators agree |
| Tallies.PrecedesTransitive | src/main/java/ru/sam47kon/log_analyzer/LogAnalyzer.java:305-309 | the listing order is transitive |
| Tallies.PrecedesTotal | src/main/java/ru/sam47kon/log_analyzer/LogAnalyzer.java:305-309 | any two tallies with different names are ordered one way or the other |
| Tallies.InsertTallySorted | src/main/java/ru/sam47kon/log_analyzer/LogAnalyzer.java:184 | inserting a tally with a new name into a sorted listing keeps it sorted |
| Tallies.SortTallies | src/main/java/ru/sam47kon/log_analyzer/DLCPerfAnalyzer.java:118 | sorting tallies with distinct names gives a sorted permutation of them |
| Tallies.ListCounts | src/main/java/ru/sam47kon/log_analyzer/LogAnalyzer.java:184 | the listing of a count map, in any iteration order, holds exactly one tally per key with that key's count, sorted |
| Tallies.EntriesSum | src/main/java/ru/sam47kon/log_analyzer/PoibAnalyzer.java:115 | listing a count map in any iteration order keeps its total |
| Tallies.TallyNames | src/main/java/ru/sam47kon/log_analyzer/DLCPerfAnalyzer.java:110-114 | a name is counted exactly when it occurs, with the number of its occurrences, and the counts add up to the number of names |
| Tallies.TiesAscending | src/main/java/ru/sam47kon/log_analyzer/DLCPerfAnalyzer.java:132-133 | with counts (lower, equal, equal) the two tied names come first, the lesser name first, then the lower count |
| Tallies.TiesDescending | src/main/java/ru/sam47kon/log_analyzer/DLCPerfAnalyzer.java:117-118 | with the same counts and the `TransitionCount` order the greater tied name comes first |
| Intervals.JavaDiv | src/main/java/ru/sam47kon/log_analyzer/LogAnalyzer.java:263 | the quotient truncates toward zero, for negative as well as non-negative times |
| Intervals.IntervalOf | src/main/java/ru/sam47kon/log_analyzer/LogAnalyzer.java:263-267 | a window is one width long and, for times from the epoch on, holds its timestamp |
| Intervals.IntervalOfWithin | src/main/java/ru/sam47kon/log_analyzer/LogAnalyzer.java:263-267 | a non-negative time is assigned to an aligned window exactly when it lies inside that window |
| Intervals.CountByInterval | src/main/java/ru/sam47kon/log_analyzer/LogAnalyzer.java:259-274 | each window in the map counts exactly the timestamps assigned to it, no other window receives any, and the counts add up to the number of timestamps |
| Intervals.CountByIntervalWithin | src/main/java/ru/sam47kon/log_analyzer/PoibAnalyzer.java:129-142 | for times from the epoch on, each window's count is the number of timestamps inside it |
| Intervals.CountByIntervalPermutation | src/main/java/ru/sam47kon/log_analyzer/PoibAnalyzer.java:127 | reordering the timestamps does not change the window counts |
| Numbers.AddInt32 | src/main/java/ru/sam47kon/ForTests.java:61 | `int` addition is exact inside the 32-bit range and wraps by 2^32 outside it |
| Numbers.ParseInt | src/main/java/ru/sam47kon/log_analyzer/DLCPerfAnalyzer.java:103 | only an optional sign followed by decimal digits parses; an unsigned or signed number parses exactly when its value is in `int` range, and to that value |
| Numbers.IntToString | src/main/java/ru/sam47kon/ForTests.java:95 | a non-negative number is written as decimal digits, a negative one as '-' then digits |
| Numbers.ParseIntToString | src/main/java/ru/sam47kon/ForTests.java:39 | parsing reads back every `int` written in decimal |
| Strings.SubstringBefore | src/main/java/ru/sam47kon/log_analyzer/LogAnalyzer.java:108 | the text before the first occurrence of the separator, or the whole text when there is none |
| Strings.SubstringAfter | src/main/java/ru/sam47kon/log_analyzer/PoibAnalyzer.java:105 | the text after the first occurrence of the separator, or "" when there is none |
| Strings.AfterEarliest | src/main/java/ru/sam47kon/log_analyzer/PoibAnalyzer.java:105 | text laid out as prefix, separator, value, with no earlier separator, reads back the value |
| Strings.SubstringFrom | src/main/java/ru/sam47kon/log_analyzer/DLCPerfAnalyzer.java:101 | the text from a position on, or "" when the position is past the end |
| Strings.EndsWith | src/main/java/ru/sam47kon/log_analyzer/DLCPerfAnalyzer.java:84 | true exactly when the last characters are the suffix |
| Strings.EndsWithAppend | src/main/java/ru/sam47kon/log_analyzer/DLCPerfAnalyzer.java:84 | a text with the suffix appended ends with it |
| Strings.SubstringBetween | src/main/java/ru/sam47kon/log_analyzer/LogAnalyzer.java:109 | the text between the first opening marker and the first closing marker after it, or none when either is missing |
| Strings.BetweenEarliest | src/main/java/ru/sam47kon/log_analyzer/DLCPerfAnalyzer.java:99 | text laid out as prefix, marker, value, closing character, with no earlier marker, reads back the value |
| Strings.BetweenMarker | src/main/java/ru/sam47kon/log_analyzer/PoibAnalyzer.java:88 | text laid out as prefix, marker, value, closing character reads back the value |
| Strings.Split | src/main/java/ru/sam47kon/log_analyzer/LogAnalyzer.java:111 | the parts are the pieces between occurrences with the trailing empty ones dropped: a prefix of the pieces, every dropped piece empty and the last part kept not empty; none contains the separator, and a text without the separator is one part |
| Strings.SplitInThree | src/main/java/ru/sam47kon/ForTests.java:33 | three fields joined with the separator split back into those three fields |
| Strings.Tokens | src/main/java/ru/sam47kon/ForTests.java:29-32 | every token is non-empty and free of the delimiter, and a non-empty text without the delimiter is one token |
| Strings.TokensJoin | src/main/java/ru/sam47kon/ForTests.java:29-32 | non-empty tokens free of the delimiter, joined by it, read back as those tokens |
| Strings.Trim | src/main/java/ru/sam47kon/log_analyzer/DLCPerfAnalyzer.java:103 | the result is a piece of the text with no blank at either end, and a text of blanks trims to "" |
| Strings.TrimIdempotent | src/main/java/ru/sam47kon/log_analyzer/DLCPerfAnalyzer.java:103 | trimming twice is trimming once |
| Strings.CountMatches | src/main/java/ru/sam47kon/log_analyzer/PoibAnalyzer.java:109 | the count is zero exactly when the text or the pattern is empty or the pattern does not occur |
| Strings.CountMatchesRepeat | src/main/java/ru/sam47kon/log_analyzer/PoibAnalyzer.java:109 | n copies of a pattern are counted as n matches |
| Strings.CompareStrings | src/main/java/ru/sam47kon/log_analyzer/LogAnalyzer.java:307 | the comparison is zero exactly for equal strings, and its sign is the lexicographic order |
| Strings.LexLessTransitive | src/main/java/ru/sam47kon/log_analyzer/LogAnalyzer.java:307 | the string order is transitive |
| Strings.LexLessTotal | src/main/java/ru/sam47kon/log_analyzer/LogAnalyzer.java:307 | any two different strings are ordered one way or the other |
| Collections.SortByKey | src/main/java/ru/sam47kon/log_analyzer/LogAnalyzer.java:144 | the list sort is ordered by the key, is a permutation of its input, and keeps records with equal keys in their original order |
| Collections.Increment | src/main/java/ru/sam47kon/log_analyzer/LogAnalyzer.java:121 | the name is present afterwards with its old count plus one, every other name keeps its count, and the counts add up to one more than before |
| Collections.Distinct | src/main/java/ru/sam47kon/log_analyzer/LogAnalyzer.java:203 | every element appears once, in the order of its first occurrence |
| Collections.FilterPermutation | src/main/java/ru/sam47kon/log_analyzer/DLCPerfAnalyzer.java:68-74 | filtering two permutations of each other gives permutations of each other |
| Collections.AppendTotal | src/main/java/ru/sam47kon/log_analyzer/LogAnalyzer.java:130-136 | appending one record adds one to the total length of the lists |
| DlcPerf.ParseDetail | src/main/java/ru/sam47kon/log_analyzer/DLCPerfAnalyzer.java:101-103 | past the first two characters, the name runs to the first space; a detail reads exactly when "ms" follows the name and the trimmed text between them is an `int`, and it is then that name and that duration; a line without "ms" never reads |
| DlcPerf.ParseDetailRoundTrip | src/main/java/ru/sam47kon/log_analyzer/DLCPerfAnalyzer.java:101-103 | a detail line written as two leading characters, name, space, duration and "ms" reads back as that name and duration |
| DlcPerf.HeaderOf | src/main/java/ru/sam47kon/log_analyzer/DLCPerfAnalyzer.java:87-100 | the GUID holds no space, the document type no ':' and the thread no ']'; without "Детали перехода " there is no GUID and without "документа " no document type |
| DlcPerf.HeaderOfLine | src/main/java/ru/sam47kon/log_analyzer/DLCPerfAnalyzer.java:87-100 | a header laid out as the performance log writes it reads back its thread, GUID and document type |
| DlcPerf.ScanFile | src/main/java/ru/sam47kon/log_analyzer/DLCPerfAnalyzer.java:81-107 | a file only appends records, at most one per two lines and one per header read |
| DlcPerf.ScanFileBounds | src/main/java/ru/sam47kon/log_analyzer/DLCPerfAnalyzer.java:91-97 | after a file the first and last timestamps are the least and greatest of the old bounds and every header timestamp read |
| DlcPerf.LastHeaderIgnored | src/main/java/ru/sam47kon/log_analyzer/DLCPerfAnalyzer.java:88-90 | a header on the last line is skipped before its timestamp is read |
| DlcPerf.HeaderAndDetail | src/main/java/ru/sam47kon/log_analyzer/DLCPerfAnalyzer.java:84-105 | a header with a readable timestamp followed by a detail line adds exactly one record when the detail line reads, and otherwise abandons the file with no record added |
| DlcPerf.DetailNotRescanned | src/main/java/ru/sam47kon/log_analyzer/DLCPerfAnalyzer.java:101-105 | a detail line that itself ends in ": " is consumed with its header and not read as a second header |
| DlcPerf.ScanFiles | src/main/java/ru/sam47kon/log_analyzer/DLCPerfAnalyzer.java:56-63 | files only append records |
| DlcPerf.ScanFilesBounds | src/main/java/ru/sam47kon/log_analyzer/DLCPerfAnalyzer.java:44-63 | across all files the bounds are the least and greatest of the initial dates and every header timestamp read |
| DlcPerf.SortByDuration | src/main/java/ru/sam47kon/log_analyzer/DLCPerfAnalyzer.java:214-216 | the natural order of the records is longest first, the sort is a permutation, and it is stable: records of equal duration keep their order |
| DlcPerf.LongInfos | src/main/java/ru/sam47kon/log_analyzer/DLCPerfAnalyzer.java:74 | every record kept is over 15000 ms |
| DlcPerf.LongInfosExact | src/main/java/ru/sam47kon/log_analyzer/DLCPerfAnalyzer.java:68-74 | the long list holds exactly the records over 15000 ms, longest first, each as many times as it was read |
| DlcPerf.Displayed | src/main/java/ru/sam47kon/log_analyzer/DLCPerfAnalyzer.java:75 | at most the first hundred long records are printed, as a prefix of the long list |
| DlcPerf.DisplayedAreLongest | src/main/java/ru/sam47kon/log_analyzer/DLCPerfAnalyzer.java:68-75 | no long record left unprinted is longer than a printed one |
| DlcPerf.TransitionTallies | src/main/java/ru/sam47kon/log_analyzer/DLCPerfAnalyzer.java:109-136 | the per-name listing is sorted by the chosen tie-break and holds exactly each name with its number of records |
| DlcPerf.TalliesTotal | src/main/java/ru/sam47kon/log_analyzer/DLCPerfAnalyzer.java:110-114 | the per-name counts add up to the number of records |
| DlcPerf.Summary | src/main/java/ru/sam47kon/log_analyzer/DLCPerfAnalyzer.java:68-75 | the total is the number of records, the long count is the number of records over fifteen seconds, every printed record is over fifteen seconds, at most a hundred are printed, and the tallies are ordered count first, names ascending on ties |
| Poib.RequestType | src/main/java/ru/sam47kon/log_analyzer/PoibAnalyzer.java:88 | the type is missing exactly when there is no "(" after the marker, and a type never contains "(" |
| Poib.RequestTypeOfLine | src/main/java/ru/sam47kon/log_analyzer/PoibAnalyzer.java:88 | a request line laid out as marker, tag, ": ", type and "(" reads back its type |
| Poib.GetRequest | src/main/java/ru/sam47kon/log_analyzer/PoibAnalyzer.java:104-110 | only `getAllowedResources` gets a description, "количество ресурсов: " followed by a decimal count |
| Poib.GetRequestCounts | src/main/java/ru/sam47kon/log_analyzer/PoibAnalyzer.java:104-110 | a `getAllowedResources` line followed by n resource pairs reports the count n |
| Poib.Step | src/main/java/ru/sam47kon/log_analyzer/PoibAnalyzer.java:84-98 | a non-request line changes nothing; a request line throws exactly when its time or its type is unreadable, and otherwise adds one request of its type at its time to the end of that type's list, leaving the other lists |
| Poib.StepKeeps | src/main/java/ru/sam47kon/log_analyzer/PoibAnalyzer.java:84-98 | a line keeps every request in its own type's list, extends every list at its end, and adds one request per request line |
| Poib.AnalyzeFile | src/main/java/ru/sam47kon/log_analyzer/PoibAnalyzer.java:70-102 | a file is abandoned exactly when one of its request lines throws |
| Poib.AnalyzeFileKeeps | src/main/java/ru/sam47kon/log_analyzer/PoibAnalyzer.java:70-100 | a file keeps the grouping by type and extends every list; read to the end it adds one request per request line |
| Poib.AnalyzeFiles | src/main/java/ru/sam47kon/log_analyzer/PoibAnalyzer.java:52-59 | a type once seen keeps its list over any sequence of files |
| Poib.AnalyzeFilesGrouped | src/main/java/ru/sam47kon/log_analyzer/PoibAnalyzer.java:52-59 | over any number of files every request stays in its own type's list |
| Poib.RequestCounts | src/main/java/ru/sam47kon/log_analyzer/PoibAnalyzer.java:115 | one line per type with its number of requests, adding up to all requests |
| Poib.RequestsByInterval | src/main/java/ru/sam47kon/log_analyzer/PoibAnalyzer.java:126-142 | sorting before counting gives the counts of the unsorted list, and they add up to the number of requests |
| Poib.RequestsByIntervalWithin | src/main/java/ru/sam47kon/log_analyzer/PoibAnalyzer.java:129-142 | for requests from the epoch on, each window is five minutes and counts the requests inside it |
| Poib.Report | src/main/java/ru/sam47kon/log_analyzer/PoibAnalyzer.java:112-118 | one count and one window table per type, each type's windows adding up to its count |
| Sales.QuarterOf | src/main/java/ru/sam47kon/ForTests.java:59-68 | the first quarter takes months up to 3, the last takes months after 9 |
| Sales.QuarterOfMonth | src/main/java/ru/sam47kon/ForTests.java:49-51 | for months 1 to 12 the quarter is (month - 1) / 3 |
| Sales.QuarterMonotone | src/main/java/ru/sam47kon/ForTests.java:59-68 | later months never fall in earlier quarters |
| Sales.Merge | src/main/java/ru/sam47kon/ForTests.java:61 | a new product gets its count, an existing one the 32-bit wrapped sum, and other products are unchanged |
| Sales.Put | src/main/java/ru/sam47kon/ForTests.java:59-69 | a count is merged into its month's quarter and the other three quarters are untouched |
| Sales.PutMisses | src/main/java/ru/sam47kon/ForTests.java:59-69 | other quarters and other products keep their presence and totals |
| Sales.Aggregate | src/main/java/ru/sam47kon/ForTests.java:29-44 | putting `int` counts one after another keeps every quarter total an `int` |
| Sales.Quarter | src/main/java/ru/sam47kon/ForTests.java:83-91 | index 0 to 3 selects Q1 to Q4 |
| Sales.AggregateSums | src/main/java/ru/sam47kon/ForTests.java:29-44 | a product appears in a quarter exactly when some record lands there, with the wrapped sum of those records' counts |
| Sales.ParseRecord | src/main/java/ru/sam47kon/ForTests.java:32-43 | a record parses exactly when it splits into three fields whose first reads as a date and whose third reads as an `int`, and then it is that month, the middle field as product, and that count; it fails as badly formatted exactly when it does not split into three fields; a failure names its record |
| Sales.ParseRecordRoundTrip | src/main/java/ru/sam47kon/ForTests.java:33-40 | date, product and count written with ":" read back as that month, product and count |
| Sales.ParseRecordsStops | src/main/java/ru/sam47kon/ForTests.java:31-44 | parsing stops exactly when some record does not parse |
| Sales.ParseRecords | src/main/java/ru/sam47kon/ForTests.java:31-44 | either every record parses, in order, or the outcome is the failure of the first that does not |
| Sales.GenerateReport | src/main/java/ru/sam47kon/ForTests.java:24-46 | `null` or "" gives the empty report; otherwise the input is rejected exactly when some record does not parse, a rejection carries the failure of the first bad record, and a report is the aggregate of the parsed records |
| Sales.EntryLines | src/main/java/ru/sam47kon/ForTests.java:93-97 | a non-empty map's text starts with a line break, and the text is empty only for an empty map |
| Sales.Section | src/main/java/ru/sam47kon/ForTests.java:75-78 | a quarter is written exactly when it has products, and its text then starts with its name and ":" and ends with a line break |
| Sales.Render | src/main/java/ru/sam47kon/ForTests.java:72-81 | the report is empty exactly when all four quarters are empty |
| Sales.RenderLines | src/main/java/ru/sam47kon/ForTests.java:72-97 | the report has one line per non-empty quarter plus one per product in it |
| Sales.RenderHolds | src/main/java/ru/sam47kon/ForTests.java:72-97 | every product of every quarter is written with its total |
| MethodFinder.GetAttributeValue | src/main/java/ru/sam47kon/MethodFinder.java:83-90 | no value exactly when no attribute has the name; otherwise the value of the first such attribute |
| MethodFinder.GetAttributeValueFirst | src/main/java/ru/sam47kon/MethodFinder.java:83-90 | later attributes with the same name are ignored |
| MethodFinder.Step | src/main/java/ru/sam47kon/MethodFinder.java:44-76 | a call is reported exactly when a call-ref closes inside a target call that has the current-GUID flag and not the source-GUID flag, at the target's opening line; a target opening enters the call; a call-ref closing resets the flags; inside a call, parameters only raise flags |
| MethodFinder.ScanEvents | src/main/java/ru/sam47kon/MethodFinder.java:43-80 | the scan is abandoned exactly when the reader fails somewhere |
| MethodFinder.StopsAtMalformed | src/main/java/ru/sam47kon/MethodFinder.java:34-80 | a reader failure keeps what the events before it reported and ignores the rest of the file |
| MethodFinder.ScanSound | src/main/java/ru/sam47kon/MethodFinder.java:43-77 | every reported line opens a target call, at most one report per target call, and flags stay down outside target calls |
| MethodFinder.ProcessFile | src/main/java/ru/sam47kon/MethodFinder.java:33-81 | a file reports one call per report of the event scan, each naming that file |
| MethodFinder.ProcessFileSound | src/main/java/ru/sam47kon/MethodFinder.java:33-81 | a file reports at most as many calls as it has target openings, each at one of their lines |
| MethodFinder.ScanInside | src/main/java/ru/sam47kon/MethodFinder.java:55-64 | inside a target call the flags become whatever the parameters set, and nothing is reported |
| MethodFinder.TargetCall | src/main/java/ru/sam47kon/MethodFinder.java:45-76 | a single target call is reported at its opening line exactly when a parameter looks up by the current GUID and none by the source GUID; the scan then ends outside any call |
| MethodFinder.SearchFiles | src/main/java/ru/sam47kon/MethodFinder.java:25-31 | every reported call names one of the searched files |

## Left out

- Reading the files is not modelled: the directory walk (`Files.find`, `Files.walk`, the `.lc` filter), `Scanner`, `FileReader` open failures, and the exclusion of the analyzers' own output files. A file is its sequence of lines, or its sequence of XML events, and a run is a sequence of files.
- Output is not modelled: every `writer.write`/`System.out` text, `Info.toString`, `String.format` padding, `writeToCsv`/`writeToExcel`, `logDebug`/`logError`, the "Начало лога"/"Конец лога" lines, `gc()` and `StopWatch`. The reports are modelled as the values they print.
- Date parsing and formatting (`SimpleDateFormat`, `LocalDate.parse`) are parameters: a parser `string -> Option<int>`, or for months `string -> Option<int>`. Window labels are kept as the pair of window bounds instead of the formatted `TIME_LOG_FORMAT_FROM`/`TIME_LOG_FORMAT_TO` text, so the ascending order of the `TreeMap` keys is not modelled.
- `HashMap` iteration order is a parameter (`order`, `guidOrder`, `nameOrder`).
- The XML tokenizer is an abstract sequence of events (start tag with its attributes and line, end tag, anything else, reader failure). Its parsing of XML text is not modelled.
- Strings are sequences of `char`, one per Unicode character. There is no locale handling.
- Strings.CompareStrings: `String.compareTo` compares UTF-16 code units. The model compares whole characters, so it can order two names differently when one holds a character above U+FFFF (a surrogate pair). The order is the same for names inside the Basic Multilingual Plane.
- Strings.SubstringFrom: `String.length` and `substring(line, 2)` count UTF-16 code units, so a character above U+FFFF counts twice in Java and once here. The detail line's first two characters are ASCII in the performance log.
- Numbers.ParseInt: accepts only the ASCII digits '0' to '9'. Java's `Character.digit` also accepts other Unicode decimal digits.
- Sales.EntryLines: Java's `Collectors.joining("\n", "\n", "")` still emits its "\n" prefix for an empty map, where the model gives "". `toString` only writes non-empty quarters, so the report is the same.
- The `int`/`long` counters of `LogAnalyzer`, `numLine` and the list sizes are unbounded: overflowing them needs more than 2^31 lines. The `Integer::sum` of `SalesData.put` does wrap, as in Java.
- `ForTests.main` is left out: it computes a pool size with floating-point `Math.ceil` and prints it, and does not call `generateReport`.
- `SalesData.getQuarterMap`'s `IllegalArgumentException` for indices outside 0..3 cannot happen, because `toString` only asks for 0 to 3.
- `formatTransitionCounts` is not called by `main`. It is covered by `DlcPerf.TransitionTallies` with the descending tie-break.
- LogReport.LogAnalysis: states the counters, the ordering of each section and the section sizes. The contents of each section are stated by the members it is built from (`DanglingReport`, `ListCounts`, `BusyDocuments`/`BusyDocumentsCovers`, `LongTransitions`/`LongTransitionsComplete`, `TransitionsByInterval`), not repeated here.
- DlcPerf.Summary: states the total, the limits and ordering of the printed list and the tallies. The bounds it carries are stated by `ScanFilesBounds`, and which records are long by `LongInfosExact` and `DisplayedAreLongest`.
- DlcPerf.ScanFile: states only that records are appended and how many at most. The record a header and its detail line produce is stated by `ScanHeaderStep`/`HeaderAndDetail`.
- MethodFinder.SearchFiles: states only that every report names a searched file. Per-file results are stated by `ProcessFile` and its lemmas.
- Poib.AnalyzeFiles: states only that types once seen stay. The grouping over many files is stated by `AnalyzeFilesGrouped`.
- Strings.CountMatches: its contract states only when the count is zero; the exact count is stated only for repeated patterns (`CountMatchesRepeat`).
- Strings.Trim: states that the result is a piece of the text with non-blank ends, not that everything trimmed away is blank. Trimming twice is trimming once (`TrimIdempotent`).
- Strings.Tokens: states the shape of each token. That the tokens are the non-empty pieces in order is stated by `TokensJoin`.
- Numbers.IntToString: states the shape of the text. Its value is stated by `ParseIntToString`.
- LogAnalyzer.AnalyzeFiles: states only that the time-ordered set stays ordered. The counters over many files are stated by `AnalyzeFilesConsistent`.
- DlcPerf.ScanFiles: states only that records are appended. The bounds are stated by `ScanFilesBounds`.
- DlcPerf.LongInfos: states only that every kept record is long. Which records are kept is stated by `LongInfosExact`.
- Sales.Aggregate: states only that totals stay `int`s. The totals are stated by `AggregateSums`.

=== FILE: collections.dfy ===
/**
  Collection helpers shared by the analyzers: sums over maps of counters,
  maps of lists grown by appending (`Map.computeIfAbsent(...).add`,
  `Map.merge`), filtering, and the stable sort that `List.sort` performs
  with a key comparator.
 */
module Collections {

  /** `order` lists every key of `keys` exactly once: one possible iteration order of a `HashMap`. */
  predicate Enumerates<K(==)>(order: seq<K>, keys: set<K>)
  {
    && (forall k :: k in keys ==> k in order)
    && (forall i :: 0 <= i < |order| ==> order[i] in keys)
    && (forall i, j :: 0 <= i < j < |order| ==> order[i] != order[j])
  }

  /** No element occurs twice. */
  predicate NoDuplicates<T(==)>(s: seq<T>)
  {
    forall i, j :: 0 <= i < j < |s| ==> s[i] != s[j]
  }

  /** Without duplicates, the head is not in the tail, and the tail has no duplicates either. */
  lemma NoDuplicatesTail<T>(s: seq<T>)
    requires |s| > 0 && NoDuplicates(s)
    ensures s[0] !in s[1..] && NoDuplicates(s[1..])
  {
    forall k | 0 <= k < |s| - 1
      ensures s[1..][k] != s[0]
    {
      assert s[1..][k] == s[k + 1];
    }
  }

  /** Dropping the first key of an enumeration enumerates the other keys. */
  lemma EnumeratesTail<K>(order: seq<K>, keys: set<K>)
    requires Enumerates(order, keys) && |order| > 0
    ensures Enumerates(order[1..], keys - {order[0]})
  {
    forall j | j in keys - {order[0]}
      ensures j in order[1..]
    {
      var i :| 0 <= i < |order| && order[i] == j;
      assert i != 0;
      assert order[1..][i - 1] == j;
    }
  }

  /** An enumeration is as long as the set it enumerates. */
  lemma {:induction false} EnumerationSize<K>(order: seq<K>, keys: set<K>)
    requires Enumerates(order, keys)
    ensures |order| == |keys|
  {
    if |order| > 0 {
      EnumeratesTail(order, keys);
      EnumerationSize(order[1..], keys - {order[0]});
    } else {
      assert forall k :: k !in keys;
      assert keys == {};
    }
  }

  /** Sum of all the values of a map of counters. */
  ghost function SumMap<K>(m: map<K, nat>): nat
    decreases |m|
  {
    if m == map[] then 0
    else
      var k :| k in m;
      assert |m - {k}| < |m|;
      m[k] + SumMap(m - {k})
  }

  lemma {:induction false} SumMapRemove<K>(m: map<K, nat>, k: K)
    requires k in m
    ensures SumMap(m) == m[k] + SumMap(m - {k})
    decreases |m|
  {
    var j :| j in m && SumMap(m) == m[j] + SumMap(m - {j});
    if j != k {
      assert |m - {j}| < |m|;
      assert |m - {k}| < |m|;
      SumMapRemove(m - {j}, k);
      SumMapRemove(m - {k}, j);
      assert m - {j} - {k} == m - {k} - {j};
    }
  }

  /** Replacing one counter changes the sum by exactly the difference. */
  lemma {:induction false} SumMapUpdate<K>(m: map<K, nat>, k: K, v: nat)
    ensures SumMap(m[k := v]) == SumMap(m) - (if k in m then m[k] else 0) + v
  {
    SumMapRemove(m[k := v], k);
    assert m[k := v] - {k} == m - {k};
    if k in m {
      SumMapRemove(m, k);
    } else {
      assert m - {k} == m;
    }
  }

  /** The counter of `k`, zero when `k` has none. */
  function CountOf<K>(m: map<K, nat>, k: K): nat
  {
    if k in m then m[k] else 0
  }

  /** `map.merge(k, 1, Integer::sum)`: one more occurrence of `k`, every other counter as it was. */
  function Increment<K>(m: map<K, nat>, k: K): (r: map<K, nat>)
    ensures r.Keys == m.Keys + {k}
    ensures r[k] == CountOf(m, k) + 1
    ensures forall j :: j in m && j != k ==> r[j] == m[j]
    ensures SumMap(r) == SumMap(m) + 1
  {
    var r := m[k := (if k in m then m[k] else 0) + 1];
    SumMapUpdate(m, k, r[k]);
    r
  }

  /** `map.computeIfAbsent(k, new ArrayList).add(v)`: `v` appended to the list of `k`. */
  function Append<K, V>(m: map<K, seq<V>>, k: K, v: V): (r: map<K, seq<V>>)
    ensures r.Keys == m.Keys + {k}
    ensures r[k] == (if k in m then m[k] else []) + [v]
    ensures forall j :: j in m && j != k ==> r[j] == m[j]
  {
    m[k := (if k in m then m[k] else []) + [v]]
  }

  /** The length of every list of a map of lists. */
  function Lengths<K, V>(m: map<K, seq<V>>): (r: map<K, nat>)
    ensures r.Keys == m.Keys
    ensures forall k :: k in m ==> r[k] == |m[k]|
  {
    map k | k in m :: |m[k]|
  }

  /** Appending one element adds one to the total length. */
  lemma AppendTotal<K, V>(m: map<K, seq<V>>, k: K, v: V)
    ensures SumMap(Lengths(Append(m, k, v))) == SumMap(Lengths(m)) + 1
  {
    assert Lengths(Append(m, k, v)) == Increment(Lengths(m), k);
  }

  /** The elements of `s` satisfying `p`, in their original order. */
  function Filter<T>(s: seq<T>, p: T -> bool): (r: seq<T>)
    ensures |r| <= |s|
    ensures forall i :: 0 <= i < |r| ==> p(r[i])
    ensures multiset(r) <= multiset(s)
  {
    if |s| == 0 then []
    else
      var rest := Filter(s[1..], p);
      assert s == [s[0]] + s[1..];
      if p(s[0]) then [s[0]] + rest else rest
  }

  lemma FilterPair<T>(a: T, b: T, p: T -> bool)
    ensures Filter([a, b], p) == (if p(a) then [a] else []) + (if p(b) then [b] else [])
  {
    assert [a, b][1..] == [b];
    assert [b][1..] == [];
  }

  /** A property of every element carries over to a sub-multiset. */
  lemma AllFromSubMultiset<T>(a: seq<T>, b: seq<T>, p: T -> bool)
    requires multiset(a) <= multiset(b)
    requires forall i :: 0 <= i < |b| ==> p(b[i])
    ensures forall i :: 0 <= i < |a| ==> p(a[i])
  {
    forall i | 0 <= i < |a|
      ensures p(a[i])
    {
      assert a[i] in multiset(b);
    }
  }

  /** Every element satisfying `p` is kept. */
  lemma {:induction false} FilterKeeps<T>(s: seq<T>, p: T -> bool, i: nat)
    requires i < |s| && p(s[i])
    ensures s[i] in Filter(s, p)
  {
    if i > 0 {
      FilterKeeps(s[1..], p, i - 1);
    }
  }

  lemma FilterAppend<T>(a: seq<T>, b: seq<T>, p: T -> bool)
    ensures Filter(a + b, p) == Filter(a, p) + Filter(b, p)
  {
    if |a| > 0 {
      assert (a + b)[1..] == a[1..] + b;
      FilterAppend(a[1..], b, p);
    } else {
      assert a + b == b;
    }
  }

  /** The position of the first occurrence of `x` in `s`. */
  function FirstIndex<T(==)>(s: seq<T>, x: T): (i: nat)
    requires x in s
    ensures i < |s| && s[i] == x
    ensures forall k :: 0 <= k < i ==> s[k] != x
  {
    if s[0] == x then 0 else 1 + FirstIndex(s[1..], x)
  }

  /** An element of a prefix first occurs where it first occurs in the prefix. */
  lemma FirstIndexPrefix<T>(s: seq<T>, n: nat, x: T)
    requires n <= |s| && x in s[..n]
    ensures x in s && FirstIndex(s, x) == FirstIndex(s[..n], x)
  {
    var b := FirstIndex(s[..n], x);
    var a := FirstIndex(s, x);
    assert s[b] == s[..n][b];
    assert a <= b;
    assert s[..n][a] == s[a];
  }

  /** The elements of `r` come in the order of their first occurrences in `s`. */
  predicate FirstOccurrenceOrder<T(==)>(s: seq<T>, r: seq<T>)
  {
    forall i, j :: 0 <= i < j < |r| ==> r[i] in s && r[j] in s && FirstIndex(s, r[i]) < FirstIndex(s, r[j])
  }

  /** `stream.distinct()`: each element once, at its first occurrence. */
  function Distinct<T(==)>(s: seq<T>): (r: seq<T>)
    ensures forall i :: 0 <= i < |r| ==> r[i] in s
    ensures forall i :: 0 <= i < |s| ==> s[i] in r
    ensures forall i, j :: 0 <= i < j < |r| ==> r[i] != r[j]
    ensures FirstOccurrenceOrder(s, r)
  {
    if |s| == 0 then []
    else
      var n := |s| - 1;
      var rest := Distinct(s[..n]);
      assert s == s[..n] + [s[n]];
      DistinctStep(s, rest);
      if s[n] in rest then rest else rest + [s[n]]
  }

  /** One more element after a prefix that is already in first-occurrence order. */
  lemma DistinctStep<T>(s: seq<T>, rest: seq<T>)
    requires |s| > 0
    requires forall i :: 0 <= i < |rest| ==> rest[i] in s[..|s| - 1]
    requires forall i :: 0 <= i < |s| - 1 ==> s[i] in rest
    requires FirstOccurrenceOrder(s[..|s| - 1], rest)
    ensures FirstOccurrenceOrder(s, rest)
    ensures s[|s| - 1] !in rest ==> FirstOccurrenceOrder(s, rest + [s[|s| - 1]])
  {
    var n := |s| - 1;
    forall i | 0 <= i < |rest|
      ensures FirstIndex(s, rest[i]) == FirstIndex(s[..n], rest[i]) < n
    {
      FirstIndexPrefix(s, n, rest[i]);
    }
    if s[n] !in rest {
      var r := rest + [s[n]];
      assert forall k :: 0 <= k < n ==> s[k] != s[n];
      assert FirstIndex(s, s[n]) == n;
      forall i, j | 0 <= i < j < |r|
        ensures r[i] in s && r[j] in s && FirstIndex(s, r[i]) < FirstIndex(s, r[j])
      {
        assert r[i] == rest[i];
        if j < |rest| {
          assert r[j] == rest[j];
        }
      }
    }
  }

  /** How often `x` is kept by a filter: as often as it occurs, when it passes. */
  lemma {:induction false} FilterCount<T>(s: seq<T>, p: T -> bool, x: T)
    ensures multiset(Filter(s, p))[x] == if p(x) then multiset(s)[x] else 0
  {
    if |s| > 0 {
      FilterCount(s[1..], p, x);
      FilterHeadCount(s, p, x);
      HeadCount(s, x);
    }
  }

  /** The head of `s` adds one to the count of `x` when it is `x`. */
  lemma HeadCount<T>(s: seq<T>, x: T)
    requires |s| > 0
    ensures multiset(s)[x] == multiset(s[1..])[x] + (if s[0] == x then 1 else 0)
  {
    assert s == [s[0]] + s[1..];
    assert multiset(s) == multiset{s[0]} + multiset(s[1..]);
  }

  /** The head of `s` adds one to the filtered count of `x` when it is `x` and passes. */
  lemma FilterHeadCount<T>(s: seq<T>, p: T -> bool, x: T)
    requires |s| > 0
    ensures multiset(Filter(s, p))[x] == multiset(Filter(s[1..], p))[x] + (if p(s[0]) && s[0] == x then 1 else 0)
  {
    var rest := Filter(s[1..], p);
    if p(s[0]) {
      assert Filter(s, p) == [s[0]] + rest;
      assert multiset(Filter(s, p)) == multiset{s[0]} + multiset(rest);
    } else {
      assert Filter(s, p) == rest;
    }
  }

  /** Filtering two permutations of each other gives permutations of each other. */
  lemma FilterPermutation<T>(a: seq<T>, b: seq<T>, p: T -> bool)
    requires multiset(a) == multiset(b)
    ensures multiset(Filter(a, p)) == multiset(Filter(b, p))
  {
    forall x
      ensures multiset(Filter(a, p))[x] == multiset(Filter(b, p))[x]
    {
      FilterCount(a, p, x);
      FilterCount(b, p, x);
    }
  }

  /** Splitting a sequence by a predicate and its negation loses and adds nothing. */
  lemma {:induction false} FilterComplement<T>(s: seq<T>, p: T -> bool, q: T -> bool)
    requires forall x :: q(x) == !p(x)
    ensures multiset(Filter(s, p)) + multiset(Filter(s, q)) == multiset(s)
  {
    if |s| > 0 {
      var t := s[1..];
      FilterComplement(t, p, q);
      assert multiset(s) == multiset{s[0]} + multiset(t) by {
        assert s == [s[0]] + t;
      }
      if p(s[0]) {
        assert Filter(s, p) == [s[0]] + Filter(t, p);
        assert Filter(s, q) == Filter(t, q);
      } else {
        assert Filter(s, p) == Filter(t, p);
        assert Filter(s, q) == [s[0]] + Filter(t, q);
      }
    }
  }

  /** `f` applied to every element, in order (`stream.map(f)`). */
  function MapSeq<T, U>(s: seq<T>, f: T -> U): (r: seq<U>)
    ensures |r| == |s|
    ensures forall i :: 0 <= i < |s| ==> r[i] == f(s[i])
  {
    if |s| == 0 then [] else [f(s[0])] + MapSeq(s[1..], f)
  }

  lemma {:induction false} MapSeqAppend<T, U>(a: seq<T>, b: seq<T>, f: T -> U)
    ensures MapSeq(a + b, f) == MapSeq(a, f) + MapSeq(b, f)
  {
    if |a| > 0 {
      assert (a + b)[1..] == a[1..] + b;
      MapSeqAppend(a[1..], b, f);
    } else {
      assert a + b == b;
    }
  }

  /** Removing position `i` takes one copy of `s[i]` out of the multiset. */
  lemma RemoveAt<T>(s: seq<T>, i: nat)
    requires i < |s|
    ensures s == s[..i] + [s[i]] + s[i + 1..]
    ensures multiset(s[..i] + s[i + 1..]) == multiset(s) - multiset{s[i]}
  {
    assert s == s[..i] + [s[i]] + s[i + 1..];
  }

  lemma MapSeqCons<T, U>(x: T, s: seq<T>, f: T -> U)
    ensures MapSeq([x] + s, f) == [f(x)] + MapSeq(s, f)
  {
    assert ([x] + s)[1..] == s;
  }

  /** Taking `x` out from between `l` and `r` before mapping takes one copy of its image out after. */
  lemma MapSeqSplice<T, U>(l: seq<T>, x: T, r: seq<T>, f: T -> U)
    ensures multiset(MapSeq(l + ([x] + r), f)) == multiset(MapSeq(l + r, f)) + multiset{f(x)}
  {
    MapSeqAppend(l, [x] + r, f);
    MapSeqCons(x, r, f);
    MapSeqAppend(l, r, f);
  }

  /** Matching the head of `a` with position `i` of `b` leaves two permutations of each other. */
  lemma PermutationRest<T>(a: seq<T>, b: seq<T>, i: nat)
    requires multiset(a) == multiset(b) && |a| > 0 && i < |b| && b[i] == a[0]
    ensures multiset(a[1..]) == multiset(b[..i] + b[i + 1..])
    ensures a == [a[0]] + a[1..]
    ensures b == b[..i] + ([b[i]] + b[i + 1..])
  {
    assert a == [a[0]] + a[1..];
    RemoveAt(b, i);
    assert b == b[..i] + ([b[i]] + b[i + 1..]);
  }

  /** Matching the last element of `a` with position `i` of `b` leaves two permutations of each other. */
  lemma PermutationLast<T>(a: seq<T>, b: seq<T>, i: nat)
    requires multiset(a) == multiset(b) && |a| > 0 && i < |b| && b[i] == a[|a| - 1]
    ensures multiset(a[..|a| - 1]) == multiset(b[..i] + b[i + 1..])
    ensures a == a[..|a| - 1] + [a[|a| - 1]]
    ensures b == b[..i] + [b[i]] + b[i + 1..]
  {
    assert a == a[..|a| - 1] + [a[|a| - 1]];
    RemoveAt(b, i);
  }

  /** Mapping a permutation gives a permutation of the mapped sequence. */
  lemma {:induction false} MapSeqPermutation<T, U>(a: seq<T>, b: seq<T>, f: T -> U)
    requires multiset(a) == multiset(b)
    ensures multiset(MapSeq(a, f)) == multiset(MapSeq(b, f))
    decreases |a|
  {
    if |a| == 0 {
      assert |multiset(b)| == 0;
    } else {
      var x := a[0];
      assert x in multiset(a);
      var i :| 0 <= i < |b| && b[i] == x;
      var left, right := b[..i], b[i + 1..];
      PermutationRest(a, b, i);
      MapSeqPermutation(a[1..], left + right, f);
      MapSeqPermStep(x, a[1..], left, right, f);
    }
  }

  lemma MapSeqPermStep<T, U>(x: T, rest: seq<T>, left: seq<T>, right: seq<T>, f: T -> U)
    requires multiset(MapSeq(rest, f)) == multiset(MapSeq(left + right, f))
    ensures multiset(MapSeq([x] + rest, f)) == multiset(MapSeq(left + ([x] + right), f))
  {
    MapSeqCons(x, rest, f);
    MapSeqSplice(left, x, right, f);
  }

  /** `s` is in ascending order of `key`. */
  predicate SortedByKey<T>(s: seq<T>, key: T -> int)
  {
    forall i, j :: 0 <= i < j < |s| ==> key(s[i]) <= key(s[j])
  }

  /** The elements of `s` whose key is `k`, in their original order. */
  function WithKey<T>(s: seq<T>, key: T -> int, k: int): seq<T>
  {
    if |s| == 0 then []
    else (if key(s[0]) == k then [s[0]] else []) + WithKey(s[1..], key, k)
  }

  lemma WithKeyCons<T>(x: T, s: seq<T>, key: T -> int, k: int)
    ensures WithKey([x] + s, key, k) == (if key(x) == k then [x] else []) + WithKey(s, key, k)
  {
    assert ([x] + s)[1..] == s;
  }

  /** `x` placed after every element with a smaller key and before the rest. */
  function InsertByKey<T>(x: T, s: seq<T>, key: T -> int): (r: seq<T>)
    ensures |r| == |s| + 1
    ensures multiset(r) == multiset(s) + multiset{x}
    ensures forall j :: 0 <= j < |r| ==> r[j] == x || r[j] in s
  {
    if |s| == 0 || key(x) <= key(s[0]) then [x] + s
    else
      assert s == [s[0]] + s[1..];
      [s[0]] + InsertByKey(x, s[1..], key)
  }

  lemma {:induction false} InsertSorted<T>(x: T, s: seq<T>, key: T -> int)
    requires SortedByKey(s, key)
    ensures SortedByKey(InsertByKey(x, s, key), key)
  {
    if |s| > 0 && key(x) > key(s[0]) {
      var rest := InsertByKey(x, s[1..], key);
      InsertSorted(x, s[1..], key);
      InsertAbove(x, s, key);
      SortedCons(s[0], rest, key);
    }
  }

  /** Inserting an element above the head of a sorted sequence into its tail keeps everything at or above the head. */
  lemma InsertAbove<T>(x: T, s: seq<T>, key: T -> int)
    requires SortedByKey(s, key) && |s| > 0 && key(x) > key(s[0])
    ensures forall j :: 0 <= j < |InsertByKey(x, s[1..], key)| ==> key(s[0]) <= key(InsertByKey(x, s[1..], key)[j])
  {
    var rest := InsertByKey(x, s[1..], key);
    forall j | 0 <= j < |rest|
      ensures key(s[0]) <= key(rest[j])
    {
      if rest[j] != x {
        var m :| 0 <= m < |s[1..]| && s[1..][m] == rest[j];
        assert s[m + 1] == rest[j];
      }
    }
  }

  /** A head at or below every element of a sorted sequence keeps it sorted. */
  lemma SortedCons<T>(y: T, rest: seq<T>, key: T -> int)
    requires SortedByKey(rest, key)
    requires forall j :: 0 <= j < |rest| ==> key(y) <= key(rest[j])
    ensures SortedByKey([y] + rest, key)
  {
    var r := [y] + rest;
    forall i, j | 0 <= i < j < |r|
      ensures key(r[i]) <= key(r[j])
    {
      assert r[j] == rest[j - 1];
      if i > 0 {
        assert r[i] == rest[i - 1];
      }
    }
  }

  lemma {:induction false} InsertStable<T>(x: T, s: seq<T>, key: T -> int, k: int)
    requires SortedByKey(s, key)
    ensures WithKey(InsertByKey(x, s, key), key, k) == (if key(x) == k then [x] else []) + WithKey(s, key, k)
  {
    if |s| == 0 || key(x) <= key(s[0]) {
      assert InsertByKey(x, s, key) == [x] + s;
      WithKeyCons(x, s, key, k);
    } else {
      var rest := InsertByKey(x, s[1..], key);
      assert InsertByKey(x, s, key) == [s[0]] + rest;
      InsertStable(x, s[1..], key, k);
      StableStep(x, s[0], rest, s[1..], key, k);
      assert [s[0]] + s[1..] == s;
    }
  }

  /** Passing over a smaller-keyed `y` keeps `x` in the right place among equal keys. */
  lemma StableStep<T>(x: T, y: T, rest: seq<T>, tail: seq<T>, key: T -> int, k: int)
    requires key(x) > key(y)
    requires WithKey(rest, key, k) == (if key(x) == k then [x] else []) + WithKey(tail, key, k)
    ensures WithKey([y] + rest, key, k) == (if key(x) == k then [x] else []) + WithKey([y] + tail, key, k)
  {
    WithKeyCons(y, rest, key, k);
    WithKeyCons(y, tail, key, k);
    var w := WithKey(tail, key, k);
    if key(x) == k {
      assert WithKey([y] + rest, key, k) == WithKey(rest, key, k) == [x] + w;
      assert WithKey([y] + tail, key, k) == w;
    } else {
      assert WithKey(rest, key, k) == w;
    }
  }

  /**
    Stable insertion sort by `key`: the result is ascending, a permutation
    of the input, and elements with equal keys keep their relative order.
   */
  function SortByKey<T>(s: seq<T>, key: T -> int): (r: seq<T>)
    ensures SortedByKey(r, key)
    ensures multiset(r) == multiset(s)
    ensures forall k :: WithKey(r, key, k) == WithKey(s, key, k)
  {
    if |s| == 0 then []
    else
      var sorted := SortByKey(s[1..], key);
      assert s == [s[0]] + s[1..];
      SortStep(s[0], s[1..], sorted, key);
      InsertByKey(s[0], sorted, key)
  }

  /** Inserting the head into the sorted tail sorts the whole, stably. */
  lemma SortStep<T>(x: T, rest: seq<T>, sorted: seq<T>, key: T -> int)
    requires SortedByKey(sorted, key) && multiset(sorted) == multiset(rest)
    requires forall k :: WithKey(sorted, key, k) == WithKey(rest, key, k)
    ensures SortedByKey(InsertByKey(x, sorted, key), key)
    ensures multiset(InsertByKey(x, sorted, key)) == multiset([x] + rest)
    ensures forall k :: WithKey(InsertByKey(x, sorted, key), key, k) == WithKey([x] + rest, key, k)
  {
    InsertSorted(x, sorted, key);
    forall k
      ensures WithKey(InsertByKey(x, sorted, key), key, k) == WithKey([x] + rest, key, k)
    {
      InsertKeepsOrder(x, rest, sorted, key, k);
    }
  }

  /** Inserting `x` into a sorted copy of `s` keeps equal keys in the order of `[x] + s`. */
  lemma InsertKeepsOrder<T>(x: T, s: seq<T>, sorted: seq<T>, key: T -> int, k: int)
    requires SortedByKey(sorted, key) && WithKey(sorted, key, k) == WithKey(s, key, k)
    ensures WithKey(InsertByKey(x, sorted, key), key, k) == WithKey([x] + s, key, k)
  {
    InsertStable(x, sorted, key, k);
    WithKeyCons(x, s, key, k);
  }

  /** Two elements come out in key order, and in their given order on a tie. */
  lemma SortPair<T>(a: T, b: T, key: T -> int)
    ensures SortByKey([a, b], key) == (if key(a) <= key(b) then [a, b] else [b, a])
  {
    assert [a, b][1..] == [b];
    assert [b][1..] == [];
  }
}

=== FILE: dlc_perf.dfy ===
/**
  `DLCPerfAnalyzer`: a lifecycle performance log holds two-line records. A
  header line ending in ": " names the transition's document GUID, document
  type and thread; the line after it holds the transition name and its
  duration in milliseconds. The scan keeps the earliest and latest header
  timestamps, and the summary sorts the records by duration, picks out the
  ones over fifteen seconds, and tallies the transition names.
 */
module DlcPerf {
  import opened Wrappers
  import opened Strings
  import opened Numbers
  import opened Collections
  import opened Tallies

  const HeaderEnd: string := ": "
  const DetailsMarker: string := "Детали перехода "
  const DocumentMarker: string := "документа "
  const TimestampEnd: string := " DEBUG"
  const Millis: string := "ms"

  /** Durations above this many milliseconds are listed as long. */
  const LongMillis: int := 15000
  /** At most this many long records are printed. */
  const MaxDisplayed: nat := 100

  /** One record (`DLCPerfAnalyzer.Info`). */
  datatype PerfInfo = PerfInfo(
    guid: Option<string>,
    threadName: Option<string>,
    docType: Option<string>,
    transitionName: string,
    time: int)

  /** Only a line ending in ": " opens a record. */
  predicate IsHeader(line: string)
  {
    EndsWith(line, HeaderEnd)
  }

  /** The transition name and duration read from a detail line. */
  datatype Detail = Detail(name: string, time: int)

  /**
    The detail line: its first two characters dropped, the name runs to the
    first space, and the duration is the trimmed text between the name and
    "ms", read by `Integer.parseInt`. `None` is the exception (a missing
    "ms" makes `parseInt(null)` throw too).
   */
  function ParseDetail(next: string): (r: Option<Detail>)
    ensures r.Some? ==> !Contains(r.value.name, " ") && IsInt32(r.value.time)
    ensures r.Some? ==> SubstringBetween(SubstringFrom(next, 2), r.value.name, Millis).Some?
    ensures !Contains(SubstringFrom(next, 2), Millis) ==> r.None?
    ensures var rest := SubstringFrom(next, 2);
      var between := SubstringBetween(rest, SubstringBefore(rest, " "), Millis);
      && (r.None? <==> between.None? || ParseInt(Trim(between.value)).None?)
      && (r.Some? ==> r.value == Detail(SubstringBefore(rest, " "), ParseInt(Trim(between.value)).value))
  {
    var rest := SubstringFrom(next, 2);
    var name := SubstringBefore(rest, " ");
    match SubstringBetween(rest, name, Millis)
    case None => None
    case Some(between) =>
      match ParseInt(Trim(between))
      case None => None
      case Some(time) => Some(Detail(name, time))
  }

  /** The characters `Integer.toString` writes are digits or a minus sign, and the last is a digit. */
  lemma IntToStringChars(n: int)
    ensures forall i :: 0 <= i < |IntToString(n)| ==> IntToString(n)[i] == '-' || IsDigit(IntToString(n)[i])
    ensures |IntToString(n)| > 0 && IsDigit(IntToString(n)[|IntToString(n)| - 1])
  {
  }

  /** A name without spaces is what comes before the first space after it. */
  lemma {:induction false} NameBeforeSpace(name: string, digits: string, tail: string)
    requires ' ' !in name
    ensures SubstringBefore(name + " " + digits + Millis + tail, " ") == name
  {
    var rest := name + " " + digits + Millis + tail;
    assert OccursAt(rest, " ", |name|) by {
      assert rest[|name|..|name| + 1] == " ";
    }
    forall j: nat | j < |name|
      ensures !OccursAt(rest, " ", j)
    {
      assert rest[j..j + 1] == [name[j]];
    }
    IndexOfFirst(rest, " ", |name|);
    assert rest[..|name|] == name;
  }

  /** Between the name and the first "ms" after it lie the space and the digits. */
  lemma {:induction false} DurationBetween(name: string, digits: string, tail: string)
    requires forall i :: 0 <= i < |digits| ==> digits[i] != 'm'
    ensures SubstringBetween(name + " " + digits + Millis + tail, name, Millis) == Some(" " + digits)
  {
    var rest := name + " " + digits + Millis + tail;
    var close := |name| + 1 + |digits|;
    assert rest[..|name|] == name;
    assert rest[|name|..close] == " " + digits;
    assert rest[close..close + 2] == Millis;
    DurationLaidOut(rest, name, " " + digits, close);
  }

  /** `name` at the start, then `between` free of 'm' up to `close`, then "ms". */
  lemma DurationLaidOut(s: string, name: string, between: string, close: nat)
    requires |name| <= close && close + 2 <= |s|
    requires s[..|name|] == name && s[|name|..close] == between && s[close..close + 2] == Millis
    requires forall i :: 0 <= i < |between| ==> between[i] != 'm'
    ensures SubstringBetween(s, name, Millis) == Some(between)
  {
    assert OccursAt(s, name, 0);
    IndexOfFirst(s, name, 0);
    assert OccursAt(s, Millis, close);
    forall j: nat | |name| <= j < close
      ensures !OccursAt(s, Millis, j)
    {
      assert s[j] == between[j - |name|];
    }
    IndexFromFirst(s, Millis, |name|, close);
  }

  /**
    A detail line written as two arbitrary characters, a name without
    spaces, a space, the duration, "ms" and any tail reads back as that name
    and duration.
   */
  lemma {:induction false} ParseDetailRoundTrip(lead: string, name: string, time: int, tail: string)
    requires |lead| == 2 && ' ' !in name && IsInt32(time)
    ensures ParseDetail(lead + name + " " + IntToString(time) + Millis + tail) == Some(Detail(name, time))
  {
    var digits := IntToString(time);
    IntToStringChars(time);
    var rest := name + " " + digits + Millis + tail;
    var line := lead + name + " " + digits + Millis + tail;
    DropLead(lead, name, digits, tail);
    NameBeforeSpace(name, digits, tail);
    DurationBetween(name, digits, tail);
    LeadingSpaceTrimmed(digits);
    ParseIntToString(time);
    ParseDetailSteps(line, rest, name, " " + digits, time);
  }

  lemma DropLead(lead: string, name: string, digits: string, tail: string)
    requires |lead| == 2
    ensures SubstringFrom(lead + name + " " + digits + Millis + tail, 2) == name + " " + digits + Millis + tail
  {
    var rest := name + " " + digits + Millis + tail;
    assert lead + name + " " + digits + Millis + tail == lead + rest;
    assert (lead + rest)[2..] == rest;
  }

  lemma LeadingSpaceTrimmed(digits: string)
    requires |digits| > 0 && !IsBlank(digits[0]) && !IsBlank(digits[|digits| - 1])
    ensures Trim(" " + digits) == digits
  {
    TrimPadded(" ", digits, "");
    assert " " + digits + "" == " " + digits;
  }

  /** The three readings of a detail line, one after another. */
  lemma ParseDetailSteps(next: string, rest: string, name: string, between: string, time: int)
    requires SubstringFrom(next, 2) == rest && SubstringBefore(rest, " ") == name
    requires SubstringBetween(rest, name, Millis) == Some(between)
    requires ParseInt(Trim(between)) == Some(time)
    ensures ParseDetail(next) == Some(Detail(name, time))
  {
  }

  /** What a header line names: `substringBetween` on its three markers. */
  datatype Header = Header(guid: Option<string>, docType: Option<string>, threadName: Option<string>)

  /**
    The GUID runs from "Детали перехода " to the next space, the document
    type from "документа " to the next ':', the thread from the first '['
    to the next ']'; a field is `None` when its markers are missing.
   */
  function HeaderOf(line: string): (h: Header)
    ensures h.guid.Some? ==> ' ' !in h.guid.value
    ensures h.docType.Some? ==> ':' !in h.docType.value
    ensures h.threadName.Some? ==> ']' !in h.threadName.value
    ensures !Contains(line, DetailsMarker) ==> h.guid.None?
    ensures !Contains(line, DocumentMarker) ==> h.docType.None?
  {
    var guid := SubstringBetween(line, DetailsMarker, " ");
    var docType := SubstringBetween(line, DocumentMarker, ":");
    var threadName := SubstringBetween(line, "[", "]");
    assert guid.Some? ==> ' ' !in guid.value by {
      if guid.Some? {
        BetweenLacksClose(line, DetailsMarker, ' ', guid.value);
      }
    }
    assert docType.Some? ==> ':' !in docType.value by {
      if docType.Some? {
        BetweenLacksClose(line, DocumentMarker, ':', docType.value);
      }
    }
    assert threadName.Some? ==> ']' !in threadName.value by {
      if threadName.Some? {
        BetweenLacksClose(line, "[", ']', threadName.value);
      }
    }
    Header(guid, docType, threadName)
  }

  /**
    A header laid out as the performance log writes it (timestamp and
    thread, then "Детали перехода ", the GUID, a space, then "документа ",
    the document type and ':') reads back its three fields.
   */
  lemma {:induction false} HeaderOfLine(pre: string, thread: string, mid: string, guid: string, gap: string, docType: string, post: string)
    requires '[' !in pre && ']' !in thread
    requires DetailsMarker[0] !in pre + "[" + thread + "]" + mid
    requires ' ' !in guid && ':' !in docType
    requires !Contains(pre + "[" + thread + "]" + mid + DetailsMarker + guid + " " + gap
      + DocumentMarker[..|DocumentMarker| - 1], DocumentMarker)
    ensures HeaderOf(pre + "[" + thread + "]" + mid + DetailsMarker + guid + " " + gap + DocumentMarker + docType + ":" + post)
      == Header(Some(guid), Some(docType), Some(thread))
  {
    HeaderThread(pre, thread, mid, guid, gap, docType, post);
    HeaderGuid(pre, thread, mid, guid, gap, docType, post);
    HeaderDocType(pre, thread, mid, guid, gap, docType, post);
  }

  lemma HeaderThread(pre: string, thread: string, mid: string, guid: string, gap: string, docType: string, post: string)
    requires '[' !in pre && ']' !in thread
    ensures SubstringBetween(pre + "[" + thread + "]" + mid + DetailsMarker + guid + " " + gap + DocumentMarker + docType + ":" + post, "[", "]")
      == Some(thread)
  {
    var rest := mid + DetailsMarker + guid + " " + gap + DocumentMarker + docType + ":" + post;
    assert pre + "[" + thread + "]" + mid + DetailsMarker + guid + " " + gap + DocumentMarker + docType + ":" + post
      == pre + "[" + thread + "]" + rest;
    BetweenChars(pre, '[', thread, ']', rest);
  }

  lemma HeaderGuid(pre: string, thread: string, mid: string, guid: string, gap: string, docType: string, post: string)
    requires DetailsMarker[0] !in pre + "[" + thread + "]" + mid && ' ' !in guid
    ensures SubstringBetween(pre + "[" + thread + "]" + mid + DetailsMarker + guid + " " + gap + DocumentMarker + docType + ":" + post,
      DetailsMarker, " ") == Some(guid)
  {
    var a := pre + "[" + thread + "]" + mid;
    var rest := gap + DocumentMarker + docType + ":" + post;
    assert a + DetailsMarker + guid + " " + gap + DocumentMarker + docType + ":" + post
      == a + DetailsMarker + guid + " " + rest;
    BetweenMarker(a, DetailsMarker, guid, ' ', rest);
  }

  lemma HeaderDocType(pre: string, thread: string, mid: string, guid: string, gap: string, docType: string, post: string)
    requires ':' !in docType
    requires !Contains(pre + "[" + thread + "]" + mid + DetailsMarker + guid + " " + gap
      + DocumentMarker[..|DocumentMarker| - 1], DocumentMarker)
    ensures SubstringBetween(pre + "[" + thread + "]" + mid + DetailsMarker + guid + " " + gap + DocumentMarker + docType + ":" + post,
      DocumentMarker, ":") == Some(docType)
  {
    var a := pre + "[" + thread + "]" + mid + DetailsMarker + guid + " " + gap;
    BetweenEarliest(a, DocumentMarker, docType, ':', post);
  }

  /** The list and the two bounds `analyze` shares across files. */
  datatype PerfState = PerfState(infos: seq<PerfInfo>, startLog: int, endLog: int)

  /**
    The state `main` starts from: no records, the first-header bound at
    `java.sql.Date.valueOf("2050-01-01")` and the last-header bound at
    `java.sql.Date.valueOf("2000-01-01")`. Both are local midnight in the
    default time zone, so their epoch values are parameters, like the
    timestamps the date parser reads.
   */
  function Initial(farFuture: int, farPast: int): PerfState
  {
    PerfState([], farFuture, farPast)
  }

  /**
    A file's outcome: the state, the timestamps of the headers that were
    read (the ones that moved, or could have moved, the bounds), and
    whether an exception abandoned the file.
   */
  datatype PerfFile = PerfFile(state: PerfState, headerTimes: seq<int>, aborted: bool)

  function Min(a: int, b: int): int
  {
    if b < a then b else a
  }

  function Max(a: int, b: int): int
  {
    if b > a then b else a
  }

  /**
    `analyze` over one file. A header that is the last line is skipped
    before its timestamp is read; otherwise the bounds move first, then the
    detail line is read and consumed, so it never counts as a header.
   */
  function ScanFile(st: PerfState, lines: seq<string>, parseTime: string -> Option<int>): (r: PerfFile)
    ensures st.infos <= r.state.infos
    ensures |r.state.infos| - |st.infos| <= |lines| / 2
    ensures |r.state.infos| - |st.infos| <= |r.headerTimes|
    decreases |lines|
  {
    if |lines| == 0 then PerfFile(st, [], false)
    else if !IsHeader(lines[0]) || |lines| == 1 then ScanFile(st, lines[1..], parseTime)
    else
      match parseTime(SubstringBefore(lines[0], TimestampEnd))
      case None => PerfFile(st, [], true)
      case Some(t) =>
        var bounded := st.(startLog := Min(st.startLog, t), endLog := Max(st.endLog, t));
        match ParseDetail(lines[1])
        case None => PerfFile(bounded, [t], true)
        case Some(detail) =>
          var header := HeaderOf(lines[0]);
          var info := PerfInfo(header.guid, header.threadName, header.docType, detail.name, detail.time);
          var r := ScanFile(bounded.(infos := st.infos + [info]), lines[2..], parseTime);
          PerfFile(r.state, [t] + r.headerTimes, r.aborted)
  }

  /** The bounds enclose every header timestamp read. */
  predicate Encloses(st: PerfState, times: seq<int>)
  {
    forall i :: 0 <= i < |times| ==> st.startLog <= times[i] <= st.endLog
  }

  /**
    From `before` to `after`, `startLog` became the least and `endLog` the
    greatest of the previous bounds and `times`: they bound every one of
    them and each is either unchanged or attained.
   */
  predicate Bounds(before: PerfState, after: PerfState, times: seq<int>)
  {
    && after.startLog <= before.startLog && before.endLog <= after.endLog
    && Encloses(after, times)
    && (after.startLog == before.startLog || after.startLog in times)
    && (after.endLog == before.endLog || after.endLog in times)
  }

  lemma BoundsNone(st: PerfState, other: PerfState)
    requires st.startLog == other.startLog && st.endLog == other.endLog
    ensures Bounds(st, other, [])
  {
  }

  /** One timestamp folded into the bounds, then the rest. */
  lemma {:induction false} BoundsCons(before: PerfState, mid: PerfState, after: PerfState, t: int, times: seq<int>)
    requires mid.startLog == Min(before.startLog, t) && mid.endLog == Max(before.endLog, t)
    requires Bounds(mid, after, times)
    ensures Bounds(before, after, [t] + times)
  {
    var all := [t] + times;
    forall i | 0 <= i < |all|
      ensures after.startLog <= all[i] <= after.endLog
    {
      if i > 0 {
        assert all[i] == times[i - 1];
      }
    }
    assert after.startLog in times ==> after.startLog in all;
    assert after.endLog in times ==> after.endLog in all;
  }

  lemma {:induction false} BoundsConcat(a: PerfState, b: PerfState, c: PerfState, s: seq<int>, t: seq<int>)
    requires Bounds(a, b, s) && Bounds(b, c, t)
    ensures Bounds(a, c, s + t)
  {
    var all := s + t;
    forall i | 0 <= i < |all|
      ensures c.startLog <= all[i] <= c.endLog
    {
      if i < |s| {
        assert all[i] == s[i];
      } else {
        assert all[i] == t[i - |s|];
      }
    }
    assert c.startLog in s ==> c.startLog in all;
    assert c.startLog in t ==> c.startLog in all;
    assert b.startLog in s ==> b.startLog in all;
    assert c.endLog in s ==> c.endLog in all;
    assert c.endLog in t ==> c.endLog in all;
    assert b.endLog in s ==> b.endLog in all;
  }

  /**
    After a file, `startLog` is the least and `endLog` the greatest of the
    previous bounds and the header timestamps read.
   */
  lemma {:induction false} ScanFileBounds(st: PerfState, lines: seq<string>, parseTime: string -> Option<int>)
    ensures var r := ScanFile(st, lines, parseTime); Bounds(st, r.state, r.headerTimes)
    decreases |lines|
  {
    if |lines| == 0 {
      BoundsNone(st, st);
    } else if !IsHeader(lines[0]) || |lines| == 1 {
      ScanFileBounds(st, lines[1..], parseTime);
    } else {
      match parseTime(SubstringBefore(lines[0], TimestampEnd))
      case None =>
        BoundsNone(st, st);
      case Some(t) =>
        var bounded := st.(startLog := Min(st.startLog, t), endLog := Max(st.endLog, t));
        match ParseDetail(lines[1])
        case None =>
          BoundsNone(bounded, bounded);
          BoundsCons(st, bounded, bounded, t, []);
          assert [t] + [] == [t];
        case Some(detail) =>
          var header := HeaderOf(lines[0]);
          var info := PerfInfo(header.guid, header.threadName, header.docType, detail.name, detail.time);
          var next := bounded.(infos := st.infos + [info]);
          var rest := ScanFile(next, lines[2..], parseTime);
          assert ScanFile(st, lines, parseTime) == PerfFile(rest.state, [t] + rest.headerTimes, rest.aborted);
          ScanFileBounds(next, lines[2..], parseTime);
          BoundsCons(st, next, rest.state, t, rest.headerTimes);
    }
  }

  /** A header on the last line of a file is dropped: nothing is read, nothing moves. */
  lemma LastHeaderIgnored(st: PerfState, header: string, parseTime: string -> Option<int>)
    ensures ScanFile(st, [header], parseTime) == PerfFile(st, [], false)
  {
  }

  /**
    A header with a readable timestamp followed by a detail line adds
    exactly one record when the detail line reads, and otherwise abandons
    the file with no record added.
   */
  lemma {:induction false} HeaderAndDetail(st: PerfState, header: string, detail: string, parseTime: string -> Option<int>)
    requires IsHeader(header) && parseTime(SubstringBefore(header, TimestampEnd)).Some?
    ensures var r := ScanFile(st, [header, detail], parseTime);
      && |r.state.infos| == |st.infos| + (if ParseDetail(detail).Some? then 1 else 0)
      && (r.aborted <==> ParseDetail(detail).None?)
  {
    var t := parseTime(SubstringBefore(header, TimestampEnd)).value;
    if ParseDetail(detail).Some? {
      DetailRead(st, header, detail, parseTime, t, ParseDetail(detail).value);
    } else {
      DetailUnread(st, header, detail, parseTime, t);
    }
  }

  /** A readable detail line after its header: one record and no abandonment. */
  lemma DetailRead(st: PerfState, header: string, detail: string, parseTime: string -> Option<int>, t: int, d: Detail)
    requires IsHeader(header) && parseTime(SubstringBefore(header, TimestampEnd)) == Some(t)
    requires ParseDetail(detail) == Some(d)
    ensures |ScanFile(st, [header, detail], parseTime).state.infos| == |st.infos| + 1
    ensures !ScanFile(st, [header, detail], parseTime).aborted
  {
    var lines := [header, detail];
    assert lines[0] == header && lines[1] == detail && lines[2..] == [];
  }

  /** An unreadable detail line after its header: the file is abandoned with no record. */
  lemma DetailUnread(st: PerfState, header: string, detail: string, parseTime: string -> Option<int>, t: int)
    requires IsHeader(header) && parseTime(SubstringBefore(header, TimestampEnd)) == Some(t)
    requires ParseDetail(detail).None?
    ensures ScanFile(st, [header, detail], parseTime)
            == PerfFile(st.(startLog := Min(st.startLog, t), endLog := Max(st.endLog, t)), [t], true)
  {
    var lines := [header, detail];
    assert lines[0] == header && lines[1] == detail;
  }

  /** A header with a readable timestamp followed by a readable detail line: one record, then the rest of the file. */
  lemma ScanHeaderStep(st: PerfState, lines: seq<string>, parseTime: string -> Option<int>, t: int, d: Detail)
    requires |lines| >= 2 && IsHeader(lines[0])
    ensures parseTime(SubstringBefore(lines[0], TimestampEnd)) == Some(t) && ParseDetail(lines[1]) == Some(d) ==>
      var h := HeaderOf(lines[0]);
      var next := PerfState(st.infos + [PerfInfo(h.guid, h.threadName, h.docType, d.name, d.time)], Min(st.startLog, t), Max(st.endLog, t));
      ScanFile(st, lines, parseTime).state == ScanFile(next, lines[2..], parseTime).state
  {
  }

  /**
    The detail line is consumed with its header: a detail line that itself
    ends in ": " is not read as a second header.
   */
  lemma {:induction false} DetailNotRescanned(st: PerfState, header: string, name: string, time: int, parseTime: string -> Option<int>)
    requires IsHeader(header) && parseTime(SubstringBefore(header, TimestampEnd)).Some?
    requires ' ' !in name && IsInt32(time)
    ensures var detail := "  " + name + " " + IntToString(time) + Millis + HeaderEnd;
      IsHeader(detail) && |ScanFile(st, [header, detail], parseTime).state.infos| == |st.infos| + 1
  {
    var detail := "  " + name + " " + IntToString(time) + Millis + HeaderEnd;
    ParseDetailRoundTrip("  ", name, time, HeaderEnd);
    HeaderAndDetail(st, header, detail, parseTime);
    assert detail[|detail| - 2..] == HeaderEnd;
  }

  /** `main`: the files one after another, sharing the list and the two bounds. */
  function ScanFiles(st: PerfState, files: seq<seq<string>>, parseTime: string -> Option<int>): (r: PerfFile)
    ensures st.infos <= r.state.infos
    decreases |files|
  {
    if |files| == 0 then PerfFile(st, [], false)
    else
      var first := ScanFile(st, files[0], parseTime);
      var rest := ScanFiles(first.state, files[1..], parseTime);
      PerfFile(rest.state, first.headerTimes + rest.headerTimes, first.aborted || rest.aborted)
  }

  /** Across files the bounds are still the least and greatest of everything read. */
  lemma {:induction false} ScanFilesBounds(st: PerfState, files: seq<seq<string>>, parseTime: string -> Option<int>)
    ensures var r := ScanFiles(st, files, parseTime); Bounds(st, r.state, r.headerTimes)
    decreases |files|
  {
    if |files| == 0 {
      BoundsNone(st, st);
    } else {
      var first := ScanFile(st, files[0], parseTime);
      var rest := ScanFiles(first.state, files[1..], parseTime);
      ScanFileBounds(st, files[0], parseTime);
      ScanFilesBounds(first.state, files[1..], parseTime);
      BoundsConcat(st, first.state, rest.state, first.headerTimes, rest.headerTimes);
    }
  }

  /** Longest first. */
  predicate Descending(s: seq<PerfInfo>)
  {
    forall i, j :: 0 <= i < j < |s| ==> s[i].time >= s[j].time
  }

  function NegTime(i: PerfInfo): int
  {
    -i.time
  }

  function IsLongInfo(i: PerfInfo): bool
  {
    i.time > LongMillis
  }

  /**
    `infos.sort(naturalOrder())` with `Info.compareTo` comparing the other's
    time to this one's: longest first, stable among equal times.
   */
  function SortByDuration(infos: seq<PerfInfo>): (r: seq<PerfInfo>)
    ensures Descending(r)
    ensures multiset(r) == multiset(infos)
    ensures |r| == |infos|
    ensures forall k :: WithKey(r, NegTime, k) == WithKey(infos, NegTime, k)
  {
    var r := SortByKey(infos, NegTime);
    assert forall i, j :: 0 <= i < j < |r| ==> NegTime(r[i]) <= NegTime(r[j]);
    assert |r| == |infos| by { assert |multiset(r)| == |multiset(infos)|; }
    r
  }

  /** Every record is over fifteen seconds. */
  predicate AllLong(s: seq<PerfInfo>)
  {
    forall i :: 0 <= i < |s| ==> s[i].time > LongMillis
  }

  /** The records over fifteen seconds, in the sorted order. */
  function LongInfos(sorted: seq<PerfInfo>): (r: seq<PerfInfo>)
    ensures AllLong(r)
  {
    Filter(sorted, IsLongInfo)
  }

  /** Filtering keeps the order of what it keeps. */
  lemma {:induction false} FilterDescending(s: seq<PerfInfo>)
    requires Descending(s)
    ensures Descending(Filter(s, IsLongInfo))
  {
    if |s| > 0 {
      var rest := Filter(s[1..], IsLongInfo);
      FilterDescending(s[1..]);
      if IsLongInfo(s[0]) {
        forall j | 0 <= j < |rest|
          ensures s[0].time >= rest[j].time
        {
          assert rest[j] in multiset(rest);
          HeadDominates(s, rest[j]);
        }
        DescendingCons(s[0], rest);
      }
    }
  }

  /** In a descending list the head is at least as long as anything after it. */
  lemma HeadDominates(s: seq<PerfInfo>, x: PerfInfo)
    requires Descending(s) && |s| > 0 && x in multiset(s[1..])
    ensures s[0].time >= x.time
  {
    var k :| 0 <= k < |s[1..]| && s[1..][k] == x;
    assert s[k + 1] == x;
  }

  lemma DescendingCons(x: PerfInfo, rest: seq<PerfInfo>)
    requires Descending(rest)
    requires forall j :: 0 <= j < |rest| ==> x.time >= rest[j].time
    ensures Descending([x] + rest)
  {
    var r := [x] + rest;
    forall i, j | 0 <= i < j < |r|
      ensures r[i].time >= r[j].time
    {
      assert r[j] == rest[j - 1];
      if i > 0 {
        assert r[i] == rest[i - 1];
      }
    }
  }

  /** The long list holds exactly the records over fifteen seconds. */
  lemma LongInfosExact(infos: seq<PerfInfo>)
    ensures Descending(LongInfos(SortByDuration(infos)))
    ensures forall x :: x in LongInfos(SortByDuration(infos)) <==> x in infos && x.time > LongMillis
    ensures multiset(LongInfos(SortByDuration(infos))) == multiset(Filter(infos, IsLongInfo))
  {
    var sorted := SortByDuration(infos);
    var r := LongInfos(sorted);
    FilterDescending(sorted);
    FilterPermutation(sorted, infos, IsLongInfo);
    forall x
      ensures x in r <==> x in infos && x.time > LongMillis
    {
      if x in r {
        assert x in multiset(r);
        assert x in multiset(sorted);
      }
      if x in infos && x.time > LongMillis {
        assert x in multiset(infos);
        assert x in multiset(sorted);
        var i :| 0 <= i < |sorted| && sorted[i] == x;
        FilterKeeps(sorted, IsLongInfo, i);
      }
    }
  }

  /** What is printed of the long list: its first hundred records. */
  function Displayed(long: seq<PerfInfo>): (r: seq<PerfInfo>)
    ensures r <= long
    ensures |r| == if |long| > MaxDisplayed then MaxDisplayed else |long|
  {
    if |long| > MaxDisplayed then long[..MaxDisplayed] else long
  }

  lemma DisplayedLong(long: seq<PerfInfo>)
    requires AllLong(long)
    ensures AllLong(Displayed(long))
  {
  }

  /** The printed records are the longest ones: none left out is longer than one printed. */
  lemma DisplayedAreLongest(infos: seq<PerfInfo>)
    ensures var long := LongInfos(SortByDuration(infos));
      var shown := Displayed(long);
      forall i, j :: 0 <= i < |shown| && |shown| <= j < |long| ==> shown[i].time >= long[j].time
  {
    LongInfosExact(infos);
  }

  function TransitionNames(infos: seq<PerfInfo>): (r: seq<string>)
    ensures |r| == |infos|
    ensures forall i :: 0 <= i < |infos| ==> r[i] == infos[i].transitionName
  {
    seq(|infos|, i requires 0 <= i < |infos| => infos[i].transitionName)
  }

  /**
    `formatTransitionCounts1` (`tb == NameAscending`) and
    `formatTransitionCounts` (`tb == NameDescending`): one tally per
    transition name with its number of records, count first. `order` is the
    grouping map's iteration order.
   */
  function TransitionTallies(infos: seq<PerfInfo>, order: seq<string>, tb: TieBreak): (r: seq<Tally>)
    requires Enumerates(order, TallyNames(TransitionNames(infos)).Keys)
    ensures SortedBy(r, tb)
    ensures forall t :: t in r <==>
      t.name in TransitionNames(infos) && t.count == multiset(TransitionNames(infos))[t.name]
  {
    ListCounts(TallyNames(TransitionNames(infos)), order, tb)
  }

  /** The per-name counts add up to the number of records. */
  lemma TalliesTotal(infos: seq<PerfInfo>)
    ensures SumMap(TallyNames(TransitionNames(infos))) == |infos|
  {
  }

  /** The printed summary of `main`. */
  datatype PerfReport = PerfReport(
    startLog: int,
    endLog: int,
    total: nat,
    tallies: seq<Tally>,
    longCount: nat,
    shown: seq<PerfInfo>,
    sorted: seq<PerfInfo>)

  function Summary(st: PerfState, order: seq<string>): (r: PerfReport)
    requires Enumerates(order, TallyNames(TransitionNames(st.infos)).Keys)
    ensures r.total == |st.infos| == |r.sorted|
    ensures |r.shown| <= MaxDisplayed && r.longCount >= |r.shown|
    ensures r.longCount == |Filter(st.infos, IsLongInfo)|
    ensures AllLong(r.shown)
    ensures SortedBy(r.tallies, NameAscending)
  {
    var sorted := SortByDuration(st.infos);
    var long := LongInfos(sorted);
    DisplayedLong(long);
    LongInfosExact(st.infos);
    assert |multiset(long)| == |multiset(Filter(st.infos, IsLongInfo))|;
    PerfReport(st.startLog, st.endLog, |st.infos|, TransitionTallies(st.infos, order, NameAscending),
      |long|, Displayed(long), sorted)
  }
}

=== FILE: intervals.dfy ===
/**
  Epoch-aligned interval counting, as `LogAnalyzer.writeTransitionsByInterval`
  and `PoibAnalyzer.writeRequestsByInterval` do it: a timestamp `t` (epoch
  milliseconds) falls in the window starting at `(t / w) * w`, where `w` is
  the width in milliseconds and `/` is Java's `long` division.
 */
module Intervals {
  import opened Collections

  const MillisPerMinute: int := 60 * 1000

  /** Java's `/` on `long`, which truncates toward zero (Dafny's `/` is Euclidean). */
  function JavaDiv(a: int, b: int): (q: int)
    requires b > 0
    ensures a >= 0 ==> q >= 0 && q * b <= a < q * b + b
    ensures a < 0 ==> q <= 0 && q * b - b < a <= q * b
  {
    if a >= 0 then a / b else -((-a) / b)
  }

  /**
    A window `[start, end)`; the source keys its counts by the formatted
    pair, and the pair itself is kept here.
   */
  datatype Interval = Interval(start: int, end: int)

  /** The window of `t` for a width of `w` milliseconds. */
  function IntervalOf(t: int, w: int): (iv: Interval)
    requires w > 0
    ensures iv.end - iv.start == w
    ensures t >= 0 ==> 0 <= iv.start <= t < iv.end
    ensures t < 0 ==> iv.start - w < t <= iv.start <= 0
  {
    var q := JavaDiv(t, w);
    Interval(q * w, q * w + w)
  }

  lemma MulSign(d: int, w: int)
    requires w > 0
    ensures d >= 1 ==> d * w >= w
    ensures d <= -1 ==> d * w <= -w
  {
  }

  /** Two multiples of `w` whose windows both hold `t` are the same multiple. */
  lemma SameWindow(q: int, c: int, w: int, t: int)
    requires w > 0
    requires q * w <= t < q * w + w
    requires c * w <= t < c * w + w
    ensures q == c
  {
    var d := q - c;
    assert d * w == q * w - c * w;
    MulSign(d, w);
  }

  /**
    For a non-negative time, the windows are exactly the aligned ones: `t`
    is assigned to `[c*w, c*w + w)` if and only if it lies inside it.
   */
  lemma IntervalOfWithin(t: int, w: int, c: nat)
    requires w > 0 && t >= 0
    ensures IntervalOf(t, w) == Interval(c * w, c * w + w) <==> c * w <= t < c * w + w
  {
    var q := JavaDiv(t, w);
    assert IntervalOf(t, w) == Interval(q * w, q * w + w);
    if c * w <= t < c * w + w {
      SameWindow(q, c, w, t);
    }
  }

  /** How many of `times` lie in `[lo, hi)`. */
  function CountWithin(times: seq<int>, lo: int, hi: int): nat
  {
    if |times| == 0 then 0
    else CountWithin(times[..|times| - 1], lo, hi) + (if lo <= times[|times| - 1] < hi then 1 else 0)
  }

  /** How many of `times` are assigned to the window `iv`. */
  function Assigned(times: seq<int>, w: int, iv: Interval): nat
    requires w > 0
  {
    if |times| == 0 then 0
    else Assigned(times[..|times| - 1], w, iv) + (if IntervalOf(times[|times| - 1], w) == iv then 1 else 0)
  }

  /**
    The per-window counts of a `TreeMap` filled by `getOrDefault(key, 0) + 1`:
    each window's count is the number of timestamps assigned to it, a window
    no timestamp is assigned to is absent, and the counts add up to the
    number of timestamps.
   */
  function CountByInterval(times: seq<int>, w: int): (r: map<Interval, nat>)
    requires w > 0
    ensures forall iv :: iv in r ==> r[iv] == Assigned(times, w, iv) > 0
    ensures forall iv :: iv !in r ==> Assigned(times, w, iv) == 0
    ensures SumMap(r) == |times|
  {
    if |times| == 0 then map[]
    else
      var before := CountByInterval(times[..|times| - 1], w);
      Increment(before, IntervalOf(times[|times| - 1], w))
  }

  /**
    For non-negative timestamps the count of an aligned window is the number
    of timestamps inside it.
   */
  lemma {:induction false} AssignedWithin(times: seq<int>, w: int, c: nat)
    requires w > 0
    requires forall i :: 0 <= i < |times| ==> times[i] >= 0
    ensures Assigned(times, w, Interval(c * w, c * w + w)) == CountWithin(times, c * w, c * w + w)
  {
    if |times| > 0 {
      IntervalOfWithin(times[|times| - 1], w, c);
      AssignedWithin(times[..|times| - 1], w, c);
    }
  }

  /** Every window that gets a count is an aligned one: `[c*w, c*w + w)` for some `c`. */
  lemma {:induction false} AssignedAligned(times: seq<int>, w: int, iv: Interval)
    requires w > 0
    requires forall i :: 0 <= i < |times| ==> times[i] >= 0
    requires Assigned(times, w, iv) > 0
    ensures iv.start >= 0 && iv == Interval((iv.start / w) * w, (iv.start / w) * w + w)
  {
    var t := times[|times| - 1];
    if IntervalOf(t, w) == iv {
      var q := JavaDiv(t, w);
      assert iv == Interval(q * w, q * w + w);
      DivMultiple(q, w);
    } else {
      AssignedAligned(times[..|times| - 1], w, iv);
    }
  }

  lemma DivMultiple(q: nat, w: int)
    requires w > 0
    ensures (q * w) / w == q
  {
    var x := q * w;
    SameWindow(x / w, q, w, x);
  }

  /**
    For non-negative timestamps each window's count is the number of
    timestamps inside that half-open window.
   */
  lemma CountByIntervalWithin(times: seq<int>, w: int)
    requires w > 0
    requires forall i :: 0 <= i < |times| ==> times[i] >= 0
    ensures var r := CountByInterval(times, w);
      forall iv :: iv in r ==> r[iv] == CountWithin(times, iv.start, iv.end)
  {
    var r := CountByInterval(times, w);
    forall iv | iv in r
      ensures r[iv] == CountWithin(times, iv.start, iv.end)
    {
      AssignedAligned(times, w, iv);
      AssignedWithin(times, w, iv.start / w);
    }
  }

  /** Counting over two stretches is counting over each. */
  lemma {:induction false} AssignedAppend(a: seq<int>, b: seq<int>, w: int, iv: Interval)
    requires w > 0
    ensures Assigned(a + b, w, iv) == Assigned(a, w, iv) + Assigned(b, w, iv)
    decreases |b|
  {
    if |b| == 0 {
      assert a + b == a;
    } else {
      assert (a + b)[..|a + b| - 1] == a + b[..|b| - 1];
      AssignedAppend(a, b[..|b| - 1], w, iv);
    }
  }

  /** The count of a window does not depend on the order of the timestamps. */
  lemma {:induction false} AssignedPermutation(a: seq<int>, b: seq<int>, w: int, iv: Interval)
    requires w > 0 && multiset(a) == multiset(b)
    ensures Assigned(a, w, iv) == Assigned(b, w, iv)
    decreases |a|
  {
    if |a| == 0 {
      assert |multiset(b)| == 0;
    } else {
      var x := a[|a| - 1];
      var a' := a[..|a| - 1];
      assert x in multiset(b) by { assert x in multiset(a); }
      var i :| 0 <= i < |b| && b[i] == x;
      PermutationLast(a, b, i);
      AssignedPermutation(a', b[..i] + b[i + 1..], w, iv);
      AssignedAppend(a', [x], w, iv);
      AssignedSplice(b[..i], x, b[i + 1..], w, iv);
    }
  }

  /** Taking one timestamp out of the middle takes its contribution out of the count. */
  lemma AssignedSplice(l: seq<int>, x: int, r: seq<int>, w: int, iv: Interval)
    requires w > 0
    ensures Assigned(l + [x] + r, w, iv) == Assigned(l + r, w, iv) + Assigned([x], w, iv)
  {
    AssignedAppend(l + [x], r, w, iv);
    AssignedAppend(l, [x], w, iv);
    AssignedAppend(l, r, w, iv);
  }

  /** Sorting the timestamps first, as the writers do, leaves every count unchanged. */
  lemma CountByIntervalPermutation(a: seq<int>, b: seq<int>, w: int)
    requires w > 0 && multiset(a) == multiset(b)
    ensures CountByInterval(a, w) == CountByInterval(b, w)
  {
    var ra, rb := CountByInterval(a, w), CountByInterval(b, w);
    forall iv
      ensures Assigned(a, w, iv) == Assigned(b, w, iv)
    {
      AssignedPermutation(a, b, w, iv);
    }
    assert ra.Keys == rb.Keys;
  }
}

=== FILE: log_analyzer.dfy ===
/**
  The line scanner of `LogAnalyzer.analyze`: each line of a server log is
  either a document check ("Операция checkDocument"), a transition start or
  end logged by the lifecycle service, or noise. Transition records are
  kept per document GUID in arrival order, counted, and start records are
  also filed in `infosByDate`, a set ordered (and deduplicated) by time.
  Timestamps are epoch milliseconds; the date parser is the parameter
  `parseTime`, and `None` from it is the `ParseException` that abandons the
  rest of the file.
 */
module LogAnalyzer {
  import opened Wrappers
  import opened Strings
  import opened Collections

  const VerifyMarker: string := "Операция checkDocument"
  const VerifyFinished: string := "завершена"
  const ServiceMarker: string := "[c.o.s.s.d.LifeCycleServiceImpl]"
  const TransitionMarker: string := "Переход "
  const DocumentSeparator: string := " для документа "
  const StartedStatus: string := "запущен."
  const TimestampEnd: string := " INFO"

  /** One transition record (`LogAnalyzer.Info`). */
  datatype Info = Info(timeLog: int, transitionName: string, threadName: Option<string>, isStart: bool)

  /** A document GUID; `None` when the record had no `[...]` after the separator. */
  type Guid = Option<string>

  /** What one line amounts to. */
  datatype LineKind =
    | VerifyLine(finished: bool)              // counted as a check start or end
    | Ignored                                 // not a lifecycle transition line
    | BadTimestamp                            // the timestamp did not parse: the file is abandoned
    | Unparsed                                // not exactly two parts around the separator
    | Transition(guid: Guid, info: Info)

  /** Does this line carry both markers of a lifecycle transition message? */
  predicate IsTransitionLine(line: string)
  {
    Contains(line, ServiceMarker) && Contains(line, TransitionMarker)
  }

  /**
    The classification `analyze` applies to one line, in its order: check
    lines first, then the two transition markers, then the timestamp, then
    the split around " для документа ".
   */
  function ClassifyLine(line: string, parseTime: string -> Option<int>): (k: LineKind)
    ensures k.VerifyLine? <==> Contains(line, VerifyMarker)
    ensures k.VerifyLine? ==> (k.finished <==> Contains(line, VerifyFinished))
    ensures k.Ignored? <==> !Contains(line, VerifyMarker) && !IsTransitionLine(line)
    ensures k.BadTimestamp? <==>
      !Contains(line, VerifyMarker) && IsTransitionLine(line) && parseTime(SubstringBefore(line, TimestampEnd)).None?
    ensures k.Transition? ==>
      && IsTransitionLine(line)
      && Some(k.info.timeLog) == parseTime(SubstringBefore(line, TimestampEnd))
      && k.info.threadName == SubstringBetween(line, "[", "]")
      && var parts := Split(SubstringAfter(line, TransitionMarker), DocumentSeparator);
        && |parts| == 2
        && k.info.transitionName == parts[0]
        && k.guid == SubstringBetween(parts[1], "[", "]")
        && (k.info.isStart <==> SubstringAfter(parts[1], "] ") == StartedStatus)
    ensures k.Unparsed? ==> |Split(SubstringAfter(line, TransitionMarker), DocumentSeparator)| != 2
  {
    if Contains(line, VerifyMarker) then VerifyLine(Contains(line, VerifyFinished))
    else if !IsTransitionLine(line) then Ignored
    else
      match parseTime(SubstringBefore(line, TimestampEnd))
      case None => BadTimestamp
      case Some(timeLog) =>
        var threadName := SubstringBetween(line, "[", "]");
        var log := SubstringAfter(line, TransitionMarker);
        var split := Split(log, DocumentSeparator);
        if |split| != 2 then Unparsed
        else
          var transitionName := split[0];
          var guid := SubstringBetween(split[1], "[", "]");
          var isStart := SubstringAfter(split[1], "] ") == StartedStatus;
          Transition(guid, Info(timeLog, transitionName, threadName, isStart))
  }

  /** Every record of `s` is strictly later than the one before: at most one record per timestamp. */
  predicate StrictlyByTime(s: seq<Info>)
  {
    forall i, j :: 0 <= i < j < |s| ==> s[i].timeLog < s[j].timeLog
  }

  /**
    `TreeSet.add` on a set compared by time alone: a record whose timestamp
    is already present is dropped and the earlier one kept.
   */
  function AddByTime(s: seq<Info>, x: Info): (r: seq<Info>)
    requires StrictlyByTime(s)
    ensures HasTime(s, x.timeLog) ==> r == s
    ensures !HasTime(s, x.timeLog) ==> multiset(r) == multiset(s) + multiset{x}
  {
    if |s| == 0 || x.timeLog < s[0].timeLog then [x] + s
    else if x.timeLog == s[0].timeLog then
      assert s[0].timeLog == x.timeLog;
      s
    else
      var tail := s[1..];
      HasTimeCons(s, x.timeLog);
      assert s == [s[0]] + tail;
      [s[0]] + AddByTime(tail, x)
  }

  /** Some record of `s` carries timestamp `t`. */
  predicate HasTime(s: seq<Info>, t: int)
  {
    exists i :: 0 <= i < |s| && s[i].timeLog == t
  }

  lemma HasTimeCons(s: seq<Info>, t: int)
    requires |s| > 0
    ensures HasTime(s, t) <==> s[0].timeLog == t || HasTime(s[1..], t)
  {
    if HasTime(s, t) && s[0].timeLog != t {
      var i :| 0 <= i < |s| && s[i].timeLog == t;
      assert s[1..][i - 1] == s[i];
    }
    if HasTime(s[1..], t) {
      var i :| 0 <= i < |s[1..]| && s[1..][i].timeLog == t;
      assert s[i + 1] == s[1..][i];
    }
  }

  /** After adding, the record's time is present, and nothing was lost, at most one record gained. */
  lemma AddByTimeHas(s: seq<Info>, x: Info)
    requires StrictlyByTime(s)
    ensures HasTime(AddByTime(s, x), x.timeLog)
    ensures multiset(s) <= multiset(AddByTime(s, x))
    ensures |AddByTime(s, x)| <= |s| + 1
  {
    var r := AddByTime(s, x);
    if !HasTime(s, x.timeLog) {
      assert x in multiset(r);
      var i :| 0 <= i < |r| && r[i] == x;
      assert |multiset(r)| == |multiset(s)| + 1;
    }
  }

  /** Adding a record later than `lo` to records later than `lo` leaves only records later than `lo`. */
  lemma {:induction false} AddByTimeAbove(s: seq<Info>, x: Info, lo: int)
    requires StrictlyByTime(s)
    requires x.timeLog > lo
    requires forall i :: 0 <= i < |s| ==> s[i].timeLog > lo
    ensures forall j :: 0 <= j < |AddByTime(s, x)| ==> AddByTime(s, x)[j].timeLog > lo
  {
    if |s| > 0 && x.timeLog > s[0].timeLog {
      AddByTimeAbove(s[1..], x, lo);
    }
  }

  /** Adding keeps the set ordered and free of duplicate times. */
  lemma {:induction false} AddByTimeOrdered(s: seq<Info>, x: Info)
    requires StrictlyByTime(s)
    ensures StrictlyByTime(AddByTime(s, x))
  {
    if |s| > 0 && x.timeLog > s[0].timeLog {
      var rest := AddByTime(s[1..], x);
      AddByTimeOrdered(s[1..], x);
      AddByTimeAbove(s[1..], x, s[0].timeLog);
      var r := [s[0]] + rest;
      assert r[1..] == rest;
    }
  }

  /** The shared state `analyze` updates (`AnalysisData` together with `infosByDate`). */
  datatype Analysis = Analysis(
    analysis: map<Guid, seq<Info>>,
    transitionCounts: map<string, nat>,
    startVerify: nat,
    endVerify: nat,
    startTransitionsCount: nat,
    endTransitionsCount: nat,
    infosByDate: seq<Info>)

  const Empty: Analysis := Analysis(map[], map[], 0, 0, 0, 0, [])

  /** Is `i` a start record of the transition `n`? */
  predicate StartOf(i: Info, n: string)
  {
    i.isStart && i.transitionName == n
  }

  /** The start records of transition `n` in one document's list. */
  function StartsNamedIn(list: seq<Info>, n: string): nat
  {
    if |list| == 0 then 0
    else StartsNamedIn(list[..|list| - 1], n) + (if StartOf(list[|list| - 1], n) then 1 else 0)
  }

  /** Per document, its start records of transition `n`. */
  ghost function NamedCounts(analysis: map<Guid, seq<Info>>, n: string): map<Guid, nat>
  {
    map g | g in analysis :: StartsNamedIn(analysis[g], n)
  }

  /** The start records of transition `n` over all documents. */
  ghost function StartsNamed(analysis: map<Guid, seq<Info>>, n: string): nat
  {
    SumMap(NamedCounts(analysis, n))
  }

  /** One more record at the end of a list counts once more when it is a start of `n`. */
  lemma StartsNamedInSnoc(list: seq<Info>, info: Info, n: string)
    ensures StartsNamedIn(list + [info], n) == StartsNamedIn(list, n) + (if StartOf(info, n) then 1 else 0)
  {
    assert (list + [info])[..|list|] == list;
  }

  /** Appending to one document changes that document's count only. */
  lemma NamedCountsAppend(analysis: map<Guid, seq<Info>>, guid: Guid, info: Info, n: string, before: seq<Info>)
    requires before == if guid in analysis then analysis[guid] else []
    ensures NamedCounts(Append(analysis, guid, info), n)
            == NamedCounts(analysis, n)[guid := StartsNamedIn(before + [info], n)]
  {
    var after := Append(analysis, guid, info);
    var a := NamedCounts(after, n);
    var b := NamedCounts(analysis, n)[guid := StartsNamedIn(before + [info], n)];
    assert a.Keys == b.Keys;
    forall g | g in a
      ensures a[g] == b[g]
    {
      if g != guid {
        assert after[g] == analysis[g];
      }
    }
  }

  /** Appending a record to one document adds it to the count of its name when it is a start. */
  lemma StartsNamedAppend(analysis: map<Guid, seq<Info>>, guid: Guid, info: Info, n: string)
    ensures StartsNamed(Append(analysis, guid, info), n) == StartsNamed(analysis, n) + (if StartOf(info, n) then 1 else 0)
  {
    var before := if guid in analysis then analysis[guid] else [];
    StartsNamedInSnoc(before, info, n);
    NamedCountsAppend(analysis, guid, info, n, before);
    SumMapUpdate(NamedCounts(analysis, n), guid, StartsNamedIn(before + [info], n));
  }

  /**
    The counters agree with the collected records: the lists hold one
    record per counted transition, the per-name counts add up to the starts
    and each is the number of start records of its name, and `infosByDate`
    holds start records at distinct times, no more of them than there were
    starts.
   */
  ghost predicate Consistent(st: Analysis)
  {
    && SumMap(Lengths(st.analysis)) == st.startTransitionsCount + st.endTransitionsCount
    && SumMap(st.transitionCounts) == st.startTransitionsCount
    && (forall n :: CountOf(st.transitionCounts, n) == StartsNamed(st.analysis, n))
    && StrictlyByTime(st.infosByDate)
    && (forall i :: 0 <= i < |st.infosByDate| ==> st.infosByDate[i].isStart)
    && |st.infosByDate| <= st.startTransitionsCount
  }

  /**
    The effect of one accepted transition record: it joins its document's
    list, exactly one of the start and end counters goes up, and a start
    also counts for its name and is filed by time.
   */
  function Record(st: Analysis, guid: Guid, info: Info): (r: Analysis)
    requires StrictlyByTime(st.infosByDate)
    ensures StrictlyByTime(r.infosByDate)
    ensures r.analysis.Keys == st.analysis.Keys + {guid}
    ensures r.analysis[guid] == (if guid in st.analysis then st.analysis[guid] else []) + [info]
    ensures forall g :: g in st.analysis && g != guid ==> r.analysis[g] == st.analysis[g]
    ensures r.startTransitionsCount == st.startTransitionsCount + (if info.isStart then 1 else 0)
    ensures r.endTransitionsCount == st.endTransitionsCount + (if info.isStart then 0 else 1)
    ensures forall n :: CountOf(r.transitionCounts, n) == CountOf(st.transitionCounts, n) + (if StartOf(info, n) then 1 else 0)
    ensures info.isStart ==> HasTime(r.infosByDate, info.timeLog) && multiset(st.infosByDate) <= multiset(r.infosByDate)
    ensures info.isStart ==> |r.infosByDate| <= |st.infosByDate| + 1
    ensures !info.isStart ==> r.infosByDate == st.infosByDate
    ensures r.startVerify == st.startVerify && r.endVerify == st.endVerify
  {
    AddByTimeHas(st.infosByDate, info);
    AddByTimeOrdered(st.infosByDate, info);
    if info.isStart then
      st.(startTransitionsCount := st.startTransitionsCount + 1,
          transitionCounts := Increment(st.transitionCounts, info.transitionName),
          infosByDate := AddByTime(st.infosByDate, info),
          analysis := Append(st.analysis, guid, info))
    else
      st.(endTransitionsCount := st.endTransitionsCount + 1,
          analysis := Append(st.analysis, guid, info))
  }

  /**
    One line through `analyze`. `None` is the exception that abandons the
    file; the state it was thrown from is the caller's.
   */
  function Step(st: Analysis, line: string, parseTime: string -> Option<int>): (r: Option<Analysis>)
    requires StrictlyByTime(st.infosByDate)
    ensures r.None? <==> ClassifyLine(line, parseTime).BadTimestamp?
    ensures r.Some? ==> StrictlyByTime(r.value.infosByDate)
    ensures Contains(line, VerifyMarker) ==>
      r == Some(if Contains(line, VerifyFinished) then st.(endVerify := st.endVerify + 1)
                else st.(startVerify := st.startVerify + 1))
    ensures ClassifyLine(line, parseTime).Ignored? || ClassifyLine(line, parseTime).Unparsed? ==> r == Some(st)
    ensures ClassifyLine(line, parseTime).Transition? ==>
      var k := ClassifyLine(line, parseTime);
      && r.Some?
      && r.value.analysis == Append(st.analysis, k.guid, k.info)
      && r.value.startTransitionsCount == st.startTransitionsCount + (if k.info.isStart then 1 else 0)
      && r.value.endTransitionsCount == st.endTransitionsCount + (if k.info.isStart then 0 else 1)
      && r.value.transitionCounts
         == (if k.info.isStart then Increment(st.transitionCounts, k.info.transitionName) else st.transitionCounts)
      && r.value.infosByDate == (if k.info.isStart then AddByTime(st.infosByDate, k.info) else st.infosByDate)
      && r.value.startVerify == st.startVerify && r.value.endVerify == st.endVerify
  {
    match ClassifyLine(line, parseTime)
    case VerifyLine(finished) =>
      Some(if finished then st.(endVerify := st.endVerify + 1) else st.(startVerify := st.startVerify + 1))
    case Ignored => Some(st)
    case Unparsed => Some(st)
    case BadTimestamp => None
    case Transition(guid, info) => Some(Record(st, guid, info))
  }

  /** Recording a transition keeps the counters consistent with the records. */
  lemma RecordConsistent(st: Analysis, guid: Guid, info: Info)
    requires Consistent(st)
    ensures Consistent(Record(st, guid, info))
  {
    AppendTotal(st.analysis, guid, info);
    var after := Record(st, guid, info);
    forall n
      ensures CountOf(after.transitionCounts, n) == StartsNamed(after.analysis, n)
    {
      StartsNamedAppend(st.analysis, guid, info, n);
    }
    if info.isStart {
      AddByTimeHas(st.infosByDate, info);
      AddByTimeStarts(st.infosByDate, info);
    }
  }

  /** Filing a start record among start records leaves only start records. */
  lemma AddByTimeStarts(s: seq<Info>, x: Info)
    requires StrictlyByTime(s) && x.isStart
    requires forall i :: 0 <= i < |s| ==> s[i].isStart
    ensures forall j :: 0 <= j < |AddByTime(s, x)| ==> AddByTime(s, x)[j].isStart
  {
    var r := AddByTime(s, x);
    if !HasTime(s, x.timeLog) {
      forall j | 0 <= j < |r|
        ensures r[j].isStart
      {
        assert r[j] in multiset(s) + multiset{x} by {
          assert r[j] in multiset(r);
        }
      }
    }
  }

  /** One line keeps the state consistent. */
  lemma StepConsistent(st: Analysis, line: string, parseTime: string -> Option<int>)
    requires Consistent(st)
    ensures Step(st, line, parseTime).Some? ==> Consistent(Step(st, line, parseTime).value)
  {
    match ClassifyLine(line, parseTime)
    case Transition(guid, info) => RecordConsistent(st, guid, info);
    case _ =>
  }

  /** The state after a file, and whether the file was abandoned part way. */
  datatype FileResult = FileResult(state: Analysis, aborted: bool)

  /** The line throws: it is a transition line whose timestamp does not parse. */
  predicate BadTimestampLine(line: string, parseTime: string -> Option<int>)
  {
    ClassifyLine(line, parseTime).BadTimestamp?
  }

  /** Some line of the file carries a timestamp that does not parse. */
  predicate AnyBadTimestamp(lines: seq<string>, parseTime: string -> Option<int>)
  {
    exists i :: 0 <= i < |lines| && BadTimestampLine(lines[i], parseTime)
  }

  /** A bad timestamp is in the first line or in the rest. */
  lemma AnyBadTimestampCons(lines: seq<string>, parseTime: string -> Option<int>)
    requires |lines| > 0
    ensures AnyBadTimestamp(lines, parseTime)
            <==> BadTimestampLine(lines[0], parseTime) || AnyBadTimestamp(lines[1..], parseTime)
  {
    if AnyBadTimestamp(lines[1..], parseTime) {
      var i :| 0 <= i < |lines[1..]| && BadTimestampLine(lines[1..][i], parseTime);
      assert lines[i + 1] == lines[1..][i];
    }
    if AnyBadTimestamp(lines, parseTime) && !BadTimestampLine(lines[0], parseTime) {
      var i :| 0 <= i < |lines| && BadTimestampLine(lines[i], parseTime);
      assert lines[1..][i - 1] == lines[i];
    }
  }

  /**
    `analyze` over the lines of one file: lines are taken in order until one
    throws; the updates made by the lines before it stay.
   */
  function AnalyzeFile(st: Analysis, lines: seq<string>, parseTime: string -> Option<int>): (r: FileResult)
    requires StrictlyByTime(st.infosByDate)
    ensures StrictlyByTime(r.state.infosByDate)
    ensures r.aborted <==> AnyBadTimestamp(lines, parseTime)
    ensures |lines| > 0 && ClassifyLine(lines[0], parseTime).BadTimestamp? ==> r == FileResult(st, true)
    decreases |lines|
  {
    if |lines| == 0 then FileResult(st, false)
    else
      match Step(st, lines[0], parseTime)
      case None =>
        assert AnyBadTimestamp(lines, parseTime) by {
          assert BadTimestampLine(lines[0], parseTime);
        }
        FileResult(st, true)
      case Some(next) =>
        AnyBadTimestampCons(lines, parseTime);
        AnalyzeFile(next, lines[1..], parseTime)
  }

  /** A file keeps the state consistent, whether or not it was abandoned. */
  lemma {:induction false} AnalyzeFileConsistent(st: Analysis, lines: seq<string>, parseTime: string -> Option<int>)
    requires Consistent(st)
    ensures Consistent(AnalyzeFile(st, lines, parseTime).state)
    decreases |lines|
  {
    if |lines| > 0 {
      var next := Step(st, lines[0], parseTime);
      if next.Some? {
        StepConsistent(st, lines[0], parseTime);
        AnalyzeFileConsistent(next.value, lines[1..], parseTime);
      }
    }
  }

  /** An abandoned file keeps exactly what its lines before the failing one recorded. */
  lemma {:induction false} AbortKeepsPrefix(st: Analysis, lines: seq<string>, parseTime: string -> Option<int>, k: nat)
    requires StrictlyByTime(st.infosByDate)
    requires k < |lines| && ClassifyLine(lines[k], parseTime).BadTimestamp?
    requires forall i :: 0 <= i < k ==> !ClassifyLine(lines[i], parseTime).BadTimestamp?
    ensures AnalyzeFile(st, lines, parseTime) == FileResult(AnalyzeFile(st, lines[..k], parseTime).state, true)
    decreases k
  {
    if k > 0 {
      var next := Step(st, lines[0], parseTime).value;
      assert lines[..k][1..] == lines[1..][..k - 1];
      assert forall i :: 0 <= i < k - 1 ==> lines[1..][i] == lines[i + 1];
      AbortKeepsPrefix(next, lines[1..], parseTime, k - 1);
    }
  }

  /** `main`: the files one after another into one shared state; an abandoned file does not stop the run. */
  function AnalyzeFiles(st: Analysis, files: seq<seq<string>>, parseTime: string -> Option<int>): (r: Analysis)
    requires StrictlyByTime(st.infosByDate)
    ensures StrictlyByTime(r.infosByDate)
    decreases |files|
  {
    if |files| == 0 then st
    else AnalyzeFiles(AnalyzeFile(st, files[0], parseTime).state, files[1..], parseTime)
  }

  /** Over any number of files the counters stay consistent with the records. */
  lemma {:induction false} AnalyzeFilesConsistent(st: Analysis, files: seq<seq<string>>, parseTime: string -> Option<int>)
    requires Consistent(st)
    ensures Consistent(AnalyzeFiles(st, files, parseTime))
    decreases |files|
  {
    if |files| > 0 {
      AnalyzeFileConsistent(st, files[0], parseTime);
      AnalyzeFilesConsistent(AnalyzeFile(st, files[0], parseTime).state, files[1..], parseTime);
    }
  }

  lemma EmptyConsistent()
    ensures Consistent(Empty)
  {
    assert Lengths(Empty.analysis) == map[];
    forall n
      ensures CountOf(Empty.transitionCounts, n) == StartsNamed(Empty.analysis, n)
    {
      assert NamedCounts(Empty.analysis, n) == map[];
    }
  }
}

=== FILE: log_report.dfy ===
/**
  The report `LogAnalyzer.logAnalysis` derives from the collected state:
  the greedy start/end matcher of `startNotEndTransitions` with its list of
  documents that have unfinished transitions, the positional pairing of
  `writeLongestTransitions`, the documents with many transitions, and the
  five-minute counts of `writeTransitionsByInterval`.
 */
module LogReport {
  import opened Wrappers
  import opened Collections
  import opened Intervals
  import opened Tallies
  import opened LogAnalyzer

  function TimeOf(i: Info): int
  {
    i.timeLog
  }

  function IsStartInfo(i: Info): bool
  {
    i.isStart
  }

  function IsEndInfo(i: Info): bool
  {
    !i.isStart
  }

  /** `value.sort(Comparator.comparing(Info::timeLog))`: stable, by time. */
  function TimeSort(s: seq<Info>): (r: seq<Info>)
    ensures SortedByKey(r, TimeOf)
    ensures multiset(r) == multiset(s)
    ensures forall k :: WithKey(r, TimeOf, k) == WithKey(s, TimeOf, k)
  {
    SortByKey(s, TimeOf)
  }

  /** The start and end records of a list together are the list. */
  lemma StartsAndEnds(s: seq<Info>)
    ensures multiset(Filter(s, IsStartInfo)) + multiset(Filter(s, IsEndInfo)) == multiset(s)
  {
    FilterComplement(s, IsStartInfo, IsEndInfo);
  }

  /** A start paired with the end that closes it. */
  datatype Pair = Pair(start: Info, end: Info)

  /** `end` may close `start`: the same transition, not earlier. */
  predicate Closes(start: Info, end: Info)
  {
    end.transitionName == start.transitionName && start.timeLog <= end.timeLog
  }

  /**
    The inner loop of `startNotEndTransitions`: the position of the first
    pending end that closes `start`. Ends of another transition, and ends
    earlier than the start, are stepped over.
   */
  function FirstClosing(start: Info, ends: seq<Info>): (r: Option<nat>)
    ensures r.Some? ==> r.value < |ends| && Closes(start, ends[r.value])
    ensures r.Some? ==> forall j :: 0 <= j < r.value ==> !Closes(start, ends[j])
    ensures r.None? <==> forall j :: 0 <= j < |ends| ==> !Closes(start, ends[j])
  {
    if |ends| == 0 then None
    else if Closes(start, ends[0]) then Some(0)
    else
      match FirstClosing(start, ends[1..])
      case None => None
      case Some(j) => Some(j + 1)
  }

  /** On time-ordered ends the first closing end is also the earliest one. */
  lemma FirstClosingEarliest(start: Info, ends: seq<Info>)
    requires SortedByKey(ends, TimeOf)
    requires FirstClosing(start, ends).Some?
    ensures forall j :: 0 <= j < |ends| && Closes(start, ends[j]) ==>
      ends[FirstClosing(start, ends).value].timeLog <= ends[j].timeLog
  {
  }

  function PairStarts(ps: seq<Pair>): (r: seq<Info>)
    ensures |r| == |ps|
    ensures forall i :: 0 <= i < |ps| ==> r[i] == ps[i].start
  {
    if |ps| == 0 then [] else [ps[0].start] + PairStarts(ps[1..])
  }

  function PairEnds(ps: seq<Pair>): (r: seq<Info>)
    ensures |r| == |ps|
    ensures forall i :: 0 <= i < |ps| ==> r[i] == ps[i].end
  {
    if |ps| == 0 then [] else [ps[0].end] + PairEnds(ps[1..])
  }

  function Without<T>(s: seq<T>, k: nat): (r: seq<T>)
    requires k < |s|
    ensures |r| == |s| - 1
    ensures multiset(r) + multiset{s[k]} == multiset(s)
  {
    assert s == s[..k] + [s[k]] + s[k + 1..];
    s[..k] + s[k + 1..]
  }

  /** What the matcher makes of one document. */
  datatype Matching = Matching(pairs: seq<Pair>, dangling: seq<Info>, leftover: seq<Info>)

  /**
    The greedy matcher: the starts in order, each removing the first
    pending end that closes it, or else recorded as dangling.
   */
  function MatchStarts(starts: seq<Info>, ends: seq<Info>): (m: Matching)
    ensures |m.pairs| + |m.dangling| == |starts|
    ensures |m.pairs| + |m.leftover| == |ends|
    ensures forall i :: 0 <= i < |m.pairs| ==> Closes(m.pairs[i].start, m.pairs[i].end)
    decreases |starts|
  {
    if |starts| == 0 then Matching([], [], ends)
    else
      match FirstClosing(starts[0], ends)
      case Some(k) =>
        var rest := MatchStarts(starts[1..], Without(ends, k));
        Matching([Pair(starts[0], ends[k])] + rest.pairs, rest.dangling, rest.leftover)
      case None =>
        var rest := MatchStarts(starts[1..], ends);
        Matching(rest.pairs, [starts[0]] + rest.dangling, rest.leftover)
  }

  /** Every start of `m` is paired or dangling and every end is paired or left over, each exactly once. */
  predicate Conserves(starts: seq<Info>, ends: seq<Info>, m: Matching)
  {
    && multiset(PairStarts(m.pairs)) + multiset(m.dangling) == multiset(starts)
    && multiset(PairEnds(m.pairs)) + multiset(m.leftover) == multiset(ends)
  }

  /**
    Every start ends up either paired or dangling, exactly once; every end
    is either consumed by exactly one pair or left over.
   */
  lemma {:induction false} MatchConserves(starts: seq<Info>, ends: seq<Info>)
    ensures Conserves(starts, ends, MatchStarts(starts, ends))
    decreases |starts|
  {
    if |starts| > 0 {
      assert starts == [starts[0]] + starts[1..];
      match FirstClosing(starts[0], ends)
      case Some(k) =>
        MatchConserves(starts[1..], Without(ends, k));
        ConservesPaired(starts[0], starts[1..], ends[k], Without(ends, k), ends, MatchStarts(starts[1..], Without(ends, k)));
      case None =>
        MatchConserves(starts[1..], ends);
        ConservesDangling(starts[0], starts[1..], ends, MatchStarts(starts[1..], ends));
    }
  }

  /** A start paired with an end taken out of the pending ends. */
  lemma ConservesPaired(s: Info, tail: seq<Info>, e: Info, others: seq<Info>, ends: seq<Info>, rest: Matching)
    requires Conserves(tail, others, rest)
    requires multiset(others) + multiset{e} == multiset(ends)
    ensures Conserves([s] + tail, ends, Matching([Pair(s, e)] + rest.pairs, rest.dangling, rest.leftover))
  {
    var ps := [Pair(s, e)] + rest.pairs;
    assert ps[1..] == rest.pairs;
    assert PairStarts(ps) == [s] + PairStarts(rest.pairs);
    assert PairEnds(ps) == [e] + PairEnds(rest.pairs);
  }

  /** A start with no closing end left dangling. */
  lemma ConservesDangling(s: Info, tail: seq<Info>, ends: seq<Info>, rest: Matching)
    requires Conserves(tail, ends, rest)
    ensures Conserves([s] + tail, ends, Matching(rest.pairs, [s] + rest.dangling, rest.leftover))
  {
  }

  /** No end of `leftover` could close any start of `dangling`. */
  predicate NoneCloses(dangling: seq<Info>, leftover: seq<Info>)
  {
    forall i, j :: 0 <= i < |dangling| && 0 <= j < |leftover| ==> !Closes(dangling[i], leftover[j])
  }

  /** No left-over end could have closed a dangling start. */
  lemma {:induction false} MatchMaximal(starts: seq<Info>, ends: seq<Info>)
    ensures NoneCloses(MatchStarts(starts, ends).dangling, MatchStarts(starts, ends).leftover)
    decreases |starts|
  {
    if |starts| > 0 {
      match FirstClosing(starts[0], ends)
      case Some(k) =>
        MatchMaximal(starts[1..], Without(ends, k));
      case None =>
        var rest := MatchStarts(starts[1..], ends);
        MatchMaximal(starts[1..], ends);
        LeftoverFromEnds(starts[1..], ends);
        DanglingHead(starts[0], rest.dangling, rest.leftover);
    }
  }

  /** Every left-over end is one of the ends the matcher was given. */
  lemma LeftoverFromEnds(starts: seq<Info>, ends: seq<Info>)
    ensures forall j :: 0 <= j < |MatchStarts(starts, ends).leftover| ==> MatchStarts(starts, ends).leftover[j] in ends
  {
    var m := MatchStarts(starts, ends);
    MatchConserves(starts, ends);
    forall j | 0 <= j < |m.leftover|
      ensures m.leftover[j] in ends
    {
      assert m.leftover[j] in multiset(m.leftover);
      assert m.leftover[j] in multiset(ends);
    }
  }

  lemma DanglingHead(s: Info, dangling: seq<Info>, leftover: seq<Info>)
    requires forall j :: 0 <= j < |leftover| ==> !Closes(s, leftover[j])
    requires NoneCloses(dangling, leftover)
    ensures NoneCloses([s] + dangling, leftover)
  {
    forall i, j | 0 <= i < |[s] + dangling| && 0 <= j < |leftover|
      ensures !Closes(([s] + dangling)[i], leftover[j])
    {
      if i > 0 {
        assert ([s] + dangling)[i] == dangling[i - 1];
      }
    }
  }

  /** The matcher on one document's list: starts and ends, each in time order. */
  function MatchDocument(list: seq<Info>): Matching
  {
    var sorted := TimeSort(list);
    MatchStarts(Filter(sorted, IsStartInfo), Filter(sorted, IsEndInfo))
  }

  /**
    Per document, the records are shared out without loss: each start is
    paired or dangling, each end paired or left over, and only starts dangle.
   */
  lemma MatchDocumentAccounts(list: seq<Info>)
    ensures var m := MatchDocument(list);
      && 2 * |m.pairs| + |m.dangling| + |m.leftover| == |list|
      && (forall i :: 0 <= i < |m.dangling| ==> m.dangling[i].isStart)
      && (forall i :: 0 <= i < |m.leftover| ==> !m.leftover[i].isStart)
  {
    var sorted := TimeSort(list);
    StartsAndEnds(sorted);
    var starts := Filter(sorted, IsStartInfo);
    var ends := Filter(sorted, IsEndInfo);
    assert |starts| + |ends| == |list| by {
      assert |multiset(starts) + multiset(ends)| == |multiset(list)|;
    }
    MatchAccounts(starts, ends);
  }

  /** The matcher's output accounts for every start and end it is given, keeping starts and ends apart. */
  lemma MatchAccounts(starts: seq<Info>, ends: seq<Info>)
    requires forall i :: 0 <= i < |starts| ==> IsStartInfo(starts[i])
    requires forall i :: 0 <= i < |ends| ==> IsEndInfo(ends[i])
    ensures var m := MatchStarts(starts, ends);
      && 2 * |m.pairs| + |m.dangling| + |m.leftover| == |starts| + |ends|
      && (forall i :: 0 <= i < |m.dangling| ==> m.dangling[i].isStart)
      && (forall i :: 0 <= i < |m.leftover| ==> !m.leftover[i].isStart)
  {
    var m := MatchStarts(starts, ends);
    assert multiset(m.dangling) <= multiset(starts) && multiset(m.leftover) <= multiset(ends) by {
      MatchConserves(starts, ends);
    }
    assert forall i :: 0 <= i < |m.dangling| ==> IsStartInfo(m.dangling[i]) by {
      AllFromSubMultiset(m.dangling, starts, IsStartInfo);
    }
    assert forall i :: 0 <= i < |m.leftover| ==> IsEndInfo(m.leftover[i]) by {
      AllFromSubMultiset(m.leftover, ends, IsEndInfo);
    }
  }

  /** A start with nothing to close it is dangling. */
  lemma LoneStartDangles(s: Info)
    requires s.isStart
    ensures MatchDocument([s]) == Matching([], [s], [])
  {
    assert Filter([s], IsEndInfo) == [];
    assert Filter([s], IsStartInfo) == [s];
  }

  /** A start and its end are paired whichever of them was logged first. */
  lemma StartThenEndMatched(s: Info, e: Info)
    requires s.isStart && !e.isStart && Closes(s, e)
    ensures MatchDocument([s, e]) == Matching([Pair(s, e)], [], [])
    ensures MatchDocument([e, s]) == Matching([Pair(s, e)], [], [])
  {
    OrderedPair(s, e);
    OrderedPair(e, s);
    var m := MatchStarts([s], [e]);
    assert FirstClosing(s, [e]) == Some(0);
    assert Without([e], 0) == [];
    assert MatchStarts([s][1..], []) == Matching([], [], []);
  }

  /** The starts and ends of two records of opposite kinds, after the sort. */
  lemma OrderedPair(a: Info, b: Info)
    requires a.isStart != b.isStart
    ensures var sorted := TimeSort([a, b]);
      var s := if a.isStart then a else b;
      var e := if a.isStart then b else a;
      Filter(sorted, IsStartInfo) == [s] && Filter(sorted, IsEndInfo) == [e]
  {
    SortPair(a, b, TimeOf);
    assert TimeSort([a, b]) == SortByKey([a, b], TimeOf);
    if a.timeLog <= b.timeLog {
      KindsOfPair(a, b);
    } else {
      KindsOfPair(b, a);
    }
  }

  /** Two records of opposite kinds in a given order: one start, one end. */
  lemma KindsOfPair(x: Info, y: Info)
    requires x.isStart != y.isStart
    ensures Filter([x, y], IsStartInfo) == [if x.isStart then x else y]
    ensures Filter([x, y], IsEndInfo) == [if x.isStart then y else x]
  {
    FilterPair(x, y, IsStartInfo);
    FilterPair(x, y, IsEndInfo);
  }

  /** An end logged before its start cannot close it: the start dangles and the end is left over. */
  lemma EarlyEndLeftOver(s: Info, e: Info)
    requires s.isStart && !e.isStart && e.transitionName == s.transitionName && e.timeLog < s.timeLog
    ensures MatchDocument([s, e]) == Matching([], [s], [e])
  {
    OrderedPair(s, e);
    assert FirstClosing(s, [e]) == None;
    assert MatchStarts([s][1..], [e]) == Matching([], [], [e]);
  }

  /** The documents with at least one dangling start, each with those starts in time order. */
  function DanglingDocuments(analysis: map<Guid, seq<Info>>): (r: map<Guid, seq<Info>>)
    ensures forall g :: g in r <==> g in analysis && |MatchDocument(analysis[g]).dangling| > 0
    ensures forall g :: g in r ==> r[g] == MatchDocument(analysis[g]).dangling && |r[g]| > 0
  {
    map g | g in analysis && |MatchDocument(analysis[g]).dangling| > 0 :: MatchDocument(analysis[g]).dangling
  }

  /** A map whose values are all at least one sums to at least its size. */
  lemma {:induction false} SumMapAtLeastSize<K>(m: map<K, nat>)
    requires forall k :: k in m ==> m[k] >= 1
    ensures SumMap(m) >= |m|
    decreases |m|
  {
    if m != map[] {
      var k :| k in m;
      SumMapRemove(m, k);
      assert |m - {k}| == |m| - 1;
      SumMapAtLeastSize(m - {k});
    }
  }

  /**
    The reported count is the number of documents, which is at most the
    number of dangling starts: several starts of one document count once.
   */
  lemma DanglingCountBound(analysis: map<Guid, seq<Info>>)
    ensures |DanglingDocuments(analysis)| <= SumMap(Lengths(DanglingDocuments(analysis)))
  {
    SumMapAtLeastSize(Lengths(DanglingDocuments(analysis)));
  }

  /** Two unfinished starts of one document: one document reported, two starts listed. */
  lemma TwoDanglingOneDocument(g: Guid, a: Info, b: Info)
    requires a.isStart && b.isStart && a.timeLog < b.timeLog
    ensures var d := DanglingDocuments(map[g := [a, b]]);
      |d| == 1 && d[g] == [a, b]
  {
    TwoStartsDangle(a, b);
    SingleDocument(g, [a, b]);
    OneKey(DanglingDocuments(map[g := [a, b]]), g);
  }

  /** A map whose only key is `g` has one entry. */
  lemma OneKey<K, V>(d: map<K, V>, g: K)
    requires d.Keys == {g}
    ensures |d| == 1
  {
    assert |d| == |d.Keys|;
  }

  /** A log with one document reports that document alone, when it has a dangling start, and nothing otherwise. */
  lemma SingleDocument(g: Guid, list: seq<Info>)
    ensures DanglingDocuments(map[g := list]).Keys == if |MatchDocument(list).dangling| > 0 then {g} else {}
    ensures g in DanglingDocuments(map[g := list]) ==> DanglingDocuments(map[g := list])[g] == MatchDocument(list).dangling
  {
    var m := map[g := list];
    var d := DanglingDocuments(m);
    assert m[g] == list;
    assert d.Keys <= m.Keys;
    if |MatchDocument(list).dangling| > 0 {
      assert g in d;
    } else {
      assert g !in d;
    }
  }

  lemma TwoStartsDangle(a: Info, b: Info)
    requires a.isStart && b.isStart && a.timeLog < b.timeLog
    ensures MatchDocument([a, b]) == Matching([], [a, b], [])
  {
    SortPair(a, b, TimeOf);
    FilterPair(a, b, IsStartInfo);
    FilterPair(a, b, IsEndInfo);
    NoEndsDangle([a, b]);
  }

  /** Without ends every start dangles. */
  lemma {:induction false} NoEndsDangle(starts: seq<Info>)
    ensures MatchStarts(starts, []) == Matching([], starts, [])
  {
    if |starts| > 0 {
      NoEndsDangle(starts[1..]);
      assert starts == [starts[0]] + starts[1..];
    }
  }

  /** One line of the dangling report: a document and its unfinished starts. */
  datatype DanglingEntry = DanglingEntry(guid: Guid, starts: seq<Info>)

  function FirstStartTime(e: DanglingEntry): int
  {
    if |e.starts| > 0 then e.starts[0].timeLog else 0
  }

  /** `e` is the entry of its document in `d`. */
  predicate Lists(d: map<Guid, seq<Info>>, e: DanglingEntry)
  {
    e.guid in d && e.starts == d[e.guid]
  }

  predicate DistinctGuids(r: seq<DanglingEntry>)
  {
    forall i, j :: 0 <= i < j < |r| ==> r[i].guid != r[j].guid
  }

  /** The entries of `d` for the keys of `order` it holds, in that order. */
  function EntriesOf(d: map<Guid, seq<Info>>, order: seq<Guid>): (r: seq<DanglingEntry>)
    ensures forall i :: 0 <= i < |r| ==> Lists(d, r[i]) && r[i].guid in order
  {
    if |order| == 0 then []
    else
      var rest := EntriesOf(d, order[1..]);
      if order[0] in d then [DanglingEntry(order[0], d[order[0]])] + rest else rest
  }

  /** Every key of `order` held by `d` gets an entry. */
  lemma {:induction false} EntriesOfCovers(d: map<Guid, seq<Info>>, order: seq<Guid>, k: Guid)
    requires k in d && k in order
    ensures HasEntry(EntriesOf(d, order), k)
  {
    var rest := EntriesOf(d, order[1..]);
    var g := order[0];
    if g == k {
      HasEntryCons(DanglingEntry(g, d[g]), rest, k);
    } else {
      assert k in order[1..];
      EntriesOfCovers(d, order[1..], k);
      if g in d {
        HasEntryCons(DanglingEntry(g, d[g]), rest, k);
      }
    }
  }

  /** Some entry of `r` is about document `k`. */
  predicate HasEntry(r: seq<DanglingEntry>, k: Guid)
  {
    exists j :: 0 <= j < |r| && r[j].guid == k
  }

  lemma HasEntryCons(x: DanglingEntry, rest: seq<DanglingEntry>, k: Guid)
    requires x.guid == k || HasEntry(rest, k)
    ensures HasEntry([x] + rest, k)
  {
    if x.guid != k {
      var j :| 0 <= j < |rest| && rest[j].guid == k;
      assert ([x] + rest)[j + 1] == rest[j];
    } else {
      assert ([x] + rest)[0] == x;
    }
  }

  lemma {:induction false} EntriesOfDistinct(d: map<Guid, seq<Info>>, order: seq<Guid>)
    requires forall i, j :: 0 <= i < j < |order| ==> order[i] != order[j]
    ensures DistinctGuids(EntriesOf(d, order))
  {
    if |order| > 0 {
      var rest := EntriesOf(d, order[1..]);
      EntriesOfDistinct(d, order[1..]);
      if order[0] in d {
        forall i | 0 <= i < |rest|
          ensures rest[i].guid != order[0]
        {
          var k :| 0 <= k < |order[1..]| && order[1..][k] == rest[i].guid;
          assert order[k + 1] == rest[i].guid;
        }
        DistinctGuidsCons(DanglingEntry(order[0], d[order[0]]), rest);
      }
    }
  }

  /** An entry for a document the rest do not list keeps the documents distinct. */
  lemma DistinctGuidsCons(x: DanglingEntry, rest: seq<DanglingEntry>)
    requires DistinctGuids(rest)
    requires forall i :: 0 <= i < |rest| ==> rest[i].guid != x.guid
    ensures DistinctGuids([x] + rest)
  {
    var r := [x] + rest;
    forall i, j | 0 <= i < j < |r|
      ensures r[i].guid != r[j].guid
    {
      assert r[j] == rest[j - 1];
      if i > 0 {
        assert r[i] == rest[i - 1];
      }
    }
  }

  /** The entries of `d`, one per key, ordered by their first start (stable on `order`). */
  function SortedEntries(d: map<Guid, seq<Info>>, order: seq<Guid>): (r: seq<DanglingEntry>)
    requires forall k :: k in d ==> k in order
    requires forall i, j :: 0 <= i < j < |order| ==> order[i] != order[j]
    ensures |r| == |d|
    ensures SortedByKey(r, FirstStartTime)
    ensures forall e :: e in r <==> Lists(d, e)
  {
    var entries := EntriesOf(d, order);
    EntriesEnumerate(d, order);
    var r := SortByKey(entries, FirstStartTime);
    assert |r| == |entries| by { assert |multiset(r)| == |multiset(entries)|; }
    forall e
      ensures e in r <==> Lists(d, e)
    {
      assert e in r <==> e in multiset(entries);
      if Lists(d, e) {
        EntriesOfCovers(d, order, e.guid);
        var j :| 0 <= j < |entries| && entries[j].guid == e.guid;
        assert Lists(d, entries[j]);
      }
    }
    r
  }

  /**
    The "started and not finished" line: the documents with dangling starts,
    one entry each, ordered by their first dangling start. `sorted` is
    stable over the iteration order of the separate map of dangling starts,
    which is not modelled, so the contract leaves the order of ties open. An
    empty result is printed as "0".
   */
  function DanglingReport(analysis: map<Guid, seq<Info>>, order: seq<Guid>): (r: seq<DanglingEntry>)
    requires Enumerates(order, analysis.Keys)
    ensures |r| == |DanglingDocuments(analysis)|
    ensures SortedByKey(r, FirstStartTime)
    ensures forall e :: e in r <==> Lists(DanglingDocuments(analysis), e)
  {
    SortedEntries(DanglingDocuments(analysis), order)
  }

  /** Listing the entries along an enumeration of a larger key set gives one entry per key of `d`. */
  lemma EntriesEnumerate(d: map<Guid, seq<Info>>, order: seq<Guid>)
    requires forall k :: k in d ==> k in order
    requires forall i, j :: 0 <= i < j < |order| ==> order[i] != order[j]
    ensures |EntriesOf(d, order)| == |d|
  {
    var entries := EntriesOf(d, order);
    EntriesOfDistinct(d, order);
    var guids := seq(|entries|, i requires 0 <= i < |entries| => entries[i].guid);
    assert Enumerates(guids, d.Keys) by {
      forall k | k in d
        ensures k in guids
      {
        EntriesOfCovers(d, order, k);
        var j :| 0 <= j < |entries| && entries[j].guid == k;
        assert guids[j] == k;
      }
    }
    EnumerationSize(guids, d.Keys);
  }

  /** The longest-transition threshold: `60_00` milliseconds, the "6 seconds" of the report header. */
  const LongThreshold: int := 6000

  /**
    `writeLongestTransitions`' pairing: elements 0 and 1, 2 and 3, and so on,
    whatever their names and kinds; a last unpaired element is ignored.
   */
  function PositionalPairs(s: seq<Info>): (r: seq<Pair>)
    ensures |r| == |s| / 2
    ensures forall i :: 0 <= i < |r| ==> r[i] == Pair(s[2 * i], s[2 * i + 1])
  {
    if |s| < 2 then []
    else
      var rest := PositionalPairs(s[2..]);
      assert forall i :: 0 <= i < |rest| ==> rest[i] == Pair(s[2 * (i + 1)], s[2 * (i + 1) + 1]);
      [Pair(s[0], s[1])] + rest
  }

  function Duration(p: Pair): int
  {
    p.end.timeLog - p.start.timeLog
  }

  /** A reported long transition: the document, the record that opened the pair, and the pair's duration. */
  datatype LongTransition = LongTransition(guid: Guid, start: Info, duration: int)

  function AsLong(guid: Guid, p: Pair): LongTransition
  {
    LongTransition(guid, p.start, Duration(p))
  }

  predicate IsLong(p: Pair)
  {
    Duration(p) > LongThreshold
  }

  /** `x` reports a positional pair of its document that is over the threshold. */
  predicate IsLongPairOf(analysis: map<Guid, seq<Info>>, x: LongTransition)
  {
    && x.guid in analysis
    && exists j :: 0 <= j < |PositionalPairs(analysis[x.guid])| &&
         IsLong(PositionalPairs(analysis[x.guid])[j]) && x == AsLong(x.guid, PositionalPairs(analysis[x.guid])[j])
  }

  /** `x` reports one of `pairs` that is over the threshold. */
  predicate FromLongPair(guid: Guid, pairs: seq<Pair>, x: LongTransition)
  {
    exists j :: 0 <= j < |pairs| && IsLong(pairs[j]) && x == AsLong(guid, pairs[j])
  }

  lemma FromLongPairTail(guid: Guid, pairs: seq<Pair>, x: LongTransition)
    requires |pairs| > 0 && FromLongPair(guid, pairs[1..], x)
    ensures FromLongPair(guid, pairs, x)
  {
    var j :| 0 <= j < |pairs[1..]| && IsLong(pairs[1..][j]) && x == AsLong(guid, pairs[1..][j]);
    assert pairs[j + 1] == pairs[1..][j];
  }

  /** The pairs of one document longer than the threshold, in pair order. */
  function LongPairs(guid: Guid, pairs: seq<Pair>): (r: seq<LongTransition>)
    ensures |r| <= |pairs|
    ensures forall i :: 0 <= i < |r| ==> FromLongPair(guid, pairs, r[i])
  {
    if |pairs| == 0 then []
    else
      var rest := LongPairs(guid, pairs[1..]);
      var r := if IsLong(pairs[0]) then [AsLong(guid, pairs[0])] + rest else rest;
      forall i | 0 <= i < |r|
        ensures FromLongPair(guid, pairs, r[i])
      {
        if IsLong(pairs[0]) && i == 0 {
          assert IsLong(pairs[0]) && r[0] == AsLong(guid, pairs[0]);
        } else {
          var k := if IsLong(pairs[0]) then i - 1 else i;
          assert r[i] == rest[k];
          FromLongPairTail(guid, pairs, rest[k]);
        }
      }
      r
  }

  /** Every pair over the threshold is reported. */
  lemma {:induction false} LongPairsKeeps(guid: Guid, pairs: seq<Pair>, j: nat)
    requires j < |pairs| && IsLong(pairs[j])
    ensures AsLong(guid, pairs[j]) in LongPairs(guid, pairs)
  {
    if j > 0 {
      LongPairsKeeps(guid, pairs[1..], j - 1);
      assert pairs[1..][j - 1] == pairs[j];
    }
  }

  /** The long pairs of every document, documents in the map's iteration order. */
  function CollectLong(analysis: map<Guid, seq<Info>>, order: seq<Guid>): (r: seq<LongTransition>)
    requires forall i :: 0 <= i < |order| ==> order[i] in analysis
    ensures forall i :: 0 <= i < |r| ==> IsLongPairOf(analysis, r[i])
  {
    if |order| == 0 then []
    else
      var g := order[0];
      var own := LongPairs(g, PositionalPairs(analysis[g]));
      var rest := CollectLong(analysis, order[1..]);
      var r := own + rest;
      forall i | 0 <= i < |r|
        ensures IsLongPairOf(analysis, r[i])
      {
        if i < |own| {
          assert FromLongPair(g, PositionalPairs(analysis[g]), own[i]);
          assert r[i] == own[i];
        } else {
          assert r[i] == rest[i - |own|];
        }
      }
      r
  }

  /** Every long pair of a listed document is collected. */
  lemma {:induction false} CollectLongKeeps(analysis: map<Guid, seq<Info>>, order: seq<Guid>, k: Guid, j: nat)
    requires forall i :: 0 <= i < |order| ==> order[i] in analysis
    requires k in order && k in analysis
    requires j < |PositionalPairs(analysis[k])| && IsLong(PositionalPairs(analysis[k])[j])
    ensures AsLong(k, PositionalPairs(analysis[k])[j]) in CollectLong(analysis, order)
  {
    var g := order[0];
    var own := LongPairs(g, PositionalPairs(analysis[g]));
    var rest := CollectLong(analysis, order[1..]);
    assert CollectLong(analysis, order) == own + rest;
    if g == k {
      LongPairsKeeps(k, PositionalPairs(analysis[k]), j);
    } else {
      assert k in order[1..];
      CollectLongKeeps(analysis, order[1..], k, j);
    }
  }

  /** Longest first. */
  predicate LongestFirst(r: seq<LongTransition>)
  {
    forall i, j :: 0 <= i < j < |r| ==> r[i].duration >= r[j].duration
  }

  /** Every entry is over the threshold. */
  predicate AllOverThreshold(r: seq<LongTransition>)
  {
    forall i :: 0 <= i < |r| ==> r[i].duration > LongThreshold
  }

  function NegDuration(x: LongTransition): int
  {
    -x.duration
  }

  /**
    The "transitions over 6 seconds" list: the positional pairs of the
    documents whose duration exceeds the threshold, longest first (the sort
    is stable, so equal durations keep collection order).
   */
  function LongTransitions(analysis: map<Guid, seq<Info>>, order: seq<Guid>): (r: seq<LongTransition>)
    requires Enumerates(order, analysis.Keys)
    ensures LongestFirst(r)
    ensures forall i :: 0 <= i < |r| ==> IsLongPairOf(analysis, r[i])
    ensures multiset(r) == multiset(CollectLong(analysis, order))
    ensures forall k :: WithKey(r, NegDuration, k) == WithKey(CollectLong(analysis, order), NegDuration, k)
  {
    var all := CollectLong(analysis, order);
    var r := SortByKey(all, NegDuration);
    forall i | 0 <= i < |r|
      ensures IsLongPairOf(analysis, r[i])
    {
      assert r[i] in multiset(all);
    }
    assert forall i, j :: 0 <= i < j < |r| ==> NegDuration(r[i]) <= NegDuration(r[j]);
    r
  }

  /** Every positional pair over the threshold is listed, and every listed one is over it. */
  lemma LongTransitionsComplete(analysis: map<Guid, seq<Info>>, order: seq<Guid>, k: Guid, j: nat)
    requires Enumerates(order, analysis.Keys)
    requires k in analysis && j < |PositionalPairs(analysis[k])|
    ensures AsLong(k, PositionalPairs(analysis[k])[j]) in LongTransitions(analysis, order)
      <==> IsLong(PositionalPairs(analysis[k])[j])
  {
    var all := CollectLong(analysis, order);
    var r := LongTransitions(analysis, order);
    var p := PositionalPairs(analysis[k])[j];
    if IsLong(p) {
      CollectLongKeeps(analysis, order, k, j);
      assert AsLong(k, p) in multiset(all);
    }
    if AsLong(k, p) in r {
      var i :| 0 <= i < |r| && r[i] == AsLong(k, p);
      assert IsLongPairOf(analysis, r[i]);
      assert r[i].duration > LongThreshold;
    }
  }

  /**
    The positional pairing ignores names: two interleaved transitions A and
    B (A started, B started, B ended, A ended) are reported as one long
    "transition" opened by B's end record, while the matcher pairs A with A
    and B with B.
   */
  lemma PositionalIgnoresNames(g: Guid)
    ensures var a := Info(0, "A", None, true);
      var b := Info(1, "B", None, true);
      var c := Info(2, "B", None, false);
      var d := Info(10000, "A", None, false);
      && LongPairs(g, PositionalPairs([a, b, c, d])) == [LongTransition(g, c, 9998)]
      && MatchStarts([a, b], [c, d]).pairs == [Pair(a, d), Pair(b, c)]
  {
    var a := Info(0, "A", None, true);
    var b := Info(1, "B", None, true);
    var c := Info(2, "B", None, false);
    var d := Info(10000, "A", None, false);
    PositionalInterleaved(g, a, b, c, d);
    MatcherInterleaved(a, b, c, d);
  }

  /** Positionally, the second pair runs from B's end to A's end. */
  lemma PositionalInterleaved(g: Guid, a: Info, b: Info, c: Info, d: Info)
    requires a == Info(0, "A", None, true) && b == Info(1, "B", None, true)
    requires c == Info(2, "B", None, false) && d == Info(10000, "A", None, false)
    ensures LongPairs(g, PositionalPairs([a, b, c, d])) == [LongTransition(g, c, 9998)]
  {
    var ps := PositionalPairs([a, b, c, d]);
    assert ps == [Pair(a, b), Pair(c, d)];
    assert ps[1..] == [Pair(c, d)] && [Pair(c, d)][1..] == [];
    assert !IsLong(Pair(a, b)) && IsLong(Pair(c, d));
    assert LongPairs(g, [Pair(c, d)]) == [LongTransition(g, c, 9998)];
  }

  /** The matcher pairs each start with the end of its own transition. */
  lemma MatcherInterleaved(a: Info, b: Info, c: Info, d: Info)
    requires a == Info(0, "A", None, true) && b == Info(1, "B", None, true)
    requires c == Info(2, "B", None, false) && d == Info(10000, "A", None, false)
    ensures MatchStarts([a, b], [c, d]).pairs == [Pair(a, d), Pair(b, c)]
  {
    assert FirstClosing(a, [c, d]) == Some(1) by {
      assert [c, d][1..] == [d];
    }
    assert Without([c, d], 1) == [c];
    assert [a, b][1..] == [b];
    MatchHeadPaired([a, b], [c, d], 1);
    assert FirstClosing(b, [c]) == Some(0);
    assert Without([c], 0) == [];
    assert [b][1..] == [];
    MatchHeadPaired([b], [c], 0);
  }

  /** A first start with a closing end is paired with it, and the matcher goes on without both. */
  lemma MatchHeadPaired(starts: seq<Info>, ends: seq<Info>, k: nat)
    requires |starts| > 0 && FirstClosing(starts[0], ends) == Some(k)
    ensures MatchStarts(starts, ends).pairs == [Pair(starts[0], ends[k])] + MatchStarts(starts[1..], Without(ends, k)).pairs
  {
  }

  /** `writeTransitionsByInterval` is called with five-minute windows. */
  const IntervalMinutes: int := 5

  function StartTimes(infos: seq<Info>): (r: seq<int>)
    ensures |r| == |infos|
    ensures forall i :: 0 <= i < |infos| ==> r[i] == infos[i].timeLog
  {
    seq(|infos|, i requires 0 <= i < |infos| => infos[i].timeLog)
  }

  /** Starts per five-minute window over `infosByDate`, keyed by the window's bounds. */
  function TransitionsByInterval(infosByDate: seq<Info>): (r: map<Interval, nat>)
    ensures SumMap(r) == |infosByDate|
    ensures forall iv :: iv in r ==> iv.end - iv.start == IntervalMinutes * MillisPerMinute
    ensures forall i :: 0 <= i < |infosByDate| ==> IntervalOf(infosByDate[i].timeLog, IntervalMinutes * MillisPerMinute) in r
    ensures forall iv :: iv in r ==> r[iv] == Assigned(StartTimes(infosByDate), IntervalMinutes * MillisPerMinute, iv)
    ensures forall iv :: iv !in r ==> Assigned(StartTimes(infosByDate), IntervalMinutes * MillisPerMinute, iv) == 0
  {
    var w := IntervalMinutes * MillisPerMinute;
    var times := StartTimes(infosByDate);
    var r := CountByInterval(times, w);
    forall iv | iv in r
      ensures iv.end - iv.start == w
    {
      AssignedWidth(times, w, iv);
    }
    forall i | 0 <= i < |infosByDate|
      ensures IntervalOf(infosByDate[i].timeLog, w) in r
    {
      AssignedPositive(times, w, i);
    }
    r
  }

  /** With no start before 1970, each window holds exactly the starts whose times fall inside it. */
  lemma TransitionsByIntervalWithin(infosByDate: seq<Info>)
    requires forall i :: 0 <= i < |infosByDate| ==> infosByDate[i].timeLog >= 0
    ensures var r := TransitionsByInterval(infosByDate);
      forall iv :: iv in r ==> r[iv] == CountWithin(StartTimes(infosByDate), iv.start, iv.end)
  {
    CountByIntervalWithin(StartTimes(infosByDate), IntervalMinutes * MillisPerMinute);
  }

  lemma {:induction false} AssignedWidth(times: seq<int>, w: int, iv: Interval)
    requires w > 0 && Assigned(times, w, iv) > 0
    ensures iv.end - iv.start == w
  {
    if IntervalOf(times[|times| - 1], w) != iv {
      AssignedWidth(times[..|times| - 1], w, iv);
    }
  }

  lemma {:induction false} AssignedPositive(times: seq<int>, w: int, i: nat)
    requires w > 0 && i < |times|
    ensures Assigned(times, w, IntervalOf(times[i], w)) > 0
  {
    if i < |times| - 1 {
      AssignedPositive(times[..|times| - 1], w, i);
    }
  }

  /** The windows hold no more starts than were counted: equal timestamps were collapsed before. */
  lemma IntervalTotalBound(st: Analysis)
    requires Consistent(st)
    ensures SumMap(TransitionsByInterval(st.infosByDate)) <= st.startTransitionsCount
  {
  }

  /** A document listed under "more than 10 transitions": its pair count and its distinct transition names. */
  datatype BusyDocument = BusyDocument(guid: Guid, pairs: nat, names: seq<string>)

  const BusyPairs: nat := 10

  function NameOf(i: Info): string
  {
    i.transitionName
  }

  /** `b` is the busy-document line of its document. */
  predicate IsBusyEntry(analysis: map<Guid, seq<Info>>, b: BusyDocument)
  {
    && b.guid in analysis
    && b.pairs == |analysis[b.guid]| / 2
    && IsBusy(analysis[b.guid])
    && b.names == Distinct(MapSeq(analysis[b.guid], NameOf))
  }

  predicate IsBusy(list: seq<Info>)
  {
    |list| / 2 >= BusyPairs
  }

  /** Documents whose list holds at least ten pairs, in the map's iteration order. */
  function BusyDocuments(analysis: map<Guid, seq<Info>>, order: seq<Guid>): (r: seq<BusyDocument>)
    requires forall i :: 0 <= i < |order| ==> order[i] in analysis
    ensures forall i :: 0 <= i < |r| ==> IsBusyEntry(analysis, r[i]) && r[i].guid in order
    ensures |r| <= |order|
    ensures NoDuplicates(order) ==> DistinctBusyGuids(r)
  {
    if |order| == 0 then []
    else
      var g := order[0];
      var rest := BusyDocuments(analysis, order[1..]);
      if IsBusy(analysis[g]) then
        var r := [BusyDocument(g, |analysis[g]| / 2, Distinct(MapSeq(analysis[g], NameOf)))] + rest;
        BusyConsEntries(analysis, order, r, rest);
        assert NoDuplicates(order) ==> DistinctBusyGuids(r) by {
          if NoDuplicates(order) {
            NoDuplicatesTail(order);
            BusyConsDistinct(r, rest, order[1..]);
          }
        }
        r
      else
        BusyConsEntries(analysis, order, rest, rest);
        assert NoDuplicates(order) ==> DistinctBusyGuids(rest) by {
          if NoDuplicates(order) {
            NoDuplicatesTail(order);
          }
        }
        rest
  }

  /** The lines for the rest of the documents, with the first one's line in front or not. */
  lemma BusyConsEntries(analysis: map<Guid, seq<Info>>, order: seq<Guid>, r: seq<BusyDocument>, rest: seq<BusyDocument>)
    requires |order| > 0
    requires forall i :: 0 <= i < |rest| ==> IsBusyEntry(analysis, rest[i]) && rest[i].guid in order[1..]
    requires r == rest || (|r| > 0 && r[1..] == rest && IsBusyEntry(analysis, r[0]) && r[0].guid == order[0])
    ensures forall i :: 0 <= i < |r| ==> IsBusyEntry(analysis, r[i]) && r[i].guid in order
  {
    forall i | 0 <= i < |r|
      ensures IsBusyEntry(analysis, r[i]) && r[i].guid in order
    {
      if r == rest || i > 0 {
        var j := if r == rest then i else i - 1;
        assert r[i] == rest[j];
        var k :| 0 <= k < |order[1..]| && order[1..][k] == rest[j].guid;
        assert order[k + 1] == rest[j].guid;
      }
    }
  }

  /** No document is listed twice. */
  predicate DistinctBusyGuids(r: seq<BusyDocument>)
  {
    forall i, j :: 0 <= i < j < |r| ==> r[i].guid != r[j].guid
  }

  lemma BusyConsDistinct(r: seq<BusyDocument>, rest: seq<BusyDocument>, tail: seq<Guid>)
    requires |r| > 0 && r[1..] == rest && DistinctBusyGuids(rest)
    requires forall i :: 0 <= i < |rest| ==> rest[i].guid in tail
    requires r[0].guid !in tail
    ensures DistinctBusyGuids(r)
  {
    forall i, j | 0 <= i < j < |r|
      ensures r[i].guid != r[j].guid
    {
      assert r[j] == rest[j - 1];
      if i > 0 {
        assert r[i] == rest[i - 1];
      }
    }
  }

  /** A listed document with at least ten pairs is reported. */
  lemma {:induction false} BusyDocumentsCovers(analysis: map<Guid, seq<Info>>, order: seq<Guid>, k: Guid)
    requires forall i :: 0 <= i < |order| ==> order[i] in analysis
    requires k in order && IsBusy(analysis[k])
    ensures ListsBusy(BusyDocuments(analysis, order), k)
  {
    var rest := BusyDocuments(analysis, order[1..]);
    var g := order[0];
    var head := BusyDocument(g, |analysis[g]| / 2, Distinct(MapSeq(analysis[g], NameOf)));
    if g == k {
      ListsBusyCons(head, rest, k);
    } else {
      assert k in order[1..];
      BusyDocumentsCovers(analysis, order[1..], k);
      if IsBusy(analysis[g]) {
        ListsBusyCons(head, rest, k);
      }
    }
  }

  /** Some entry of `r` is about document `k`. */
  predicate ListsBusy(r: seq<BusyDocument>, k: Guid)
  {
    exists j :: 0 <= j < |r| && r[j].guid == k
  }

  lemma ListsBusyCons(x: BusyDocument, rest: seq<BusyDocument>, k: Guid)
    requires x.guid == k || ListsBusy(rest, k)
    ensures ListsBusy([x] + rest, k)
  {
    if x.guid != k {
      var j :| 0 <= j < |rest| && rest[j].guid == k;
      assert ([x] + rest)[j + 1] == rest[j];
    } else {
      assert ([x] + rest)[0] == x;
    }
  }

  /** The lists after `startNotEndTransitions` sorted each of them in place. */
  function SortedLists(analysis: map<Guid, seq<Info>>): (r: map<Guid, seq<Info>>)
    ensures r.Keys == analysis.Keys
    ensures forall g :: g in r ==> SortedByKey(r[g], TimeOf) && multiset(r[g]) == multiset(analysis[g])
  {
    map g | g in analysis :: TimeSort(analysis[g])
  }

  /** The contents of `serverLogDetails.log`, field by field. */
  datatype Report = Report(
    started: nat,
    finished: nat,
    dangling: seq<DanglingEntry>,
    verifyStarted: nat,
    verifyFinished: nat,
    transitions: seq<Tally>,
    busy: seq<BusyDocument>,
    long: seq<LongTransition>,
    byInterval: map<Interval, nat>)

  /**
    `logAnalysis`: the dangling starts are computed first and sort every list
    by time in place, so the busy-document and long-transition sections see
    the sorted lists. `guidOrder` and `nameOrder` are the maps' iteration
    orders.
   */
  function LogAnalysis(st: Analysis, guidOrder: seq<Guid>, nameOrder: seq<string>): (r: Report)
    requires Enumerates(guidOrder, st.analysis.Keys)
    requires Enumerates(nameOrder, st.transitionCounts.Keys)
    ensures r.started == st.startTransitionsCount && r.finished == st.endTransitionsCount
    ensures r.verifyStarted == st.startVerify && r.verifyFinished == st.endVerify
    ensures |r.dangling| == |DanglingDocuments(st.analysis)|
    ensures |r.transitions| == |st.transitionCounts| && SortedBy(r.transitions, NameDescending)
    ensures LongestFirst(r.long) && AllOverThreshold(r.long)
    ensures SumMap(r.byInterval) == |st.infosByDate|
  {
    var sorted := SortedLists(st.analysis);
    Report(
      st.startTransitionsCount,
      st.endTransitionsCount,
      DanglingReport(st.analysis, guidOrder),
      st.startVerify,
      st.endVerify,
      ListCounts(st.transitionCounts, nameOrder, NameDescending),
      BusyDocuments(sorted, guidOrder),
      LongTransitions(sorted, guidOrder),
      TransitionsByInterval(st.infosByDate))
  }
}

=== FILE: method_finder.dfy ===
/**
  The lifecycle search: a scan over the StAX events of one `.lc` file that
  reports every `call-ref` to updateFundsInFundsJournalLCAllnew whose
  parameters look the journal up by the current document and not by the
  source document. The XML tokenizer is abstracted to a sequence of events.
 */
module MethodFinder {
  import opened Wrappers
  import opened Collections

  const CallRef := "call-ref"
  const ParameterTag := "parameter"
  const TargetId := "updateFundsInFundsJournalLCAllnew"
  const CurrentGuid := "findByCurrentDocGuid"
  const SourceGuid := "findBySourceDocGuid"
  const True := "true"

  /** One attribute of a start tag, by local name. */
  datatype Attribute = Attribute(localName: string, value: string)

  /**
    What the reader reports: a start tag with its attributes and line, an
    end tag, any other event (text, comments, the document start), or a
    failure of the tokenizer, which throws.
   */
  datatype XmlEvent =
    | Start(name: string, attributes: seq<Attribute>, line: int)
    | End(name: string)
    | Other
    | Malformed

  /** One reported call: the file and the line of its opening tag. */
  datatype Match = Match(file: string, lineNumber: int)

  /** The three flags of the scan and the line of the last target call entered. */
  datatype FinderState = FinderState(inTargetCall: bool, hasCurrentGuid: bool, hasInvalidSourceGuid: bool, callStartLine: int)

  const Initial := FinderState(false, false, false, -1)

  /** `i` is the first attribute called `name`. */
  predicate FirstNamed(attributes: seq<Attribute>, name: string, i: int)
  {
    0 <= i < |attributes| && attributes[i].localName == name &&
    forall j :: 0 <= j < i ==> attributes[j].localName != name
  }

  /** The value of the first attribute called `name`, or None (Java null) when there is none. */
  function GetAttributeValue(attributes: seq<Attribute>, name: string): (r: Option<string>)
    ensures r.None? <==> forall i :: 0 <= i < |attributes| ==> attributes[i].localName != name
    ensures r.Some? ==> exists i :: FirstNamed(attributes, name, i) && attributes[i].value == r.value
  {
    if |attributes| == 0 then None
    else if attributes[0].localName == name then
      assert FirstNamed(attributes, name, 0);
      Some(attributes[0].value)
    else
      var r := GetAttributeValue(attributes[1..], name);
      if r.Some? then
        var i :| FirstNamed(attributes[1..], name, i) && attributes[1..][i].value == r.value;
        assert FirstNamed(attributes, name, i + 1);
        r
      else
        r
  }

  /** Whichever attribute is first with the name, its value is the one returned; later duplicates are ignored. */
  lemma {:induction false} GetAttributeValueFirst(attributes: seq<Attribute>, name: string, i: int)
    requires FirstNamed(attributes, name, i)
    ensures GetAttributeValue(attributes, name) == Some(attributes[i].value)
  {
    if i > 0 {
      assert attributes[0].localName != name;
      assert FirstNamed(attributes[1..], name, i - 1);
      GetAttributeValueFirst(attributes[1..], name, i - 1);
    }
  }

  /** The opening tag of a call to the target lifecycle method. */
  predicate IsTargetStart(ev: XmlEvent)
  {
    ev.Start? && ev.name == CallRef && GetAttributeValue(ev.attributes, "id") == Some(TargetId)
  }

  /** The closing tag of any call. */
  predicate IsCallEnd(ev: XmlEvent)
  {
    ev.End? && ev.name == CallRef
  }

  /** A `parameter` tag naming `flag` with the value "true". */
  predicate SetsFlag(ev: XmlEvent, flag: string)
  {
    ev.Start? && ev.name == ParameterTag &&
    GetAttributeValue(ev.attributes, "name") == Some(flag) &&
    GetAttributeValue(ev.attributes, "value") == Some(True)
  }

  /** The effect of one step: the next state and the line reported, if any. */
  datatype Transition = Transition(next: FinderState, found: Option<int>)

  /** One event of the scan. */
  function Step(st: FinderState, ev: XmlEvent): (t: Transition)
    requires !ev.Malformed?
    ensures t.found.Some? <==> IsCallEnd(ev) && st.inTargetCall && st.hasCurrentGuid && !st.hasInvalidSourceGuid
    ensures t.found.Some? ==> t.found.value == st.callStartLine
    ensures !st.inTargetCall && !IsTargetStart(ev) ==> t.next == st
    ensures IsTargetStart(ev) ==>
      t.next == st.(inTargetCall := true, callStartLine := ev.line)
    ensures IsCallEnd(ev) && st.inTargetCall ==>
      t.next == FinderState(false, false, false, st.callStartLine)
    ensures st.inTargetCall && !IsCallEnd(ev) && !IsTargetStart(ev) ==>
      t.next == st.(hasCurrentGuid := st.hasCurrentGuid || SetsFlag(ev, CurrentGuid),
                    hasInvalidSourceGuid := st.hasInvalidSourceGuid || SetsFlag(ev, SourceGuid))
  {
    match ev
    case Start(name, attributes, line) =>
      var entered := if name == CallRef && GetAttributeValue(attributes, "id") == Some(TargetId)
        then st.(inTargetCall := true, callStartLine := line)
        else st;
      if entered.inTargetCall && name == ParameterTag then
        var pname := GetAttributeValue(attributes, "name");
        var value := GetAttributeValue(attributes, "value");
        if pname == Some(CurrentGuid) && value == Some(True) then
          Transition(entered.(hasCurrentGuid := true), None)
        else if pname == Some(SourceGuid) && value == Some(True) then
          Transition(entered.(hasInvalidSourceGuid := true), None)
        else
          Transition(entered, None)
      else
        Transition(entered, None)
    case End(name) =>
      if name == CallRef && st.inTargetCall then
        var found := if st.hasCurrentGuid && !st.hasInvalidSourceGuid then Some(st.callStartLine) else None;
        Transition(FinderState(false, false, false, st.callStartLine), found)
      else
        Transition(st, None)
    case Other =>
      Transition(st, None)
  }

  /** Where a scan ends: its state, the lines reported in order, and whether the reader threw. */
  datatype Scan = Scan(state: FinderState, found: seq<int>, aborted: bool)

  function Found(o: Option<int>): seq<int>
  {
    if o.Some? then [o.value] else []
  }

  /** The event loop; a malformed event ends the scan and keeps what was reported before it. */
  function ScanEvents(st: FinderState, events: seq<XmlEvent>): (r: Scan)
    ensures r.aborted <==> exists i :: 0 <= i < |events| && events[i].Malformed?
    ensures |r.found| <= |events|
    decreases |events|
  {
    if |events| == 0 then Scan(st, [], false)
    else if events[0].Malformed? then Scan(st, [], true)
    else
      var t := Step(st, events[0]);
      var rest := ScanEvents(t.next, events[1..]);
      assert forall i :: 0 <= i < |events| - 1 ==> events[1..][i] == events[i + 1];
      Scan(rest.state, Found(t.found) + rest.found, rest.aborted)
  }

  /** The calls reported for one file, in document order. */
  function ProcessFile(file: string, events: seq<XmlEvent>): (r: seq<Match>)
    ensures |r| == |ScanEvents(Initial, events).found|
    ensures forall k :: 0 <= k < |r| ==> r[k].file == file
  {
    MapSeq(ScanEvents(Initial, events).found, (line: int) => Match(file, line))
  }

  /** The lines of the target calls entered, in document order. */
  function TargetLines(events: seq<XmlEvent>): (r: seq<int>)
    ensures |r| <= |events|
  {
    if |events| == 0 then []
    else (if IsTargetStart(events[0]) then [events[0].line] else []) + TargetLines(events[1..])
  }

  predicate NoMalformed(events: seq<XmlEvent>)
  {
    forall i :: 0 <= i < |events| ==> !events[i].Malformed?
  }

  /** Scanning two stretches one after the other is scanning their concatenation, as long as the first does not throw. */
  lemma {:induction false} ScanAppend(st: FinderState, a: seq<XmlEvent>, b: seq<XmlEvent>)
    requires NoMalformed(a)
    ensures var first := ScanEvents(st, a);
      var second := ScanEvents(first.state, b);
      ScanEvents(st, a + b) == Scan(second.state, first.found + second.found, second.aborted)
    decreases |a|
  {
    if |a| > 0 {
      assert (a + b)[0] == a[0];
      assert (a + b)[1..] == a[1..] + b;
      ScanAppend(Step(st, a[0]).next, a[1..], b);
    } else {
      assert a + b == b;
    }
  }

  /** A reader error stops the file: the result is what the events before it reported. */
  lemma StopsAtMalformed(file: string, a: seq<XmlEvent>, b: seq<XmlEvent>)
    requires NoMalformed(a)
    ensures ProcessFile(file, a + [Malformed] + b) == ProcessFile(file, a)
    ensures ScanEvents(Initial, a + [Malformed] + b).aborted
  {
    assert a + [Malformed] + b == a + ([Malformed] + b);
    ScanAppend(Initial, a, [Malformed] + b);
  }

  /** Flags are only ever raised inside a target call. */
  predicate Quiet(st: FinderState)
  {
    !st.inTargetCall ==> !st.hasCurrentGuid && !st.hasInvalidSourceGuid
  }

  /**
    Every reported line is the opening line of a target call, at most one
    per call, and the flags stay down outside target calls.
   */
  lemma {:induction false} ScanSound(st: FinderState, events: seq<XmlEvent>)
    requires Quiet(st)
    ensures var r := ScanEvents(st, events);
      Quiet(r.state) &&
      |r.found| + (if r.state.inTargetCall then 1 else 0) <= |TargetLines(events)| + (if st.inTargetCall then 1 else 0)
    ensures var r := ScanEvents(st, events);
      forall l :: l in r.found ==> l in TargetLines(events) || (st.inTargetCall && l == st.callStartLine)
    ensures var r := ScanEvents(st, events);
      r.state.inTargetCall ==> r.state.callStartLine in TargetLines(events) || (st.inTargetCall && r.state.callStartLine == st.callStartLine)
    decreases |events|
  {
    if |events| > 0 && !events[0].Malformed? {
      var t := Step(st, events[0]);
      ScanSound(t.next, events[1..]);
      assert TargetLines(events) == (if IsTargetStart(events[0]) then [events[0].line] else []) + TargetLines(events[1..]);
    }
  }

  /** A file reports at most one call per target call-ref, each at the line where it opens. */
  lemma ProcessFileSound(file: string, events: seq<XmlEvent>)
    ensures |ProcessFile(file, events)| <= |TargetLines(events)|
    ensures forall k :: 0 <= k < |ProcessFile(file, events)| ==> ProcessFile(file, events)[k].lineNumber in TargetLines(events)
  {
    ScanSound(Initial, events);
    var found := ScanEvents(Initial, events).found;
    assert forall k :: 0 <= k < |found| ==> found[k] in found;
  }

  /** Events that can occur between a target call's opening and closing tags without opening another one. */
  predicate Inside(ev: XmlEvent)
  {
    !ev.Malformed? && !IsTargetStart(ev) && !IsCallEnd(ev)
  }

  /** Some parameter in `body` sets `flag` to "true". */
  predicate HasParameter(body: seq<XmlEvent>, flag: string)
  {
    exists i :: 0 <= i < |body| && SetsFlag(body[i], flag)
  }

  lemma HasParameterCons(body: seq<XmlEvent>, flag: string)
    requires |body| > 0
    ensures HasParameter(body, flag) <==> SetsFlag(body[0], flag) || HasParameter(body[1..], flag)
  {
    if HasParameter(body, flag) && !SetsFlag(body[0], flag) {
      var i :| 0 <= i < |body| && SetsFlag(body[i], flag);
      assert body[1..][i - 1] == body[i];
    }
    if HasParameter(body[1..], flag) {
      var i :| 0 <= i < |body[1..]| && SetsFlag(body[1..][i], flag);
      assert body[i + 1] == body[1..][i];
    }
  }

  /** Inside a target call the flags accumulate whatever the parameters set, and nothing is reported. */
  lemma {:induction false} ScanInside(st: FinderState, body: seq<XmlEvent>)
    requires st.inTargetCall
    requires forall i :: 0 <= i < |body| ==> Inside(body[i])
    ensures ScanEvents(st, body) == Scan(
      st.(hasCurrentGuid := st.hasCurrentGuid || HasParameter(body, CurrentGuid),
          hasInvalidSourceGuid := st.hasInvalidSourceGuid || HasParameter(body, SourceGuid)),
      [], false)
    decreases |body|
  {
    if |body| > 0 {
      HasParameterCons(body, CurrentGuid);
      HasParameterCons(body, SourceGuid);
      ScanInside(Step(st, body[0]).next, body[1..]);
    }
  }

  /**
    A single target call is reported, at its opening line, exactly when one
    of its parameters looks up by the current document and none by the
    source document; afterwards the scan is back outside any call.
   */
  lemma TargetCall(st: FinderState, attributes: seq<Attribute>, line: int, body: seq<XmlEvent>)
    requires Quiet(st) && !st.inTargetCall
    requires GetAttributeValue(attributes, "id") == Some(TargetId)
    requires forall i :: 0 <= i < |body| ==> Inside(body[i])
    ensures var r := ScanEvents(st, [Start(CallRef, attributes, line)] + body + [End(CallRef)]);
      r.found == (if HasParameter(body, CurrentGuid) && !HasParameter(body, SourceGuid) then [line] else []) &&
      r.state == FinderState(false, false, false, line) && !r.aborted
  {
    var open := [Start(CallRef, attributes, line)];
    var entered := Step(st, open[0]).next;
    assert NoMalformed(open);
    assert NoMalformed(body);
    ScanAppend(st, open, body + [End(CallRef)]);
    ScanAppend(entered, body, [End(CallRef)]);
    ScanInside(entered, body);
    assert open + body + [End(CallRef)] == open + (body + [End(CallRef)]);
  }

  /** The files of a search, each with the events its reader produces. */
  datatype SourceFile = SourceFile(path: string, events: seq<XmlEvent>)

  /** All reports of a search, file by file in the order visited. */
  function SearchFiles(files: seq<SourceFile>): (r: seq<Match>)
    ensures forall k :: 0 <= k < |r| ==> exists f :: 0 <= f < |files| && r[k].file == files[f].path
  {
    if |files| == 0 then []
    else
      var head := ProcessFile(files[0].path, files[0].events);
      var rest := SearchFiles(files[1..]);
      assert forall k :: 0 <= k < |rest| ==> exists f :: 0 <= f < |files| && rest[k].file == files[f].path by {
        forall k | 0 <= k < |rest|
          ensures exists f :: 0 <= f < |files| && rest[k].file == files[f].path
        {
          var f :| 0 <= f < |files[1..]| && rest[k].file == files[1..][f].path;
          assert files[f + 1] == files[1..][f];
        }
      }
      head + rest
  }
}

=== FILE: numbers.dfy ===
/**
  Java `int` arithmetic and decimal conversion: the 32-bit range,
  wrap-around addition (`Integer::sum`), `Integer.parseInt` and
  `Integer.toString`.
 */
module Numbers {
  import opened Wrappers

  const MinInt32: int := -0x8000_0000
  const MaxInt32: int := 0x7fff_ffff
  const Modulus32: int := 0x1_0000_0000

  predicate IsInt32(n: int)
  {
    MinInt32 <= n <= MaxInt32
  }

  /** Two's-complement truncation of an integer to 32 bits. */
  function Wrap32(n: int): (r: int)
    ensures IsInt32(r)
    ensures (r - n) % Modulus32 == 0
    ensures IsInt32(n) ==> r == n
  {
    var m := n % Modulus32;
    if m > MaxInt32 then m - Modulus32 else m
  }

  /** Java's `a + b` on two `int`s. */
  function AddInt32(a: int, b: int): (r: int)
    requires IsInt32(a) && IsInt32(b)
    ensures IsInt32(r)
    ensures IsInt32(a + b) ==> r == a + b
    ensures a + b > MaxInt32 ==> r == a + b - Modulus32
    ensures a + b < MinInt32 ==> r == a + b + Modulus32
  {
    Wrap32(a + b)
  }

  /** Wrapping an intermediate sum does not change the wrapped total. */
  lemma WrapAdd(a: int, b: int)
    ensures Wrap32(Wrap32(a) + b) == Wrap32(a + b)
  {
    var x := Wrap32(a);
    assert (x - a) % Modulus32 == 0;
    var k := (x - a) / Modulus32;
    assert x == a + k * Modulus32;
    assert (x + b) % Modulus32 == (a + b + k * Modulus32) % Modulus32;
    ModShift(a + b, k);
  }

  lemma ModShift(n: int, k: int)
    ensures (n + k * Modulus32) % Modulus32 == n % Modulus32
  {
  }

  predicate IsDigit(c: char)
  {
    '0' <= c <= '9'
  }

  predicate AllDigits(s: string)
  {
    forall i :: 0 <= i < |s| ==> IsDigit(s[i])
  }

  /** The value of a string of decimal digits, most significant first. */
  function DigitsValue(s: string): nat
    requires AllDigits(s)
  {
    if |s| == 0 then 0
    else DigitsValue(s[..|s| - 1]) * 10 + (s[|s| - 1] as int - '0' as int)
  }

  /** A sign followed by at least one digit. */
  predicate SignedDigits(s: string)
  {
    |s| > 1 && (s[0] == '-' || s[0] == '+') && AllDigits(s[1..])
  }

  /** The value of a signed digit string. */
  function SignedValue(s: string): int
    requires SignedDigits(s)
  {
    var magnitude: int := DigitsValue(s[1..]);
    if s[0] == '-' then -magnitude else magnitude
  }

  /**
    `Integer.parseInt(s)`: an optional sign followed by at least one decimal
    digit, with a value inside the 32-bit range; `None` stands for the
    `NumberFormatException`. Leading zeros are accepted.
   */
  function ParseInt(s: string): (r: Option<int>)
    ensures r.Some? ==> IsInt32(r.value)
    ensures r.Some? ==> |s| > 0 && (AllDigits(s) || ((s[0] == '-' || s[0] == '+') && |s| > 1 && AllDigits(s[1..])))
    ensures AllDigits(s) && |s| > 0 ==> (r.Some? <==> DigitsValue(s) <= MaxInt32)
    ensures AllDigits(s) && |s| > 0 && r.Some? ==> r.value == DigitsValue(s)
    ensures SignedDigits(s) ==> (r.Some? <==> IsInt32(SignedValue(s)))
    ensures SignedDigits(s) && r.Some? ==> r.value == SignedValue(s)
  {
    if |s| == 0 then None
    else if s[0] == '-' || s[0] == '+' then
      if |s| == 1 || !AllDigits(s[1..]) then None
      else
        var magnitude: int := DigitsValue(s[1..]);
        var v: int := if s[0] == '-' then -magnitude else magnitude;
        if IsInt32(v) then Some(v) else None
    else if AllDigits(s) then
      var v := DigitsValue(s);
      if v <= MaxInt32 then Some(v) else None
    else None
  }

  function DigitChar(d: nat): (c: char)
    requires d < 10
    ensures IsDigit(c) && c as int - '0' as int == d
  {
    ('0' as int + d) as char
  }

  /** Decimal digits of a natural number, without leading zeros. */
  function NatToString(n: nat): (r: string)
    ensures |r| > 0 && AllDigits(r)
  {
    if n < 10 then [DigitChar(n)]
    else NatToString(n / 10) + [DigitChar(n % 10)]
  }

  /** `Integer.toString(n)`: a minus sign for negative numbers, then the digits. */
  function IntToString(n: int): (r: string)
    ensures n >= 0 ==> |r| > 0 && AllDigits(r)
    ensures n < 0 ==> |r| > 1 && r[0] == '-' && AllDigits(r[1..])
  {
    if n < 0 then "-" + NatToString(-n) else NatToString(n)
  }

  lemma {:induction false} NatToStringValue(n: nat)
    ensures DigitsValue(NatToString(n)) == n
  {
    if n >= 10 {
      var s := NatToString(n);
      assert s[..|s| - 1] == NatToString(n / 10);
      NatToStringValue(n / 10);
    }
  }

  /** `Integer.parseInt` reads back what `Integer.toString` writes. */
  lemma {:induction false} ParseIntToString(n: int)
    requires IsInt32(n)
    ensures ParseInt(IntToString(n)) == Some(n)
  {
    if n < 0 {
      NatToStringValue(-n);
      ParseNegative(NatToString(-n), -n);
    } else {
      NatToStringValue(n);
    }
  }

  /** A minus sign in front of the digits of `v` reads as `-v` when that fits. */
  lemma ParseNegative(t: string, v: nat)
    requires |t| > 0 && AllDigits(t) && DigitsValue(t) == v && IsInt32(-(v as int))
    ensures ParseInt("-" + t) == Some(-(v as int))
  {
    var s := "-" + t;
    assert s[1..] == t;
    assert SignedDigits(s) && SignedValue(s) == -(v as int);
  }
}

=== FILE: poib.dfy ===
/**
  `PoibAnalyzer`: the POIB log records each request sent to SOBI on a line
  holding "Сформирован запрос на ". The analyzer groups the requests by
  their type, lists how many there are of each, and counts each type's
  requests per five-minute window.
 */
module Poib {
  import opened Wrappers
  import opened Strings
  import opened Numbers
  import opened Collections
  import opened Intervals
  import opened Tallies

  const RequestMarker: string := "Сформирован запрос на "
  const TimestampEnd: string := " DEBUG"
  const AllowedResources: string := "getAllowedResources"
  const ResourcePair: string := "SobiResourceActionPair"
  const ResourceLabel: string := "количество ресурсов: "
  const TypeSeparator: string := ": "

  const IntervalMinutes: int := 5
  const IntervalWidth: int := IntervalMinutes * MillisPerMinute

  /** One request (`PoibAnalyzer.Info`); the thread and hash are `null` when their brackets are missing. */
  datatype Request = Request(
    timeLog: int,
    typeRequest: string,
    threadName: Option<string>,
    hash: Option<string>,
    request: string)

  /** Requests grouped by type, each list in the order the lines came. */
  type Grouped = map<string, seq<Request>>

  predicate IsRequestLine(line: string)
  {
    Contains(line, RequestMarker)
  }

  /**
    The request type: what follows ": " in the text between the marker and
    the first "(" after it. `None` is the `null` of a line with no "(" after
    the marker; "" when that text has no ": ".
   */
  function RequestType(line: string): (r: Option<string>)
    ensures r.None? <==> SubstringBetween(line, RequestMarker, "(").None?
    ensures r.Some? ==> '(' !in r.value
  {
    match SubstringBetween(line, RequestMarker, "(")
    case None => None
    case Some(segment) =>
      var t := SubstringAfter(segment, TypeSeparator);
      BetweenLacksClose(line, RequestMarker, '(', segment);
      SuffixLacks(segment, t, '(');
      Some(t)
  }

  /**
    A request line laid out as the service writes it reads back its type:
    any prefix free of the marker's first letter, the marker, a tag free
    of ':' and '(', ": ", the type, and "(".
   */
  lemma {:induction false} RequestTypeOfLine(prefix: string, tag: string, kind: string, rest: string)
    requires RequestMarker[0] !in prefix
    requires ':' !in tag && '(' !in tag && '(' !in kind
    ensures RequestType(prefix + RequestMarker + (tag + TypeSeparator + kind) + "(" + rest) == Some(kind)
  {
    var segment := tag + TypeSeparator + kind;
    assert '(' !in segment by {
      forall i | 0 <= i < |segment|
        ensures segment[i] != '('
      {
        if i < |tag| {
          assert segment[i] == tag[i];
        } else if i >= |tag| + 2 {
          assert segment[i] == kind[i - |tag| - 2];
        }
      }
    }
    BetweenMarker(prefix, RequestMarker, segment, '(', rest);
    AfterFirst(tag, TypeSeparator, kind);
  }

  /**
    `getRequest`: for `getAllowedResources`, the number of resource pairs
    written after the type; "" for every other type.
   */
  function GetRequest(typeRequest: string, line: string): (r: string)
    ensures typeRequest != AllowedResources ==> r == ""
    ensures typeRequest == AllowedResources ==>
      ResourceLabel <= r && AllDigits(r[|ResourceLabel|..]) && |r| > |ResourceLabel|
  {
    var request := SubstringAfter(line, typeRequest);
    if typeRequest != AllowedResources then ""
    else
      var count := NatToString(CountMatches(request, ResourcePair));
      assert (ResourceLabel + count)[|ResourceLabel|..] == count;
      ResourceLabel + count
  }

  /**
    A `getAllowedResources` line followed by `n` resource pairs reports the
    count `n`, when the type does not already occur earlier in the line.
   */
  lemma {:induction false} GetRequestCounts(prefix: string, n: nat)
    requires !Contains(prefix + AllowedResources[..|AllowedResources| - 1], AllowedResources)
    ensures GetRequest(AllowedResources, prefix + AllowedResources + Repeat(ResourcePair, n))
      == ResourceLabel + NatToString(n)
  {
    AfterEarliest(prefix, AllowedResources, Repeat(ResourcePair, n));
    CountMatchesRepeat(ResourcePair, n);
  }

  /**
    What the line does to the grouping: a non-request line nothing; a
    request line with an unreadable timestamp throws a `ParseException`, and
    one with no type fails on the null dereference in `getRequest`
    (`None`); otherwise the request is appended to its type's list.
   */
  function Step(data: Grouped, line: string, parseTime: string -> Option<int>): (r: Option<Grouped>)
    ensures !IsRequestLine(line) ==> r == Some(data)
    ensures IsRequestLine(line) ==>
      (r.None? <==> parseTime(SubstringBefore(line, TimestampEnd)).None? || RequestType(line).None?)
    ensures r.Some? && IsRequestLine(line) ==>
      Appended(data, r.value, RequestType(line).value, parseTime(SubstringBefore(line, TimestampEnd)).value)
  {
    if !IsRequestLine(line) then Some(data)
    else
      match parseTime(SubstringBefore(line, TimestampEnd))
      case None => None
      case Some(timeLog) =>
        match RequestType(line)
        case None => None
        case Some(t) =>
          var info := Request(timeLog, t, SubstringBetween(line, "[", "]"), SubstringBetween(line, "(", ")"),
            GetRequest(t, line));
          var next := Append(data, t, info);
          assert next[t][..|ListOf(data, t)|] == ListOf(data, t);
          Some(next)
  }

  /** The list of `t` in `data`, empty when there is none yet. */
  function ListOf(data: Grouped, t: string): seq<Request>
  {
    if t in data then data[t] else []
  }

  /**
    `after` is `before` with one request of type `t` at time `time` added at
    the end of `t`'s list, and nothing else changed.
   */
  predicate Appended(before: Grouped, after: Grouped, t: string, time: int)
  {
    && after.Keys == before.Keys + {t}
    && (forall k :: k in before && k != t ==> after[k] == before[k])
    && |after[t]| == |ListOf(before, t)| + 1
    && after[t][..|ListOf(before, t)|] == ListOf(before, t)
    && after[t][|ListOf(before, t)|].typeRequest == t
    && after[t][|ListOf(before, t)|].timeLog == time
  }

  /** A line fails when it is a request line that throws. */
  predicate Fails(line: string, parseTime: string -> Option<int>)
  {
    IsRequestLine(line) && (parseTime(SubstringBefore(line, TimestampEnd)).None? || RequestType(line).None?)
  }

  /** Every request sits in the list of its own type. */
  predicate WellGrouped(data: Grouped)
  {
    forall k, i :: k in data && 0 <= i < |data[k]| ==> data[k][i].typeRequest == k
  }

  /** Every earlier list is still there, extended at its end. */
  predicate Extends(before: Grouped, after: Grouped)
  {
    forall k :: k in before ==> k in after && before[k] <= after[k]
  }

  lemma AppendedExtends(before: Grouped, after: Grouped, t: string, time: int)
    requires Appended(before, after, t, time)
    ensures Extends(before, after)
  {
  }

  lemma {:induction false} AppendedGrouped(before: Grouped, after: Grouped, t: string, time: int)
    requires WellGrouped(before) && Appended(before, after, t, time)
    ensures WellGrouped(after)
    ensures SumMap(Lengths(after)) == SumMap(Lengths(before)) + 1
  {
    forall k: string, i: int | k in after && 0 <= i < |after[k]|
      ensures after[k][i].typeRequest == k
    {
      if k == t && i < |ListOf(before, t)| {
        assert after[k][i] == after[k][..|ListOf(before, t)|][i];
      }
    }
    AppendedLengths(before, after, t, time);
  }

  /** Appending one request adds one to its type's length and leaves the other lengths. */
  lemma AppendedLengths(before: Grouped, after: Grouped, t: string, time: int)
    requires Appended(before, after, t, time)
    ensures Lengths(after) == Increment(Lengths(before), t)
  {
  }

  /** A line that goes through keeps the grouping, extends every list, and adds one request per request line. */
  lemma {:induction false} StepKeeps(data: Grouped, line: string, parseTime: string -> Option<int>)
    requires Step(data, line, parseTime).Some?
    ensures Extends(data, Step(data, line, parseTime).value)
    ensures WellGrouped(data) ==> WellGrouped(Step(data, line, parseTime).value)
    ensures WellGrouped(data) ==>
      SumMap(Lengths(Step(data, line, parseTime).value)) == SumMap(Lengths(data)) + (if IsRequestLine(line) then 1 else 0)
  {
    var next := Step(data, line, parseTime).value;
    if IsRequestLine(line) {
      var t := RequestType(line).value;
      var time := parseTime(SubstringBefore(line, TimestampEnd)).value;
      AppendedExtends(data, next, t, time);
      if WellGrouped(data) {
        AppendedGrouped(data, next, t, time);
      }
    }
  }

  /** The outcome of one file: the grouping, and whether an exception abandoned the file. */
  datatype FileResult = FileResult(data: Grouped, aborted: bool)

  /** `analyze`: lines in order until one throws; what the earlier lines added stays. */
  function AnalyzeFile(data: Grouped, lines: seq<string>, parseTime: string -> Option<int>): (r: FileResult)
    ensures r.aborted <==> exists i :: 0 <= i < |lines| && Fails(lines[i], parseTime)
    decreases |lines|
  {
    if |lines| == 0 then FileResult(data, false)
    else
      match Step(data, lines[0], parseTime)
      case None => FileResult(data, true)
      case Some(next) =>
        var r := AnalyzeFile(next, lines[1..], parseTime);
        assert !Fails(lines[0], parseTime);
        assert r.aborted <==> exists i :: 0 <= i < |lines| && Fails(lines[i], parseTime) by {
          if r.aborted {
            var i :| 0 <= i < |lines[1..]| && Fails(lines[1..][i], parseTime);
            assert lines[i + 1] == lines[1..][i];
          }
          if exists i :: 0 <= i < |lines| && Fails(lines[i], parseTime) {
            var i :| 0 <= i < |lines| && Fails(lines[i], parseTime);
            assert i > 0 && lines[1..][i - 1] == lines[i];
          }
        }
        r
  }

  /** How many request lines there are. */
  function RequestLines(lines: seq<string>): nat
  {
    |Filter(lines, IsRequestLine)|
  }

  /**
    A file keeps the grouping by type and extends every list; one read to
    the end adds one request per request line.
   */
  lemma {:induction false} AnalyzeFileKeeps(data: Grouped, lines: seq<string>, parseTime: string -> Option<int>)
    requires WellGrouped(data)
    ensures var r := AnalyzeFile(data, lines, parseTime);
      && WellGrouped(r.data)
      && Extends(data, r.data)
      && (!r.aborted ==> SumMap(Lengths(r.data)) == SumMap(Lengths(data)) + RequestLines(lines))
    decreases |lines|
  {
    if |lines| > 0 {
      var step := Step(data, lines[0], parseTime);
      if step.Some? {
        var next := step.value;
        StepKeeps(data, lines[0], parseTime);
        AnalyzeFileKeeps(next, lines[1..], parseTime);
        assert Filter(lines, IsRequestLine) == (if IsRequestLine(lines[0]) then [lines[0]] else []) + Filter(lines[1..], IsRequestLine);
      }
    }
  }

  /** `main`: the files one after another into one grouping; an abandoned file does not stop the run. */
  function AnalyzeFiles(data: Grouped, files: seq<seq<string>>, parseTime: string -> Option<int>): (r: Grouped)
    ensures forall k :: k in data ==> k in r
    decreases |files|
  {
    if |files| == 0 then data
    else
      var first := AnalyzeFile(data, files[0], parseTime).data;
      var r := AnalyzeFiles(first, files[1..], parseTime);
      assert forall k :: k in data ==> k in first by {
        AnalyzeFileExtends(data, files[0], parseTime);
      }
      r
  }

  lemma {:induction false} AnalyzeFileExtends(data: Grouped, lines: seq<string>, parseTime: string -> Option<int>)
    ensures Extends(data, AnalyzeFile(data, lines, parseTime).data)
    decreases |lines|
  {
    if |lines| > 0 {
      var step := Step(data, lines[0], parseTime);
      if step.Some? {
        StepKeeps(data, lines[0], parseTime);
        AnalyzeFileExtends(step.value, lines[1..], parseTime);
      }
    }
  }

  /** Over any number of files the grouping stays by type. */
  lemma {:induction false} AnalyzeFilesGrouped(data: Grouped, files: seq<seq<string>>, parseTime: string -> Option<int>)
    requires WellGrouped(data)
    ensures WellGrouped(AnalyzeFiles(data, files, parseTime))
    decreases |files|
  {
    if |files| > 0 {
      AnalyzeFileKeeps(data, files[0], parseTime);
      AnalyzeFilesGrouped(AnalyzeFile(data, files[0], parseTime).data, files[1..], parseTime);
    }
  }

  /**
    The "Запросы SOBI" listing of `writeAnalysis`: each type with its number
    of requests, in the map's iteration order `order`.
   */
  function RequestCounts(data: Grouped, order: seq<string>): (r: seq<Tally>)
    requires Enumerates(order, data.Keys)
    ensures |r| == |order|
    ensures forall i :: 0 <= i < |r| ==> r[i].name == order[i] && r[i].count == |data[order[i]]|
    ensures SumCounts(r) == SumMap(Lengths(data))
  {
    EntriesSum(Lengths(data), order);
    Entries(Lengths(data), order)
  }

  function TimeOf(q: Request): int
  {
    q.timeLog
  }

  /**
    `writeRequestsByInterval`: the list sorted by time, then each request
    counted in its five-minute window. The sort does not change the counts.
   */
  function RequestsByInterval(requests: seq<Request>): (r: map<Interval, nat>)
    ensures r == CountByInterval(MapSeq(requests, TimeOf), IntervalWidth)
    ensures SumMap(r) == |requests|
  {
    var sorted := SortByKey(requests, TimeOf);
    MapSeqPermutation(sorted, requests, TimeOf);
    CountByIntervalPermutation(MapSeq(sorted, TimeOf), MapSeq(requests, TimeOf), IntervalWidth);
    CountByInterval(MapSeq(sorted, TimeOf), IntervalWidth)
  }

  /** For requests after the epoch each window's count is the number of requests inside it. */
  lemma RequestsByIntervalWithin(requests: seq<Request>)
    requires forall i :: 0 <= i < |requests| ==> requests[i].timeLog >= 0
    ensures var r := RequestsByInterval(requests);
      forall iv :: iv in r ==>
        iv.end - iv.start == IntervalWidth && r[iv] == CountWithin(MapSeq(requests, TimeOf), iv.start, iv.end)
  {
    var times := MapSeq(requests, TimeOf);
    CountByIntervalWithin(times, IntervalWidth);
    var r := RequestsByInterval(requests);
    forall iv | iv in r
      ensures iv.end - iv.start == IntervalWidth
    {
      AssignedAligned(times, IntervalWidth, iv);
    }
  }

  /** The whole file `writeAnalysis` writes: the per-type counts, then each type's windows. */
  datatype PoibReport = PoibReport(counts: seq<Tally>, byInterval: seq<map<Interval, nat>>)

  function Report(data: Grouped, order: seq<string>): (r: PoibReport)
    requires Enumerates(order, data.Keys)
    ensures |r.counts| == |r.byInterval| == |data|
    ensures forall i :: 0 <= i < |r.counts| ==> SumMap(r.byInterval[i]) == r.counts[i].count
  {
    EnumerationSize(order, data.Keys);
    PoibReport(RequestCounts(data, order), WindowsOf(data, order))
  }

  /** Each type's windows, in the iteration order. */
  function WindowsOf(data: Grouped, order: seq<string>): (r: seq<map<Interval, nat>>)
    requires forall i :: 0 <= i < |order| ==> order[i] in data
    ensures |r| == |order|
    ensures forall i :: 0 <= i < |order| ==> SumMap(r[i]) == |data[order[i]]|
  {
    seq(|order|, i requires 0 <= i < |order| => RequestsByInterval(data[order[i]]))
  }
}

=== FILE: sales.dfy ===
/**
  `ForTests.generateReport`: a quarterly sales report. The input holds
  records `date:product:count` separated by ";"; each count is added to its
  product in the quarter of the record's month, with Java `int`
  wrap-around, and the non-empty quarters are written out in the order Q1
  to Q4.
 */
module Sales {
  import opened Wrappers
  import opened Strings
  import opened Numbers
  import opened Collections

  const RecordSeparator: char := ';'
  const FieldSeparator: string := ":"

  /** Last month of the first three quarters (`Q1_END`, `Q2_END`, `Q3_END`). */
  const Q1End: int := 3
  const Q2End: int := 6
  const Q3End: int := 9

  const QuarterNames: seq<string> := ["Q1", "Q2", "Q3", "Q4"]

  /** One parsed record. */
  datatype Record = Record(month: int, product: string, count: int)

  /** The four per-quarter maps of `SalesData`, product to total. */
  datatype SalesData = SalesData(q1: map<string, int>, q2: map<string, int>, q3: map<string, int>, q4: map<string, int>)

  const Empty: SalesData := SalesData(map[], map[], map[], map[])

  /** `getQuarterMap(index)` for the four indices the writer asks for. */
  function Quarter(d: SalesData, i: nat): (r: map<string, int>)
    requires i < 4
    ensures r == [d.q1, d.q2, d.q3, d.q4][i]
  {
    if i == 0 then d.q1 else if i == 1 then d.q2 else if i == 2 then d.q3 else d.q4
  }

  /** Every total of a map is a Java `int`. */
  predicate AllInt32(m: map<string, int>)
  {
    forall p :: p in m ==> IsInt32(m[p])
  }

  predicate Valid(d: SalesData)
  {
    AllInt32(d.q1) && AllInt32(d.q2) && AllInt32(d.q3) && AllInt32(d.q4)
  }

  /** The quarter index `put` picks for a month. */
  function QuarterOf(month: int): (q: nat)
    ensures q < 4
    ensures q == 0 <==> month <= Q1End
    ensures q == 3 <==> month > Q3End
  {
    if month <= Q1End then 0 else if month <= Q2End then 1 else if month <= Q3End then 2 else 3
  }

  /** For the months a date can have, the quarter is `(month - 1) / 3`. */
  lemma QuarterOfMonth(month: int)
    requires 1 <= month <= 12
    ensures QuarterOf(month) == (month - 1) / 3
  {
  }

  /** Later months never fall in earlier quarters. */
  lemma QuarterMonotone(a: int, b: int)
    requires a <= b
    ensures QuarterOf(a) <= QuarterOf(b)
  {
  }

  /** `map.merge(p, count, Integer::sum)`. */
  function Merge(m: map<string, int>, p: string, count: int): (r: map<string, int>)
    requires AllInt32(m) && IsInt32(count)
    ensures r.Keys == m.Keys + {p}
    ensures forall k :: k in m && k != p ==> r[k] == m[k]
    ensures p !in m ==> r[p] == count
    ensures p in m ==> r[p] == Wrap32(m[p] + count)
    ensures AllInt32(r)
  {
    m[p := if p in m then AddInt32(m[p], count) else count]
  }

  /** `SalesData.put`: the count merged into its quarter; the other quarters are untouched. */
  function Put(d: SalesData, month: int, product: string, count: int): (r: SalesData)
    requires Valid(d) && IsInt32(count)
    ensures Valid(r)
    ensures forall i: nat :: i < 4 && i != QuarterOf(month) ==> Quarter(r, i) == Quarter(d, i)
    ensures var q := Quarter(d, QuarterOf(month));
      Quarter(r, QuarterOf(month)) == Merge(q, product, count)
  {
    var q := QuarterOf(month);
    if q == 0 then d.(q1 := Merge(d.q1, product, count))
    else if q == 1 then d.(q2 := Merge(d.q2, product, count))
    else if q == 2 then d.(q3 := Merge(d.q3, product, count))
    else d.(q4 := Merge(d.q4, product, count))
  }

  /** The records put one after another into empty maps. */
  function Aggregate(records: seq<Record>): (r: SalesData)
    requires forall i :: 0 <= i < |records| ==> IsInt32(records[i].count)
    ensures Valid(r)
  {
    if |records| == 0 then Empty
    else
      var last := records[|records| - 1];
      Put(Aggregate(records[..|records| - 1]), last.month, last.product, last.count)
  }

  /** The records that land on product `p` in quarter `i`. */
  predicate Lands(r: Record, i: nat, p: string)
  {
    QuarterOf(r.month) == i && r.product == p
  }

  /** The plain sum of the counts landing on `p` in quarter `i`. */
  function SumFor(records: seq<Record>, i: nat, p: string): int
  {
    if |records| == 0 then 0
    else
      var last := records[|records| - 1];
      SumFor(records[..|records| - 1], i, p) + (if Lands(last, i, p) then last.count else 0)
  }

  /** Some record lands on `p` in quarter `i`. */
  predicate AnyLands(records: seq<Record>, i: nat, p: string)
  {
    exists j :: 0 <= j < |records| && Lands(records[j], i, p)
  }

  /**
    The aggregate against an independent definition: quarter `i` lists
    exactly the products some record of that quarter names, each with the
    sum of their counts wrapped to 32 bits.
   */
  lemma {:induction false} AggregateSums(records: seq<Record>, i: nat, p: string)
    requires forall k :: 0 <= k < |records| ==> IsInt32(records[k].count)
    requires i < 4
    ensures p in Quarter(Aggregate(records), i) <==> AnyLands(records, i, p)
    ensures p in Quarter(Aggregate(records), i) ==> Quarter(Aggregate(records), i)[p] == Wrap32(SumFor(records, i, p))
  {
    if |records| > 0 {
      var prefix := records[..|records| - 1];
      var last := records[|records| - 1];
      AggregateSums(prefix, i, p);
      AnyLandsLast(records, i, p);
      if !AnyLands(prefix, i, p) {
        SumForNone(prefix, i, p);
      }
      AggregateStep(Aggregate(prefix), last, i, p, SumFor(prefix, i, p), AnyLands(prefix, i, p));
    }
  }

  /** One record put on top of an aggregate that already agrees with the reference sum. */
  lemma AggregateStep(before: SalesData, r: Record, i: nat, p: string, sum: int, any: bool)
    requires Valid(before) && IsInt32(r.count) && i < 4
    requires p in Quarter(before, i) <==> any
    requires p in Quarter(before, i) ==> Quarter(before, i)[p] == Wrap32(sum)
    requires !any ==> sum == 0
    ensures var after := Quarter(Put(before, r.month, r.product, r.count), i);
      (p in after <==> any || Lands(r, i, p)) &&
      (p in after ==> after[p] == Wrap32(sum + (if Lands(r, i, p) then r.count else 0)))
  {
    if Lands(r, i, p) {
      PutLands(before, r.month, p, r.count);
      if any {
        WrapAdd(sum, r.count);
      }
    } else {
      PutMisses(before, r.month, r.product, r.count, i, p);
    }
  }

  /** Some record lands on `p` exactly when an earlier one does or the last one does. */
  lemma AnyLandsLast(records: seq<Record>, i: nat, p: string)
    requires |records| > 0
    ensures AnyLands(records, i, p) <==>
      AnyLands(records[..|records| - 1], i, p) || Lands(records[|records| - 1], i, p)
  {
    var prefix := records[..|records| - 1];
    if AnyLands(records, i, p) && !Lands(records[|records| - 1], i, p) {
      var j :| 0 <= j < |records| && Lands(records[j], i, p);
      assert prefix[j] == records[j];
    }
    if AnyLands(prefix, i, p) {
      var j :| 0 <= j < |prefix| && Lands(prefix[j], i, p);
      assert prefix[j] == records[j];
    }
  }

  /** The product put is present in its quarter with the wrapped sum. */
  lemma PutLands(d: SalesData, month: int, p: string, count: int)
    requires Valid(d) && IsInt32(count)
    ensures var i := QuarterOf(month);
      var after := Quarter(Put(d, month, p, count), i);
      p in after && after[p] == (if p in Quarter(d, i) then Wrap32(Quarter(d, i)[p] + count) else count)
  {
  }

  /** Any other quarter or product is left as it was. */
  lemma PutMisses(d: SalesData, month: int, product: string, count: int, i: nat, p: string)
    requires Valid(d) && IsInt32(count) && i < 4
    requires QuarterOf(month) != i || product != p
    ensures p in Quarter(Put(d, month, product, count), i) <==> p in Quarter(d, i)
    ensures p in Quarter(d, i) ==> Quarter(Put(d, month, product, count), i)[p] == Quarter(d, i)[p]
  {
  }

  lemma {:induction false} SumForNone(records: seq<Record>, i: nat, p: string)
    requires !AnyLands(records, i, p)
    ensures SumFor(records, i, p) == 0
  {
    if |records| > 0 {
      var prefix := records[..|records| - 1];
      SumForNone(prefix, i, p);
      assert !Lands(records[|records| - 1], i, p);
    }
  }

  /** Why a report could not be made: the two `IllegalArgumentException`s, with the offending record. */
  datatype Failure = InvalidFormat(record: string) | ProcessingError(record: string)

  /** The exception's message. */
  function Message(f: Failure): string
  {
    match f
    case InvalidFormat(record) => "Invalid data format: " + record
    case ProcessingError(record) => "Error processing data: " + record
  }

  datatype Parsed = Parsed(record: Record) | Failed(failure: Failure)

  /**
    One record: `split(":")` must give three fields, else the format is
    invalid; then the date (read by `parseMonth`, which stands for
    `LocalDate.parse(...).getMonthValue()`) and the count must both parse.
   */
  function ParseRecord(token: string, parseMonth: string -> Option<int>): (r: Parsed)
    ensures var fields := Split(token, FieldSeparator);
      r.Parsed? <==> |fields| == 3 && parseMonth(fields[0]).Some? && ParseInt(fields[2]).Some?
    ensures var fields := Split(token, FieldSeparator);
      r.Parsed? ==> r.record == Record(parseMonth(fields[0]).value, fields[1], ParseInt(fields[2]).value)
    ensures r.Parsed? ==> IsInt32(r.record.count)
    ensures r.Failed? && r.failure.InvalidFormat? <==> |Split(token, FieldSeparator)| != 3
    ensures r.Failed? ==> r.failure.record == token
  {
    var fields := Split(token, FieldSeparator);
    if |fields| != 3 then Failed(InvalidFormat(token))
    else
      match (parseMonth(fields[0]), ParseInt(fields[2]))
      case (Some(month), Some(count)) => Parsed(Record(month, fields[1], count))
      case _ => Failed(ProcessingError(token))
  }

  /** A record written as date, product and count reads back as its month, product and count. */
  lemma {:induction false} ParseRecordRoundTrip(date: string, product: string, count: int, parseMonth: string -> Option<int>)
    requires ':' !in date && ':' !in product && IsInt32(count)
    requires parseMonth(date).Some?
    ensures ParseRecord(date + ":" + product + ":" + IntToString(count), parseMonth)
      == Parsed(Record(parseMonth(date).value, product, count))
  {
    var digits := IntToString(count);
    var token := date + ":" + product + ":" + digits;
    assert ':' !in digits by {
      assert forall k :: 0 <= k < |digits| ==> digits[k] == '-' || IsDigit(digits[k]);
    }
    NoOccurrenceWithoutFirstChar(digits, FieldSeparator);
    SplitInThree(date, FieldSeparator, product, digits);
    ParseIntToString(count);
  }

  datatype Outcome = Report(data: SalesData) | Rejected(failure: Failure)

  /** The parsed records, or the failure of the first record that did not parse. */
  datatype Records = Records(records: seq<Record>) | Stopped(failure: Failure)

  /** Token `i` is the first that fails, with `f`. */
  predicate FirstFailure(tokens: seq<string>, parseMonth: string -> Option<int>, i: int, f: Failure)
  {
    && 0 <= i < |tokens|
    && ParseRecord(tokens[i], parseMonth) == Failed(f)
    && forall j :: 0 <= j < i ==> ParseRecord(tokens[j], parseMonth).Parsed?
  }

  /** `records` are what `tokens` parse to, one for one. */
  predicate ParsedAll(tokens: seq<string>, parseMonth: string -> Option<int>, records: seq<Record>)
  {
    |records| == |tokens| && forall i :: 0 <= i < |tokens| ==> ParseRecord(tokens[i], parseMonth) == Parsed(records[i])
  }

  /** The records in order; the first that fails ends the run with its failure. */
  function ParseRecords(tokens: seq<string>, parseMonth: string -> Option<int>): (r: Records)
    ensures r.Records? ==> ParsedAll(tokens, parseMonth, r.records)
    ensures r.Records? ==> forall i :: 0 <= i < |r.records| ==> IsInt32(r.records[i].count)
    ensures r.Stopped? ==> exists i :: FirstFailure(tokens, parseMonth, i, r.failure)
  {
    if |tokens| == 0 then Records([])
    else
      match ParseRecord(tokens[0], parseMonth)
      case Failed(f) =>
        assert FirstFailure(tokens, parseMonth, 0, f);
        Stopped(f)
      case Parsed(record) =>
        match ParseRecords(tokens[1..], parseMonth)
        case Stopped(f) =>
          StoppedShift(tokens, parseMonth, f);
          Stopped(f)
        case Records(records) =>
          ParsedAllCons(tokens, parseMonth, record, records);
          Records([record] + records)
  }

  /** A failure after a parsed first token is the first failure of the whole run too. */
  lemma StoppedShift(tokens: seq<string>, parseMonth: string -> Option<int>, f: Failure)
    requires |tokens| > 0 && ParseRecord(tokens[0], parseMonth).Parsed?
    requires exists i :: FirstFailure(tokens[1..], parseMonth, i, f)
    ensures exists i :: FirstFailure(tokens, parseMonth, i, f)
  {
    var i :| FirstFailure(tokens[1..], parseMonth, i, f);
    FirstFailureShift(tokens, parseMonth, i, f);
  }

  /** The first token's record in front of the rest's records; every count fits in an `int`. */
  lemma ParsedAllCons(tokens: seq<string>, parseMonth: string -> Option<int>, record: Record, records: seq<Record>)
    requires |tokens| > 0 && ParseRecord(tokens[0], parseMonth) == Parsed(record)
    requires ParsedAll(tokens[1..], parseMonth, records)
    ensures ParsedAll(tokens, parseMonth, [record] + records)
    ensures forall i :: 0 <= i < |[record] + records| ==> IsInt32(([record] + records)[i].count)
  {
    var all := [record] + records;
    forall i | 0 <= i < |tokens|
      ensures ParseRecord(tokens[i], parseMonth) == Parsed(all[i]) && IsInt32(all[i].count)
    {
      if i > 0 {
        assert tokens[i] == tokens[1..][i - 1] && all[i] == records[i - 1];
      }
    }
  }

  lemma FirstFailureShift(tokens: seq<string>, parseMonth: string -> Option<int>, i: int, f: Failure)
    requires |tokens| > 0 && ParseRecord(tokens[0], parseMonth).Parsed?
    requires FirstFailure(tokens[1..], parseMonth, i, f)
    ensures FirstFailure(tokens, parseMonth, i + 1, f)
  {
    forall j | 1 <= j < i + 1
      ensures ParseRecord(tokens[j], parseMonth).Parsed?
    {
      assert tokens[j] == tokens[1..][j - 1];
    }
  }

  /**
    `generateReport` up to the writing: `null` or "" gives the empty data
    (written as ""); otherwise the ";"-separated records are parsed and put
    in order.
   */
  function GenerateReport(salesData: Option<string>, parseMonth: string -> Option<int>): (r: Outcome)
    ensures salesData.None? || salesData == Some("") ==> r == Report(Empty)
    ensures salesData.Some? && salesData.value != "" ==>
      (r.Rejected? <==> SomeRecordFails(Tokens(salesData.value, RecordSeparator), parseMonth))
    ensures r.Rejected? ==>
      salesData.Some? && exists i :: FirstFailure(Tokens(salesData.value, RecordSeparator), parseMonth, i, r.failure)
    ensures r.Report? && salesData.Some? && salesData.value != "" ==>
      AggregateOf(Tokens(salesData.value, RecordSeparator), parseMonth, r.data)
  {
    match salesData
    case None => Report(Empty)
    case Some(s) =>
      if s == "" then Report(Empty)
      else
        var tokens := Tokens(s, RecordSeparator);
        ParseRecordsStops(tokens, parseMonth);
        match ParseRecords(tokens, parseMonth)
        case Stopped(f) => Rejected(f)
        case Records(records) =>
          assert ParsedAll(tokens, parseMonth, records);
          Report(Aggregate(records))
  }

  /** Some record of `tokens` does not parse. */
  predicate SomeRecordFails(tokens: seq<string>, parseMonth: string -> Option<int>)
  {
    exists i :: 0 <= i < |tokens| && ParseRecord(tokens[i], parseMonth).Failed?
  }

  /** `data` is what the records `tokens` parse to add up to. */
  ghost predicate AggregateOf(tokens: seq<string>, parseMonth: string -> Option<int>, data: SalesData)
  {
    exists records: seq<Record> ::
      && ParsedAll(tokens, parseMonth, records)
      && (forall i :: 0 <= i < |records| ==> IsInt32(records[i].count))
      && data == Aggregate(records)
  }

  /** The records stop exactly when some record does not parse. */
  lemma ParseRecordsStops(tokens: seq<string>, parseMonth: string -> Option<int>)
    ensures ParseRecords(tokens, parseMonth).Stopped? <==> SomeRecordFails(tokens, parseMonth)
  {
    var r := ParseRecords(tokens, parseMonth);
    if r.Stopped? {
      var i :| FirstFailure(tokens, parseMonth, i, r.failure);
      assert ParseRecord(tokens[i], parseMonth).Failed?;
    } else {
      assert ParsedAll(tokens, parseMonth, r.records);
    }
  }

  /** One product line: "\n- product: total". */
  function EntryLine(product: string, total: int): string
  {
    "\n- " + product + ": " + IntToString(total)
  }

  /**
    `toString(map)`: the product lines in the map's iteration order `order`,
    each opened by a line break (the joining prefix and separator). For an
    empty map Java still writes the prefix; `Section` never asks for one.
   */
  function EntryLines(m: map<string, int>, order: seq<string>): (r: string)
    requires forall i :: 0 <= i < |order| ==> order[i] in m
    ensures r == "" <==> |order| == 0
    ensures |order| > 0 ==> r[0] == '\n'
  {
    if |order| == 0 then "" else EntryLine(order[0], m[order[0]]) + EntryLines(m, order[1..])
  }

  /** The section of quarter `i`: "Qn:", its product lines, and a line break; nothing when the quarter is empty. */
  function Section(d: SalesData, i: nat, order: seq<string>): (r: string)
    requires i < 4 && Enumerates(order, Quarter(d, i).Keys)
    ensures r == "" <==> |Quarter(d, i)| == 0
    ensures |Quarter(d, i)| > 0 ==>
      && |r| >= |QuarterNames[i]| + 2
      && r[..|QuarterNames[i]| + 1] == QuarterNames[i] + ":"
      && r[|r| - 1] == '\n'
  {
    var q := Quarter(d, i);
    if |q| == 0 then ""
    else QuarterNames[i] + ":" + EntryLines(q, order) + "\n"
  }

  /** The iteration orders of the four quarter maps. */
  predicate Orders(d: SalesData, orders: seq<seq<string>>)
  {
    |orders| == 4 && forall i: nat :: i < 4 ==> Enumerates(orders[i], Quarter(d, i).Keys)
  }

  /** `SalesData.toString`: the sections of Q1 to Q4, in that order. */
  function Render(d: SalesData, orders: seq<seq<string>>): (r: string)
    requires Orders(d, orders)
    ensures r == "" <==> forall i: nat :: i < 4 ==> |Quarter(d, i)| == 0
  {
    Section(d, 0, orders[0]) + Section(d, 1, orders[1]) + Section(d, 2, orders[2]) + Section(d, 3, orders[3])
  }

  lemma RenderEmpty(orders: seq<seq<string>>)
    requires Orders(Empty, orders)
    ensures Render(Empty, orders) == ""
  {
  }

  predicate IsLineBreak(c: char)
  {
    c == '\n'
  }

  /** How many line breaks a text holds. */
  function LineBreaks(s: string): nat
  {
    |Filter(s, IsLineBreak)|
  }

  lemma LineBreaksAppend(a: string, b: string)
    ensures LineBreaks(a + b) == LineBreaks(a) + LineBreaks(b)
  {
    FilterAppend(a, b, IsLineBreak);
  }

  lemma {:induction false} LineBreaksNone(s: string)
    requires '\n' !in s
    ensures LineBreaks(s) == 0
  {
    if |s| > 0 {
      assert s == [s[0]] + s[1..];
      LineBreaksAppend([s[0]], s[1..]);
      LineBreaksNone(s[1..]);
      assert Filter([s[0]], IsLineBreak) == [];
    }
  }

  /** Product names without line breaks. */
  predicate PlainNames(d: SalesData)
  {
    forall i: nat, p :: i < 4 && p in Quarter(d, i) ==> '\n' !in p
  }

  lemma {:induction false} EntryLineBreaks(p: string, v: int)
    requires '\n' !in p
    ensures LineBreaks(EntryLine(p, v)) == 1
  {
    var digits := IntToString(v);
    assert '\n' !in digits by {
      assert forall k :: 0 <= k < |digits| ==> digits[k] == '-' || IsDigit(digits[k]);
    }
    LineBreaksAppend("\n- " + p + ": ", digits);
    LineBreaksAppend("\n- " + p, ": ");
    LineBreaksAppend("\n- ", p);
    LineBreaksAppend("\n", "- ");
    LineBreaksNone(digits);
    LineBreaksNone(": ");
    LineBreaksNone(p);
    LineBreaksNone("- ");
    assert Filter("\n", IsLineBreak) == "\n";
  }

  lemma {:induction false} EntryLinesBreaks(m: map<string, int>, order: seq<string>)
    requires forall i :: 0 <= i < |order| ==> order[i] in m && '\n' !in order[i]
    ensures LineBreaks(EntryLines(m, order)) == |order|
  {
    if |order| > 0 {
      EntryLineBreaks(order[0], m[order[0]]);
      EntryLinesBreaks(m, order[1..]);
      LineBreaksAppend(EntryLine(order[0], m[order[0]]), EntryLines(m, order[1..]));
    }
  }

  /** A section's text: its header line plus one line per product. */
  lemma {:induction false} SectionTextBreaks(name: string, m: map<string, int>, order: seq<string>)
    requires '\n' !in name
    requires forall i :: 0 <= i < |order| ==> order[i] in m && '\n' !in order[i]
    ensures LineBreaks(name + ":" + EntryLines(m, order) + "\n") == 1 + |order|
  {
    EntryLinesBreaks(m, order);
    LineBreaksAppend(name + ":" + EntryLines(m, order), "\n");
    LineBreaksAppend(name + ":", EntryLines(m, order));
    LineBreaksNone(name + ":");
    assert Filter("\n", IsLineBreak) == "\n";
  }

  lemma {:induction false} SectionBreaks(d: SalesData, i: nat, order: seq<string>)
    requires i < 4 && Enumerates(order, Quarter(d, i).Keys) && PlainNames(d)
    ensures LineBreaks(Section(d, i, order)) == QuarterLines(d, i)
  {
    var q := Quarter(d, i);
    if |q| > 0 {
      EnumerationSize(order, q.Keys);
      assert '\n' !in QuarterNames[i];
      SectionTextBreaks(QuarterNames[i], q, order);
    }
  }

  /** The lines of one quarter in the report: its header plus one per product. */
  function QuarterLines(d: SalesData, i: nat): nat
    requires i < 4
  {
    if |Quarter(d, i)| == 0 then 0 else 1 + |Quarter(d, i)|
  }

  /** The report has one line per non-empty quarter and one per product in it. */
  lemma RenderLines(d: SalesData, orders: seq<seq<string>>)
    requires Orders(d, orders) && PlainNames(d)
    ensures LineBreaks(Render(d, orders)) == QuarterLines(d, 0) + QuarterLines(d, 1) + QuarterLines(d, 2) + QuarterLines(d, 3)
  {
    var s0, s1, s2, s3 := Section(d, 0, orders[0]), Section(d, 1, orders[1]), Section(d, 2, orders[2]), Section(d, 3, orders[3]);
    RenderSections(d, orders);
    SectionBreaks(d, 0, orders[0]);
    SectionBreaks(d, 1, orders[1]);
    SectionBreaks(d, 2, orders[2]);
    SectionBreaks(d, 3, orders[3]);
    FourBreaks(s0, s1, s2, s3);
  }

  /** The line breaks of four texts put together. */
  lemma FourBreaks(s0: string, s1: string, s2: string, s3: string)
    ensures LineBreaks(s0 + s1 + s2 + s3) == LineBreaks(s0) + LineBreaks(s1) + LineBreaks(s2) + LineBreaks(s3)
  {
    LineBreaksAppend(s0 + s1 + s2, s3);
    LineBreaksAppend(s0 + s1, s2);
    LineBreaksAppend(s0, s1);
  }

  /** Every product line of the order appears in the text of the product lines. */
  lemma {:induction false} EntryLinesHold(m: map<string, int>, order: seq<string>, k: nat)
    requires forall i :: 0 <= i < |order| ==> order[i] in m
    requires k < |order|
    ensures Contains(EntryLines(m, order), EntryLine(order[k], m[order[k]]))
  {
    if k == 0 {
      ContainsPrefix(EntryLine(order[0], m[order[0]]), EntryLines(m, order[1..]));
    } else {
      EntryLinesHold(m, order[1..], k - 1);
      assert order[1..][k - 1] == order[k];
      EntryLinesLater(m, order, EntryLine(order[k], m[order[k]]));
    }
  }

  /** A line found among the later product lines is found among all of them. */
  lemma EntryLinesLater(m: map<string, int>, order: seq<string>, line: string)
    requires forall i :: 0 <= i < |order| ==> order[i] in m
    requires |order| > 0 && Contains(EntryLines(m, order[1..]), line)
    ensures Contains(EntryLines(m, order), line)
  {
    ContainsAfter(EntryLine(order[0], m[order[0]]), EntryLines(m, order[1..]), line);
  }

  lemma ContainsPrefix(a: string, b: string)
    ensures Contains(a + b, a)
  {
    assert (a + b)[0..|a|] == a;
    ContainsAt(a + b, a, 0);
  }

  lemma ContainsAfter(a: string, b: string, sub: string)
    requires Contains(b, sub)
    ensures Contains(a + b, sub)
  {
    var j := IndexOf(b, sub).value;
    OccursRight(a, b, sub, j);
    ContainsAt(a + b, sub, |a| + j);
  }

  /** A product line of quarter `i` occurs in that quarter's section. */
  lemma {:induction false} SectionHolds(d: SalesData, i: nat, order: seq<string>, p: string) returns (at: nat)
    requires i < 4 && Enumerates(order, Quarter(d, i).Keys) && p in Quarter(d, i)
    ensures OccursAt(Section(d, i, order), EntryLine(p, Quarter(d, i)[p]), at)
  {
    var q := Quarter(d, i);
    var k :| 0 <= k < |order| && order[k] == p;
    EntryLinesHold(q, order, k);
    at := OccursInside(QuarterNames[i] + ":", EntryLines(q, order), "\n", EntryLine(p, q[p]));
  }

  /** What the middle text contains occurs in it framed by a head and a tail. */
  lemma OccursInside(head: string, body: string, tail: string, sub: string) returns (at: nat)
    requires Contains(body, sub)
    ensures OccursAt(head + body + tail, sub, at)
  {
    var j := IndexOf(body, sub).value;
    OccursRight(head, body, sub, j);
    OccursLeft(head + body, tail, sub, |head| + j);
    at := |head| + j;
  }

  /** Whatever occurs in one of four texts occurs in the four put together. */
  lemma {:induction false} InOneOfFour(s0: string, s1: string, s2: string, s3: string, k: nat, sub: string, at: nat)
    requires k < 4 && OccursAt([s0, s1, s2, s3][k], sub, at)
    ensures Contains(s0 + s1 + s2 + s3, sub)
  {
    var pos: nat;
    if k == 0 {
      OccursLeft(s0, s1, sub, at);
      pos := at;
    } else if k == 1 {
      OccursRight(s0, s1, sub, at);
      pos := |s0| + at;
    }
    if k <= 1 {
      OccursLeft(s0 + s1, s2, sub, pos);
    } else if k == 2 {
      OccursRight(s0 + s1, s2, sub, at);
      pos := |s0 + s1| + at;
    }
    if k <= 2 {
      OccursLeft(s0 + s1 + s2, s3, sub, pos);
    } else {
      OccursRight(s0 + s1 + s2, s3, sub, at);
      pos := |s0 + s1 + s2| + at;
    }
    ContainsAt(s0 + s1 + s2 + s3, sub, pos);
  }

  /** Every product of every non-empty quarter is written with its total in the report. */
  lemma {:induction false} RenderHolds(d: SalesData, orders: seq<seq<string>>, i: nat, p: string)
    requires Orders(d, orders) && i < 4 && p in Quarter(d, i)
    ensures Contains(Render(d, orders), EntryLine(p, Quarter(d, i)[p]))
  {
    var at := SectionHolds(d, i, orders[i], p);
    var s0, s1, s2, s3 := Section(d, 0, orders[0]), Section(d, 1, orders[1]), Section(d, 2, orders[2]), Section(d, 3, orders[3]);
    SectionPicked(d, orders, i);
    InOneOfFour(s0, s1, s2, s3, i, EntryLine(p, Quarter(d, i)[p]), at);
    RenderSections(d, orders);
  }

  /** The report is the four sections in quarter order. */
  lemma RenderSections(d: SalesData, orders: seq<seq<string>>)
    requires Orders(d, orders)
    ensures Render(d, orders)
      == Section(d, 0, orders[0]) + Section(d, 1, orders[1]) + Section(d, 2, orders[2]) + Section(d, 3, orders[3])
  {
  }

  /** Section `i` is the `i`-th of the four sections. */
  lemma SectionPicked(d: SalesData, orders: seq<seq<string>>, i: nat)
    requires Orders(d, orders) && i < 4
    ensures [Section(d, 0, orders[0]), Section(d, 1, orders[1]), Section(d, 2, orders[2]), Section(d, 3, orders[3])][i]
      == Section(d, i, orders[i])
  {
  }
}

=== FILE: strings.dfy ===
/**
  The string helpers the analyzers lean on: `java.lang.String.indexOf`,
  `contains`, `split`, `trim`, `compareTo`, `java.util.StringTokenizer`, and
  the commons-lang3 `StringUtils` functions `substringBefore`,
  `substringAfter`, `substringBetween`, `substring`, `endsWith` and
  `countMatches`. A Java `null` result is `None`.
 */
module Strings {
  import opened Wrappers

  /** `sub` occurs in `s` starting at position `i`. */
  predicate OccursAt(s: string, sub: string, i: nat)
  {
    i + |sub| <= |s| && s[i..i + |sub|] == sub
  }

  /** `String.indexOf(sub, from)`: the first occurrence of `sub` at or after `from`. */
  function IndexFrom(s: string, sub: string, from: nat): (r: Option<nat>)
    requires from <= |s|
    ensures r.Some? ==> from <= r.value && OccursAt(s, sub, r.value)
    ensures forall i: nat :: from <= i && (r.None? || i < r.value) ==> !OccursAt(s, sub, i)
    decreases |s| - from
  {
    if OccursAt(s, sub, from) then Some(from)
    else if from == |s| then None
    else IndexFrom(s, sub, from + 1)
  }

  /** `String.indexOf(sub)`. */
  function IndexOf(s: string, sub: string): (r: Option<nat>)
    ensures r.Some? ==> OccursAt(s, sub, r.value)
    ensures forall i: nat :: (r.None? || i < r.value) ==> !OccursAt(s, sub, i)
  {
    IndexFrom(s, sub, 0)
  }

  /** An occurrence with none before it is the one `indexOf` finds. */
  lemma IndexOfFirst(s: string, sub: string, i: nat)
    requires OccursAt(s, sub, i)
    requires forall j: nat :: j < i ==> !OccursAt(s, sub, j)
    ensures IndexOf(s, sub) == Some(i)
  {
  }

  lemma IndexFromFirst(s: string, sub: string, from: nat, i: nat)
    requires from <= i && from <= |s| && OccursAt(s, sub, i)
    requires forall j: nat :: from <= j < i ==> !OccursAt(s, sub, j)
    ensures IndexFrom(s, sub, from) == Some(i)
  {
  }

  /** `String.contains(sub)`. */
  predicate Contains(s: string, sub: string)
  {
    IndexOf(s, sub).Some?
  }

  lemma ContainsAt(s: string, sub: string, i: nat)
    requires OccursAt(s, sub, i)
    ensures Contains(s, sub)
  {
  }

  /** An occurrence inside a slice of `s` is an occurrence in `s`. */
  lemma OccursInSlice(s: string, sub: string, lo: nat, hi: nat, i: nat)
    requires lo <= hi <= |s|
    requires OccursAt(s[lo..hi], sub, i)
    ensures OccursAt(s, sub, lo + i)
  {
    forall k | 0 <= k < |sub|
      ensures s[lo + i + k] == sub[k]
    {
      assert s[lo..hi][i + k] == s[lo + i + k];
      assert s[lo..hi][i..i + |sub|][k] == s[lo..hi][i + k];
    }
    assert s[lo + i..lo + i + |sub|] == sub;
  }

  /** `StringUtils.endsWith(s, suffix)`: the last `|suffix|` characters of `s` are those of `suffix`. */
  function EndsWith(s: string, suffix: string): (r: bool)
    ensures r <==> |suffix| <= |s| && forall k :: 0 <= k < |suffix| ==> s[|s| - |suffix| + k] == suffix[k]
  {
    |suffix| <= |s| && s[|s| - |suffix|..] == suffix
  }

  /** Any text followed by `suffix` ends with it. */
  lemma EndsWithAppend(a: string, suffix: string)
    ensures EndsWith(a + suffix, suffix)
  {
    assert (a + suffix)[|a|..] == suffix;
  }

  /**
    `StringUtils.substringBefore(s, sep)`: the text before the first `sep`;
    the whole input when `sep` is absent, and "" for an empty separator.
   */
  function SubstringBefore(s: string, sep: string): (r: string)
    ensures |sep| == 0 ==> r == ""
    ensures !Contains(s, sep) ==> r == s
    ensures |sep| > 0 && Contains(s, sep) ==> r + sep <= s && !Contains(r, sep)
  {
    if |s| == 0 then s
    else if |sep| == 0 then ""
    else
      match IndexOf(s, sep)
      case None => s
      case Some(i) =>
        assert s[..i] + sep == s[..i + |sep|];
        assert !Contains(s[..i], sep) by {
          if Contains(s[..i], sep) {
            OccursInSlice(s, sep, 0, i, IndexOf(s[..i], sep).value);
          }
        }
        s[..i]
  }

  /**
    `StringUtils.substringAfter(s, sep)`: the text after the first `sep`,
    and "" when `sep` is absent.
   */
  function SubstringAfter(s: string, sep: string): (r: string)
    ensures !Contains(s, sep) ==> r == ""
    ensures |r| <= |s| && r == s[|s| - |r|..]
    ensures Contains(s, sep) ==>
      && |r| + |sep| <= |s|
      && OccursAt(s, sep, |s| - |r| - |sep|)
      && forall i: nat :: i < |s| - |r| - |sep| ==> !OccursAt(s, sep, i)
  {
    if |s| == 0 then s
    else
      match IndexOf(s, sep)
      case None => ""
      case Some(i) => s[i + |sep|..]
  }

  /** The two halves around the first separator give back the input. */
  lemma {:induction false} BeforeAndAfter(s: string, sep: string)
    requires |sep| > 0 && Contains(s, sep)
    ensures SubstringBefore(s, sep) + sep + SubstringAfter(s, sep) == s
    ensures OccursAt(s, sep, |SubstringBefore(s, sep)|)
    ensures forall i: nat :: i < |SubstringBefore(s, sep)| ==> !OccursAt(s, sep, i)
  {
    var i := IndexOf(s, sep).value;
    assert SubstringBefore(s, sep) == s[..i];
    assert SubstringAfter(s, sep) == s[i + |sep|..];
    assert s[i..i + |sep|] == sep;
    CutThree(s, i, i + |sep|);
  }

  /**
    `StringUtils.substringBetween(s, open, close)`: the text between the
    first `open` and the first `close` after it, or `None` when either is
    missing.
   */
  function SubstringBetween(s: string, open: string, close: string): (r: Option<string>)
    ensures !Contains(s, open) ==> r.None?
    ensures r.Some? ==>
      var start := IndexOf(s, open).value + |open|;
      && start + |r.value| <= |s|
      && s[start..start + |r.value|] == r.value
      && OccursAt(s, close, start + |r.value|)
      && forall i: nat :: start <= i < start + |r.value| ==> !OccursAt(s, close, i)
    ensures r.None? && Contains(s, open) ==>
      forall i: nat :: IndexOf(s, open).value + |open| <= i ==> !OccursAt(s, close, i)
  {
    match IndexOf(s, open)
    case None => None
    case Some(st) =>
      match IndexFrom(s, close, st + |open|)
      case None => None
      case Some(e) => Some(s[st + |open|..e])
  }

  /** The text found before a one-character `close` holds no `close`. */
  lemma BetweenLacksClose(s: string, open: string, c: char, v: string)
    requires SubstringBetween(s, open, [c]) == Some(v)
    ensures c !in v
  {
    var st := IndexOf(s, open).value + |open|;
    forall i | 0 <= i < |v|
      ensures v[i] != c
    {
      assert v[i] == s[st + i];
      assert !OccursAt(s, [c], st + i);
      assert s[st + i..st + i + 1] == [s[st + i]];
    }
  }

  /** A character missing from a text is missing from its suffixes. */
  lemma SuffixLacks(s: string, t: string, c: char)
    requires |t| <= |s| && t == s[|s| - |t|..] && c !in s
    ensures c !in t
  {
    forall i | 0 <= i < |t|
      ensures t[i] != c
    {
      assert t[i] == s[|s| - |t| + i];
    }
  }

  /**
    Single-character delimiters around a value: the value comes back when
    the text before it has no `open` and the value itself has no `close`.
   */
  lemma {:induction false} BetweenChars(a: string, open: char, v: string, close: char, b: string)
    requires open !in a && close !in v
    ensures SubstringBetween(a + [open] + v + [close] + b, [open], [close]) == Some(v)
  {
    var s := a + [open] + v + [close] + b;
    assert OccursAt(s, [open], |a|);
    forall i: nat | i < |a|
      ensures !OccursAt(s, [open], i)
    {
      assert s[i] == a[i];
    }
    assert IndexOf(s, [open]) == Some(|a|);
    var st := |a| + 1;
    assert OccursAt(s, [close], st + |v|);
    forall i: nat | st <= i < st + |v|
      ensures !OccursAt(s, [close], i)
    {
      assert s[i] == v[i - st];
    }
    assert IndexFrom(s, [close], st) == Some(st + |v|);
    assert s[st..st + |v|] == v;
  }

  /**
    A multi-character opening marker: the value comes back when the text
    before the marker has none of the marker's first character and the value
    has no `close`.
   */
  lemma {:induction false} BetweenMarker(a: string, open: string, v: string, close: char, b: string)
    requires |open| > 0 && open[0] !in a && close !in v
    ensures SubstringBetween(a + open + v + [close] + b, open, [close]) == Some(v)
  {
    var s := a + open + v + [close] + b;
    Layout(s, a, open, v, close, b);
    BetweenLaidOut(s, |a|, open, v, close);
  }

  /** `open` at `i`, then `v`, then `close`, with no first character of `open` before `i` and no `close` in `v`. */
  lemma BetweenLaidOut(s: string, i: nat, open: string, v: string, close: char)
    requires |open| > 0 && i + |open| + |v| + 1 <= |s|
    requires s[i..i + |open|] == open && open[0] !in s[0..i]
    requires s[i + |open|..i + |open| + |v|] == v && close !in v
    requires s[i + |open| + |v|..i + |open| + |v| + 1] == [close]
    ensures SubstringBetween(s, open, [close]) == Some(v)
  {
    var e := i + |open| + |v|;
    BetweenAt(s, open, [close], i, e);
  }

  /**
    The value between an opening marker at `i` and a closing one at `e`,
    when neither marker's first character occurs earlier in its search range.
   */
  lemma BetweenAt(s: string, open: string, close: string, i: nat, e: nat)
    requires |open| > 0 && |close| > 0 && i + |open| <= e && e + |close| <= |s|
    requires s[i..i + |open|] == open && open[0] !in s[0..i]
    requires s[e..e + |close|] == close && close[0] !in s[i + |open|..e]
    ensures SubstringBetween(s, open, close) == Some(s[i + |open|..e])
  {
    FirstAfterGap(s, open, 0, i);
    FirstAfterGap(s, close, i + |open|, e);
    BetweenFound(s, open, close, i, e);
  }

  /** Where the parts of `a + open + v + [close] + b` sit. */
  lemma Layout(s: string, a: string, open: string, v: string, close: char, b: string)
    requires s == a + open + v + [close] + b
    ensures |s| == |a| + |open| + |v| + 1 + |b|
    ensures s[0..|a|] == a && s[|a|..|a| + |open|] == open
    ensures s[|a| + |open|..|a| + |open| + |v|] == v
    ensures s[|a| + |open| + |v|..|a| + |open| + |v| + 1] == [close]
  {
    assert s == (a + open) + v + [close] + b;
  }

  /** `sub` at `i` is the first occurrence from `from` when its first character is absent in between. */
  lemma FirstAfterGap(s: string, sub: string, from: nat, i: nat)
    requires |sub| > 0 && from <= i && i + |sub| <= |s| && s[i..i + |sub|] == sub
    requires sub[0] !in s[from..i]
    ensures IndexFrom(s, sub, from) == Some(i)
  {
    NoFirstChar(s, sub[0], from, i);
    FirstOccurrence(s, sub, from, i);
  }

  /** Both searches succeeding yields the text between the two hits. */
  lemma BetweenFound(s: string, open: string, close: string, i: nat, e: nat)
    requires IndexOf(s, open) == Some(i) && i + |open| <= e
    requires IndexFrom(s, close, i + |open|) == Some(e)
    ensures SubstringBetween(s, open, close) == Some(s[i + |open|..e])
  {
  }

  /** A character absent from a slice is absent at each of its positions. */
  lemma NoFirstChar(s: string, c: char, lo: nat, hi: nat)
    requires lo <= hi <= |s| && c !in s[lo..hi]
    ensures forall j :: lo <= j < hi ==> s[j] != c
  {
    forall j | lo <= j < hi
      ensures s[j] != c
    {
      assert s[lo..hi][j - lo] == s[j];
    }
  }

  /**
    An occurrence at `i` is the first one from `from` on when the first
    character of `sub` appears nowhere in between.
   */
  lemma FirstOccurrence(s: string, sub: string, from: nat, i: nat)
    requires |sub| > 0 && from <= i && i + |sub| <= |s| && s[i..i + |sub|] == sub
    requires forall j :: from <= j < i ==> s[j] != sub[0]
    ensures IndexFrom(s, sub, from) == Some(i)
  {
    forall j: nat | from <= j < i
      ensures !OccursAt(s, sub, j)
    {
      if j + |sub| <= |s| {
        assert s[j..j + |sub|][0] == s[j];
      }
    }
    IndexFromFirst(s, sub, from, i);
  }

  /** The text after a separator whose first character does not occur before it. */
  lemma {:induction false} AfterFirst(a: string, sep: string, v: string)
    requires |sep| > 0 && sep[0] !in a
    ensures SubstringAfter(a + sep + v, sep) == v
  {
    var s := a + sep + v;
    assert s[..|a|] == a && s[|a|..|a| + |sep|] == sep && s[|a| + |sep|..] == v;
    assert IndexOf(s, sep) == Some(|a|) by {
      NoFirstChar(s, sep[0], 0, |a|);
      FirstOccurrence(s, sep, 0, |a|);
    }
  }

  /**
    The text after a separator that occurs nowhere earlier: no occurrence
    ends before the separator's last character.
   */
  lemma {:induction false} AfterEarliest(a: string, sep: string, v: string)
    requires |sep| > 0 && !Contains(a + sep[..|sep| - 1], sep)
    ensures SubstringAfter(a + sep + v, sep) == v
  {
    var s := a + sep + v;
    EarliestAt(a, sep, v);
    assert s[|a| + |sep|..] == v;
  }

  /** A separator that does not occur before `a` ends is first found right after `a`. */
  lemma EarliestAt(a: string, sep: string, v: string)
    requires |sep| > 0 && !Contains(a + sep[..|sep| - 1], sep)
    ensures IndexOf(a + sep + v, sep) == Some(|a|)
  {
    var s := a + sep + v;
    var p := a + sep[..|sep| - 1];
    assert s[..|p|] == p;
    forall j: nat | j < |a|
      ensures !OccursAt(s, sep, j)
    {
      assert s[j..j + |sep|] == p[j..j + |sep|];
      assert !OccursAt(p, sep, j);
    }
    assert s[|a|..|a| + |sep|] == sep;
    IndexOfFirst(s, sep, |a|);
  }

  /**
    The value between an opening marker that occurs nowhere earlier and a
    one-character `close` that the value does not hold.
   */
  lemma {:induction false} BetweenEarliest(a: string, open: string, v: string, close: char, b: string)
    requires |open| > 0 && !Contains(a + open[..|open| - 1], open) && close !in v
    ensures SubstringBetween(a + open + v + [close] + b, open, [close]) == Some(v)
  {
    var s := a + open + v + [close] + b;
    Layout(s, a, open, v, close, b);
    EarliestInLayout(a, open, v, close, b);
    ValueAfterOpen(s, |a|, open, v, close);
  }

  /** With the opening marker first found at `i`, a value free of `close` and then `close` are what lies between. */
  lemma ValueAfterOpen(s: string, i: nat, open: string, v: string, close: char)
    requires IndexOf(s, open) == Some(i) && i + |open| + |v| + 1 <= |s|
    requires s[i + |open|..i + |open| + |v|] == v && close !in v
    requires s[i + |open| + |v|..i + |open| + |v| + 1] == [close]
    ensures SubstringBetween(s, open, [close]) == Some(v)
  {
    ClosingAfter(s, open, [close], i, i + |open| + |v|);
  }

  lemma EarliestInLayout(a: string, open: string, v: string, close: char, b: string)
    requires |open| > 0 && !Contains(a + open[..|open| - 1], open)
    ensures IndexOf(a + open + v + [close] + b, open) == Some(|a|)
  {
    assert a + open + v + [close] + b == a + open + (v + [close] + b);
    EarliestAt(a, open, v + [close] + b);
  }

  /** With the opening marker found at `i`, the value runs to the first `close` after it. */
  lemma ClosingAfter(s: string, open: string, close: string, i: nat, e: nat)
    requires IndexOf(s, open) == Some(i) && |close| > 0
    requires i + |open| <= e && e + |close| <= |s| && s[e..e + |close|] == close
    requires close[0] !in s[i + |open|..e]
    ensures SubstringBetween(s, open, close) == Some(s[i + |open|..e])
  {
    FirstAfterGap(s, close, i + |open|, e);
    BetweenFound(s, open, close, i, e);
  }

  /** `StringUtils.substring(s, start)` for a non-negative start: "" past the end. */
  function SubstringFrom(s: string, start: nat): (r: string)
    ensures start <= |s| ==> |r| == |s| - start && s == s[..start] + r
    ensures start > |s| ==> r == ""
  {
    if start > |s| then "" else s[start..]
  }

  /** `StringUtils.countMatches(s, sub)`: non-overlapping occurrences, scanning left to right. */
  function CountMatches(s: string, sub: string): (r: nat)
    ensures r == 0 <==> (|s| == 0 || |sub| == 0 || !Contains(s, sub))
  {
    if |s| == 0 || |sub| == 0 then 0 else CountFrom(s, sub, 0)
  }

  function CountFrom(s: string, sub: string, from: nat): (r: nat)
    requires |sub| > 0 && from <= |s|
    ensures r == 0 <==> IndexFrom(s, sub, from).None?
    decreases |s| - from
  {
    match IndexFrom(s, sub, from)
    case None => 0
    case Some(i) => 1 + CountFrom(s, sub, i + |sub|)
  }

  /** `n` copies of `sub` back to back. */
  function Repeat(sub: string, n: nat): string
  {
    if n == 0 then "" else sub + Repeat(sub, n - 1)
  }

  /** Counting a separator in its own repetition gives the repetition count. */
  lemma {:induction false} CountMatchesRepeat(sub: string, n: nat)
    requires |sub| > 0
    ensures CountMatches(Repeat(sub, n), sub) == n
  {
    var s := Repeat(sub, n);
    if |s| > 0 {
      assert s[0..] == s;
      CountFromCopies(s, sub, 0, n);
    }
  }

  /** Counting from a point after which `s` is `n` back-to-back copies of `sub` finds `n`. */
  lemma {:induction false} CountFromCopies(s: string, sub: string, at: nat, n: nat)
    requires |sub| > 0 && at <= |s| && s[at..] == Repeat(sub, n)
    ensures CountFrom(s, sub, at) == n
    decreases n
  {
    if n == 0 {
      CountFromEnd(s, sub, at);
    } else {
      RepeatAt(s, sub, at, n);
      CountFromCopies(s, sub, at + |sub|, n - 1);
      CountPastOccurrence(s, sub, at, n - 1);
    }
  }

  /** Nothing is counted once no text is left. */
  lemma CountFromEnd(s: string, sub: string, at: nat)
    requires |sub| > 0 && at <= |s| && s[at..] == ""
    ensures CountFrom(s, sub, at) == 0
  {
    assert at == |s| by {
      assert |s[at..]| == 0;
    }
    assert !OccursAt(s, sub, at);
    assert IndexFrom(s, sub, at) == None;
  }

  /** `n` copies from `at` start with one copy, and `n - 1` copies follow it. */
  lemma RepeatAt(s: string, sub: string, at: nat, n: nat)
    requires n > 0 && at <= |s| && s[at..] == Repeat(sub, n)
    ensures OccursAt(s, sub, at) && at + |sub| <= |s| && s[at + |sub|..] == Repeat(sub, n - 1)
  {
    CopyAt(s, sub, Repeat(sub, n - 1), at);
  }

  /** An occurrence right at the start of the count is counted, and counting resumes after it. */
  lemma CountFromAt(s: string, sub: string, at: nat)
    requires |sub| > 0 && OccursAt(s, sub, at)
    ensures CountFrom(s, sub, at) == 1 + CountFrom(s, sub, at + |sub|)
  {
    assert IndexFrom(s, sub, at) == Some(at);
  }

  /** An occurrence at `at` adds one to the count made after it. */
  lemma CountPastOccurrence(s: string, sub: string, at: nat, m: nat)
    requires |sub| > 0 && OccursAt(s, sub, at) && CountFrom(s, sub, at + |sub|) == m
    ensures CountFrom(s, sub, at) == m + 1
  {
    CountFromAt(s, sub, at);
  }

  /** A copy of `sub` at `at`, followed by `rest`. */
  lemma CopyAt(s: string, sub: string, rest: string, at: nat)
    requires at <= |s| && s[at..] == sub + rest
    ensures OccursAt(s, sub, at) && s[at + |sub|..] == rest
  {
    assert s[at..at + |sub|] == s[at..][..|sub|];
    assert s[at + |sub|..] == s[at..][|sub|..];
  }

  /** The characters `String.trim` removes: code points up to the space. */
  predicate IsBlank(c: char)
  {
    c <= ' '
  }

  /** Leading blanks dropped. */
  function TrimStart(s: string): (r: string)
    ensures |r| <= |s| && r == s[|s| - |r|..]
    ensures forall i :: 0 <= i < |s| - |r| ==> IsBlank(s[i])
    ensures |r| > 0 ==> !IsBlank(r[0])
  {
    if |s| > 0 && IsBlank(s[0]) then TrimStart(s[1..]) else s
  }

  /** Trailing blanks dropped. */
  function TrimEnd(s: string): (r: string)
    ensures |r| <= |s| && r == s[..|r|]
    ensures forall i :: |r| <= i < |s| ==> IsBlank(s[i])
    ensures |r| > 0 ==> !IsBlank(r[|r| - 1])
  {
    if |s| > 0 && IsBlank(s[|s| - 1]) then TrimEnd(s[..|s| - 1]) else s
  }

  /** `StringUtils.trim` (`String.trim`): blanks removed from both ends, nothing else changed. */
  function Trim(s: string): (r: string)
    ensures exists lo: nat :: OccursAt(s, r, lo)
    ensures |r| > 0 ==> !IsBlank(r[0]) && !IsBlank(r[|r| - 1])
    ensures (forall i :: 0 <= i < |s| ==> IsBlank(s[i])) ==> r == ""
  {
    var t := TrimStart(s);
    var r := TrimEnd(t);
    assert r == s[|s| - |t|..|s| - |t| + |r|];
    assert OccursAt(s, r, |s| - |t|);
    r
  }

  /** Trimming a text whose ends are already non-blank changes nothing. */
  lemma TrimIdempotent(s: string)
    requires |s| > 0 ==> !IsBlank(s[0]) && !IsBlank(s[|s| - 1])
    ensures Trim(s) == s
  {
    assert TrimStart(s) == s;
    assert TrimEnd(s) == s;
  }

  /** Blank padding on either side is exactly what `Trim` removes. */
  lemma {:induction false} TrimPadded(pre: string, core: string, post: string)
    requires forall i :: 0 <= i < |pre| ==> IsBlank(pre[i])
    requires forall i :: 0 <= i < |post| ==> IsBlank(post[i])
    requires |core| > 0 && !IsBlank(core[0]) && !IsBlank(core[|core| - 1])
    ensures Trim(pre + core + post) == core
  {
    TrimStartPadded(pre, core + post);
    assert TrimStart(pre + core + post) == core + post by {
      assert pre + core + post == pre + (core + post);
    }
    TrimEndPadded(core, post);
  }

  lemma {:induction false} TrimStartPadded(pre: string, rest: string)
    requires forall i :: 0 <= i < |pre| ==> IsBlank(pre[i])
    requires |rest| > 0 && !IsBlank(rest[0])
    ensures TrimStart(pre + rest) == rest
    decreases |pre|
  {
    if |pre| > 0 {
      assert (pre + rest)[1..] == pre[1..] + rest;
      TrimStartPadded(pre[1..], rest);
    }
  }

  lemma {:induction false} TrimEndPadded(core: string, post: string)
    requires forall i :: 0 <= i < |post| ==> IsBlank(post[i])
    requires |core| > 0 && !IsBlank(core[|core| - 1])
    ensures TrimEnd(core + post) == core
    decreases |post|
  {
    if |post| > 0 {
      assert (core + post)[..|core + post| - 1] == core + post[..|post| - 1];
      TrimEndPadded(core, post[..|post| - 1]);
    } else {
      assert core + post == core;
    }
  }

  /** The parts joined back together with `sep` between them. */
  function Join(parts: seq<string>, sep: string): string
  {
    if |parts| == 0 then ""
    else if |parts| == 1 then parts[0]
    else parts[0] + sep + Join(parts[1..], sep)
  }

  /** The input cut at every occurrence of `sep`, scanning left to right. */
  function SplitAll(s: string, sep: string): (r: seq<string>)
    requires |sep| > 0
    ensures |r| >= 1
    ensures Join(r, sep) == s
    ensures forall k :: 0 <= k < |r| ==> !Contains(r[k], sep)
    ensures !Contains(s, sep) ==> r == [s]
    decreases |s|
  {
    match IndexOf(s, sep)
    case None => [s]
    case Some(i) =>
      var rest := SplitAll(s[i + |sep|..], sep);
      SplitAllJoin(s, sep, i, rest);
      SplitAllFree(s, sep, i, rest);
      [s[..i]] + rest
  }

  /** A sequence is its three pieces cut at `a` and `b`, put back together. */
  lemma CutThree<T>(s: seq<T>, a: nat, b: nat)
    requires a <= b <= |s|
    ensures s == s[..a] + s[a..b] + s[b..]
  {
  }

  /** One cut of `SplitAll` joins back to the input. */
  lemma SplitAllJoin(s: string, sep: string, i: nat, rest: seq<string>)
    requires |sep| > 0 && OccursAt(s, sep, i)
    requires |rest| >= 1 && Join(rest, sep) == s[i + |sep|..]
    ensures Join([s[..i]] + rest, sep) == s
  {
    var r := [s[..i]] + rest;
    assert r[1..] == rest;
    assert Join(r, sep) == s[..i] + sep + Join(rest, sep);
    assert s[i..i + |sep|] == sep;
    CutThree(s, i, i + |sep|);
  }

  /** No part of one cut of `SplitAll` holds the separator. */
  lemma SplitAllFree(s: string, sep: string, i: nat, rest: seq<string>)
    requires |sep| > 0 && IndexOf(s, sep) == Some(i)
    requires forall k :: 0 <= k < |rest| ==> !Contains(rest[k], sep)
    ensures forall k :: 0 <= k < |[s[..i]] + rest| ==> !Contains(([s[..i]] + rest)[k], sep)
  {
    var head := s[..i];
    var r := [head] + rest;
    assert !Contains(head, sep) by {
      if Contains(head, sep) {
        OccursInSlice(s, sep, 0, i, IndexOf(head, sep).value);
      }
    }
    forall k | 0 <= k < |r|
      ensures !Contains(r[k], sep)
    {
      if k > 0 {
        assert r[k] == rest[k - 1];
      }
    }
  }

  /** A first part free of the separator's first character is split off whole. */
  lemma {:induction false} SplitAllCons(a: string, sep: string, rest: string)
    requires |sep| > 0 && sep[0] !in a
    ensures SplitAll(a + sep + rest, sep) == [a] + SplitAll(rest, sep)
  {
    var s := a + sep + rest;
    assert OccursAt(s, sep, |a|) by {
      assert s[|a|..|a| + |sep|] == sep;
    }
    forall i: nat | i < |a|
      ensures !OccursAt(s, sep, i)
    {
      assert s[i] == a[i];
    }
    IndexOfFirst(s, sep, |a|);
    assert s[..|a|] == a;
    assert s[|a| + |sep|..] == rest;
  }

  /**
    Splitting `a + sep + b + sep + c` gives the three parts back when
    neither `a` nor `b` holds the separator's first character, `c` holds no
    separator, and `c` is not empty.
   */
  lemma {:induction false} SplitInThree(a: string, sep: string, b: string, c: string)
    requires |sep| > 0 && sep[0] !in a && sep[0] !in b
    requires !Contains(c, sep) && c != ""
    ensures Split(a + sep + b + sep + c, sep) == [a, b, c]
  {
    var s := a + sep + (b + sep + c);
    assert a + sep + b + sep + c == s;
    SplitAllThree(a, sep, b, c);
    ContainsAt(s, sep, |a|) by {
      assert s[|a|..|a| + |sep|] == sep;
    }
    KeepsLastPart([a, b, c]);
  }

  /** Parts whose last one is not empty lose nothing to `DropTrailingEmpty`. */
  lemma KeepsLastPart(parts: seq<string>)
    requires |parts| > 0 && parts[|parts| - 1] != ""
    ensures DropTrailingEmpty(parts) == parts
  {
  }

  lemma {:induction false} SplitAllThree(a: string, sep: string, b: string, c: string)
    requires |sep| > 0 && sep[0] !in a && sep[0] !in b && !Contains(c, sep)
    ensures SplitAll(a + sep + (b + sep + c), sep) == [a, b, c]
  {
    SplitAllCons(a, sep, b + sep + c);
    SplitAllCons(b, sep, c);
  }

  /** An occurrence stays where it is when text is added after it. */
  lemma OccursLeft(a: string, b: string, sub: string, i: nat)
    requires OccursAt(a, sub, i)
    ensures OccursAt(a + b, sub, i)
  {
    assert (a + b)[i..i + |sub|] == a[i..i + |sub|];
  }

  /** An occurrence moves by the length of the text added before it. */
  lemma OccursRight(a: string, b: string, sub: string, i: nat)
    requires OccursAt(b, sub, i)
    ensures OccursAt(a + b, sub, |a| + i)
  {
    assert (a + b)[|a| + i..|a| + i + |sub|] == b[i..i + |sub|];
  }

  /** The list without its trailing empty strings. */
  function DropTrailingEmpty(parts: seq<string>): (r: seq<string>)
    ensures r <= parts
    ensures |r| > 0 ==> r[|r| - 1] != ""
    ensures forall k :: |r| <= k < |parts| ==> parts[k] == ""
  {
    if |parts| > 0 && parts[|parts| - 1] == "" then DropTrailingEmpty(parts[..|parts| - 1])
    else parts
  }

  /**
    `String.split(sep)` for a separator free of regular-expression
    metacharacters: the input itself when `sep` does not occur, otherwise
    the parts between occurrences with the trailing empty ones removed.
   */
  function Split(s: string, sep: string): (r: seq<string>)
    requires |sep| > 0
    ensures !Contains(s, sep) ==> r == [s]
    ensures Contains(s, sep) ==> r <= SplitAll(s, sep)
    ensures Contains(s, sep) ==> |r| > 0 ==> r[|r| - 1] != ""
    ensures Contains(s, sep) ==> forall k :: |r| <= k < |SplitAll(s, sep)| ==> SplitAll(s, sep)[k] == ""
    ensures forall k :: 0 <= k < |r| ==> !Contains(r[k], sep)
  {
    if !Contains(s, sep) then [s] else DropTrailingEmpty(SplitAll(s, sep))
  }

  /** A text with nothing of the separator's first character in it cannot hold the separator. */
  lemma NoOccurrenceWithoutFirstChar(a: string, sep: string)
    requires |sep| > 0 && sep[0] !in a
    ensures !Contains(a, sep)
  {
    forall i: nat | i + |sep| <= |a|
      ensures !OccursAt(a, sep, i)
    {
      assert a[i] in a;
      assert a[i..i + |sep|][0] == a[i];
    }
  }

  /**
    Splitting `a + sep + b` gives the two halves back when `a` cannot start
    a separator, `b` holds none, and `b` is not empty.
   */
  lemma {:induction false} SplitInTwo(a: string, sep: string, b: string)
    requires |sep| > 0 && sep[0] !in a
    requires !Contains(b, sep) && b != ""
    ensures Split(a + sep + b, sep) == [a, b]
  {
    var s := a + sep + b;
    assert OccursAt(s, sep, |a|);
    forall i: nat | i < |a|
      ensures !OccursAt(s, sep, i)
    {
      assert s[i] == a[i];
    }
    assert IndexOf(s, sep) == Some(|a|);
    assert s[..|a|] == a;
    assert s[|a| + |sep|..] == b;
    assert SplitAll(s, sep) == [a] + SplitAll(b, sep);
    ContainsAt(s, sep, |a|);
  }

  /** Length of the leading run of characters other than `d`. */
  function RunLength(s: string, d: char): (k: nat)
    ensures 0 < |s| && s[0] != d ==> 0 < k
    ensures k <= |s| && d !in s[..k]
    ensures k < |s| ==> s[k] == d
  {
    if |s| == 0 || s[0] == d then 0 else 1 + RunLength(s[1..], d)
  }

  /**
    `java.util.StringTokenizer` with the single delimiter `d`: the maximal
    runs of non-delimiter characters, so never an empty token.
   */
  function Tokens(s: string, d: char): (r: seq<string>)
    ensures forall k :: 0 <= k < |r| ==> r[k] != "" && d !in r[k]
    ensures d !in s && s != "" ==> r == [s]
    decreases |s|
  {
    if |s| == 0 then []
    else if s[0] == d then Tokens(s[1..], d)
    else
      var k := RunLength(s, d);
      assert d !in s ==> k == |s| && s[..k] == s && s[k..] == "" && Tokens(s[k..], d) == [];
      [s[..k]] + Tokens(s[k..], d)
  }

  /** Tokens written out with one delimiter between them. */
  function JoinChar(ts: seq<string>, d: char): string
  {
    if |ts| == 0 then "" else if |ts| == 1 then ts[0] else ts[0] + [d] + JoinChar(ts[1..], d)
  }

  /** Tokenizing non-empty, delimiter-free tokens joined by the delimiter gives them back. */
  lemma {:induction false} TokensJoin(ts: seq<string>, d: char)
    requires forall k :: 0 <= k < |ts| ==> ts[k] != "" && d !in ts[k]
    ensures Tokens(JoinChar(ts, d), d) == ts
    decreases |ts|
  {
    if |ts| == 1 {
      var t := ts[0];
      assert RunLength(t, d) == |t| by { RunLengthAll(t, "", d); }
      assert t[..|t|] == t && t[|t|..] == "";
    } else if |ts| > 1 {
      var t := ts[0];
      var rest := JoinChar(ts[1..], d);
      var s := t + [d] + rest;
      assert t + ([d] + rest) == s;
      RunLengthAll(t, [d] + rest, d);
      assert s[..|t|] == t;
      assert s[|t|..] == [d] + rest;
      assert s[0] == t[0];
      assert Tokens([d] + rest, d) == Tokens(rest, d) by {
        assert ([d] + rest)[1..] == rest;
      }
      TokensJoin(ts[1..], d);
    }
  }

  lemma {:induction false} RunLengthAll(t: string, rest: string, d: char)
    requires d !in t
    requires |rest| == 0 || rest[0] == d
    ensures RunLength(t + rest, d) == |t|
    decreases |t|
  {
    if |t| > 0 {
      assert (t + rest)[1..] == t[1..] + rest;
      RunLengthAll(t[1..], rest, d);
    } else {
      assert t + rest == rest;
    }
  }

  /** Lexicographic order on characters, as `String.compareTo` orders strings. */
  predicate LexLess(a: string, b: string)
  {
    if |a| == 0 then |b| > 0
    else if |b| == 0 then false
    else if a[0] != b[0] then a[0] < b[0]
    else LexLess(a[1..], b[1..])
  }

  /**
    `String.compareTo`: the difference of the first differing characters,
    or of the lengths when one is a prefix of the other.
   */
  function CompareStrings(a: string, b: string): (r: int)
    ensures r == 0 <==> a == b
    ensures r < 0 <==> LexLess(a, b)
    ensures r > 0 <==> LexLess(b, a)
  {
    if |a| == 0 || |b| == 0 then |a| - |b|
    else if a[0] != b[0] then a[0] as int - b[0] as int
    else
      var r := CompareStrings(a[1..], b[1..]);
      assert a == [a[0]] + a[1..] && b == [b[0]] + b[1..];
      r
  }

  lemma {:induction false} LexLessIrreflexive(a: string)
    ensures !LexLess(a, a)
  {
    assert CompareStrings(a, a) == 0;
  }

  lemma {:induction false} LexLessTransitive(a: string, b: string, c: string)
    requires LexLess(a, b) && LexLess(b, c)
    ensures LexLess(a, c)
    decreases |a|
  {
    if |a| > 0 && |b| > 0 && |c| > 0 && a[0] == b[0] && b[0] == c[0] {
      LexLessTransitive(a[1..], b[1..], c[1..]);
    }
  }

  lemma LexLessTotal(a: string, b: string)
    ensures a == b || LexLess(a, b) || LexLess(b, a)
  {
    var _ := CompareStrings(a, b);
  }
}

=== FILE: tallies.dfy ===
/**
  Per-name occurrence counts and the two orders the reports list them in.
  `LogAnalyzer.TransitionCount.compareTo` puts higher counts first and
  breaks ties by name DESCENDING; the comparator of
  `DLCPerfAnalyzer.formatTransitionCounts1` puts higher counts first and
  breaks ties by name ASCENDING.
 */
module Tallies {
  import opened Strings
  import opened Collections

  /** A name with its count: a `TransitionCount` record, or one map entry. */
  datatype Tally = Tally(name: string, count: int)

  /** `Integer.compare(x, y)`. */
  function CompareInts(x: int, y: int): (r: int)
    ensures r == 0 <==> x == y
    ensures r < 0 <==> x < y
    ensures -1 <= r <= 1
  {
    if x < y then -1 else if x == y then 0 else 1
  }

  /** `TransitionCount.compareTo(other)`: `Integer.compare` of the counts reversed, then of the names reversed. */
  function CompareTransitionCount(self: Tally, other: Tally): (r: int)
    ensures r == 0 <==> self == other
    ensures r < 0 <==> self.count > other.count || (self.count == other.count && LexLess(other.name, self.name))
    ensures r > 0 <==> self.count < other.count || (self.count == other.count && LexLess(self.name, other.name))
  {
    var compareCount := CompareInts(other.count, self.count);
    var compareTransition := CompareStrings(other.name, self.name);
    if compareCount != 0 then compareCount else compareTransition
  }

  /**
    `Map.Entry.comparingByValue(reverseOrder()).thenComparing(comparingByKey())`:
    counts reversed, then names in their natural order.
   */
  function CompareByCountThenName(a: Tally, b: Tally): (r: int)
    ensures r == 0 <==> a == b
    ensures r < 0 <==> a.count > b.count || (a.count == b.count && LexLess(a.name, b.name))
    ensures r > 0 <==> a.count < b.count || (a.count == b.count && LexLess(b.name, a.name))
  {
    var byValue := CompareInts(b.count, a.count);
    if byValue != 0 then byValue else CompareStrings(a.name, b.name)
  }

  /** On equal counts and different names the two comparators order a pair oppositely. */
  lemma TieBreaksDisagree(a: Tally, b: Tally)
    requires a.count == b.count && a.name != b.name
    ensures CompareTransitionCount(a, b) < 0 <==> CompareByCountThenName(a, b) > 0
    ensures CompareTransitionCount(a, b) != 0 && CompareByCountThenName(a, b) != 0
  {
  }

  /** On different counts the two comparators agree. */
  lemma CountsAgree(a: Tally, b: Tally)
    requires a.count != b.count
    ensures CompareTransitionCount(a, b) == CompareByCountThenName(a, b)
  {
  }

  /** Which of the two orders a listing uses. */
  datatype TieBreak = NameDescending | NameAscending

  /** `a` is listed before `b`. */
  predicate Precedes(a: Tally, b: Tally, tb: TieBreak)
  {
    match tb
    case NameDescending => CompareTransitionCount(a, b) < 0
    case NameAscending => CompareByCountThenName(a, b) < 0
  }

  lemma {:induction false} PrecedesTransitive(a: Tally, b: Tally, c: Tally, tb: TieBreak)
    requires Precedes(a, b, tb) && Precedes(b, c, tb)
    ensures Precedes(a, c, tb)
  {
    if a.count == b.count && b.count == c.count {
      match tb
      case NameDescending => LexLessTransitive(c.name, b.name, a.name);
      case NameAscending => LexLessTransitive(a.name, b.name, c.name);
    }
  }

  lemma PrecedesTotal(a: Tally, b: Tally, tb: TieBreak)
    requires a.name != b.name
    ensures Precedes(a, b, tb) || Precedes(b, a, tb)
  {
  }

  lemma PrecedesAsymmetric(a: Tally, b: Tally, tb: TieBreak)
    requires Precedes(a, b, tb)
    ensures !Precedes(b, a, tb)
  {
  }

  predicate DistinctNames(s: seq<Tally>)
  {
    forall i, j :: 0 <= i < j < |s| ==> s[i].name != s[j].name
  }

  /** Every earlier tally is listed before every later one. */
  predicate SortedBy(s: seq<Tally>, tb: TieBreak)
  {
    forall i, j :: 0 <= i < j < |s| ==> Precedes(s[i], s[j], tb)
  }

  function InsertTally(x: Tally, s: seq<Tally>, tb: TieBreak): (r: seq<Tally>)
    ensures multiset(r) == multiset(s) + multiset{x}
    ensures forall j :: 0 <= j < |r| ==> r[j] == x || r[j] in s
  {
    if |s| == 0 || Precedes(x, s[0], tb) then [x] + s
    else
      assert s == [s[0]] + s[1..];
      [s[0]] + InsertTally(x, s[1..], tb)
  }

  lemma {:induction false} InsertTallySorted(x: Tally, s: seq<Tally>, tb: TieBreak)
    requires SortedBy(s, tb)
    requires forall j :: 0 <= j < |s| ==> s[j].name != x.name
    ensures SortedBy(InsertTally(x, s, tb), tb)
  {
    if |s| > 0 && Precedes(x, s[0], tb) {
      forall j | 0 <= j < |s|
        ensures Precedes(x, s[j], tb)
      {
        if j > 0 {
          PrecedesTransitive(x, s[0], s[j], tb);
        }
      }
      ConsSorted(x, s, tb);
    } else if |s| > 0 {
      PrecedesTotal(x, s[0], tb);
      var rest := InsertTally(x, s[1..], tb);
      InsertTallySorted(x, s[1..], tb);
      forall j | 0 <= j < |rest|
        ensures Precedes(s[0], rest[j], tb)
      {
        if rest[j] != x {
          var m :| 0 <= m < |s[1..]| && s[1..][m] == rest[j];
          assert s[m + 1] == rest[j];
        }
      }
      ConsSorted(s[0], rest, tb);
    }
  }

  /** A tally listed before everything in a sorted listing can head it. */
  lemma ConsSorted(x: Tally, s: seq<Tally>, tb: TieBreak)
    requires SortedBy(s, tb)
    requires forall j :: 0 <= j < |s| ==> Precedes(x, s[j], tb)
    ensures SortedBy([x] + s, tb)
  {
    var r := [x] + s;
    forall i, j | 0 <= i < j < |r|
      ensures Precedes(r[i], r[j], tb)
    {
      assert r[j] == s[j - 1];
      if i > 0 {
        assert r[i] == s[i - 1];
      }
    }
  }

  /**
    The listing of a set of tallies with distinct names: a permutation of
    them in which every tally precedes all later ones.
   */
  function SortTallies(s: seq<Tally>, tb: TieBreak): (r: seq<Tally>)
    requires DistinctNames(s)
    ensures multiset(r) == multiset(s)
    ensures SortedBy(r, tb)
  {
    if |s| == 0 then []
    else
      var rest := SortTallies(s[1..], tb);
      SortTalliesStep(s, rest, tb);
      InsertTally(s[0], rest, tb)
  }

  /** Inserting the head into a listing of the rest lists the whole. */
  lemma SortTalliesStep(s: seq<Tally>, rest: seq<Tally>, tb: TieBreak)
    requires |s| > 0 && DistinctNames(s)
    requires multiset(rest) == multiset(s[1..]) && SortedBy(rest, tb)
    ensures multiset(InsertTally(s[0], rest, tb)) == multiset(s)
    ensures SortedBy(InsertTally(s[0], rest, tb), tb)
  {
    assert s == [s[0]] + s[1..];
    forall j | 0 <= j < |rest|
      ensures rest[j].name != s[0].name
    {
      assert rest[j] in multiset(s[1..]);
      var m :| 0 <= m < |s[1..]| && s[1..][m] == rest[j];
      assert s[m + 1] == rest[j];
    }
    InsertTallySorted(s[0], rest, tb);
  }

  /** The tallies of a map, one per key, in the given key order. */
  function Entries(m: map<string, nat>, order: seq<string>): (r: seq<Tally>)
    requires forall i :: 0 <= i < |order| ==> order[i] in m
    ensures |r| == |order|
    ensures forall i :: 0 <= i < |r| ==> r[i] == Tally(order[i], m[order[i]])
  {
    if |order| == 0 then [] else [Tally(order[0], m[order[0]])] + Entries(m, order[1..])
  }

  /**
    A map of counts listed in one of the two orders (a `TreeSet` of
    `TransitionCount`, or a sorted entry stream). The HashMap's own
    iteration order `order` does not matter for the result's contents.
   */
  function ListCounts(m: map<string, nat>, order: seq<string>, tb: TieBreak): (r: seq<Tally>)
    requires Enumerates(order, m.Keys)
    ensures |r| == |m|
    ensures SortedBy(r, tb)
    ensures forall t :: t in r <==> t.name in m && t.count == m[t.name]
  {
    var entries := Entries(m, order);
    assert DistinctNames(entries);
    var r := SortTallies(entries, tb);
    assert |r| == |entries| by {
      assert |multiset(r)| == |multiset(entries)|;
    }
    assert |order| == |m| by { EnumerationSize(order, m.Keys); }
    forall t
      ensures t in r <==> t.name in m && t.count == m[t.name]
    {
      assert t in r <==> t in multiset(entries);
      if t.name in m && t.count == m[t.name] {
        var i :| 0 <= i < |order| && order[i] == t.name;
        assert entries[i] == t;
      }
    }
    r
  }

  /** The counts of a listing added up. */
  function SumCounts(s: seq<Tally>): int
  {
    if |s| == 0 then 0 else s[0].count + SumCounts(s[1..])
  }

  /** Listing a map of counts in any iteration order keeps its total. */
  lemma {:induction false} EntriesSum(m: map<string, nat>, order: seq<string>)
    requires Enumerates(order, m.Keys)
    ensures SumCounts(Entries(m, order)) == SumMap(m)
    decreases |order|
  {
    if |order| == 0 {
      assert forall k :: k !in m.Keys;
      assert m == map[];
    } else {
      var k := order[0];
      var rest := m - {k};
      EnumeratesTail(order, m.Keys);
      assert rest.Keys == m.Keys - {k};
      EntriesSum(rest, order[1..]);
      EntriesWithout(m, k, order[1..]);
      SumMapRemove(m, k);
    }
  }

  /** Entries for keys other than `k` do not see `k` removed. */
  lemma EntriesWithout(m: map<string, nat>, k: string, order: seq<string>)
    requires forall i :: 0 <= i < |order| ==> order[i] in m && order[i] != k
    ensures Entries(m, order) == Entries(m - {k}, order)
  {
    var a := Entries(m, order);
    var b := Entries(m - {k}, order);
    forall i | 0 <= i < |a|
      ensures a[i] == b[i]
    {
      assert (m - {k})[order[i]] == m[order[i]];
    }
  }

  /** `groupingBy(name, summingInt(i -> 1))`: how often each name occurs. */
  function TallyNames(names: seq<string>): (r: map<string, nat>)
    ensures forall n :: n in r <==> n in names
    ensures forall n :: n in r ==> r[n] == multiset(names)[n]
    ensures SumMap(r) == |names|
  {
    if |names| == 0 then map[]
    else
      var prefix := names[..|names| - 1];
      var last := names[|names| - 1];
      assert names == prefix + [last];
      Increment(TallyNames(prefix), last)
  }

  /**
    A smaller count after two equal ones: the ascending tie-break lists the
    lesser name of the pair first, and the lower count last.
   */
  lemma TiesAscending(a: Tally, b: Tally, c: Tally)
    requires a.count < b.count && b.count == c.count && LexLess(b.name, c.name)
    requires a.name != b.name && a.name != c.name && b.name != c.name
    ensures SortTallies([a, b, c], NameAscending) == [b, c, a]
  {
    TieOrder(b, c);
    SortTwo(b, c, NameAscending);
    ListThree(a, b, c, NameAscending, b, c);
  }

  /** The same counts with the descending tie-break of `TransitionCount`: the greater name first. */
  lemma TiesDescending(a: Tally, b: Tally, c: Tally)
    requires a.count < b.count && b.count == c.count && LexLess(b.name, c.name)
    requires a.name != b.name && a.name != c.name && b.name != c.name
    ensures SortTallies([a, b, c], NameDescending) == [c, b, a]
  {
    TieOrder(b, c);
    SortTwo(b, c, NameDescending);
    ListThree(a, b, c, NameDescending, c, b);
  }

  /** A head with a lower count than both others is listed after the listing of the other two. */
  lemma ListThree(a: Tally, b: Tally, c: Tally, tb: TieBreak, first: Tally, second: Tally)
    requires a.name != b.name && a.name != c.name && b.name != c.name
    requires SortTallies([b, c], tb) == [first, second]
    requires a.count < first.count && a.count < second.count
    ensures DistinctNames([a, b, c]) && SortTallies([a, b, c], tb) == [first, second, a]
  {
    var s := [a, b, c];
    DistinctThree(a, b, c);
    assert s[0] == a && s[1..] == [b, c];
    SortUnfold(s, tb);
    InsertAfterTwo(a, first, second, tb);
  }

  lemma DistinctThree(a: Tally, b: Tally, c: Tally)
    requires a.name != b.name && a.name != c.name && b.name != c.name
    ensures DistinctNames([a, b, c])
  {
  }

  lemma InsertAfterTwo(x: Tally, first: Tally, second: Tally, tb: TieBreak)
    requires x.count < first.count && x.count < second.count
    ensures InsertTally(x, [first, second], tb) == [first, second, x]
  {
    InsertLast(x, [first, second], tb);
  }

  /** Of two equal counts, the lesser name goes first ascending and last descending. */
  lemma TieOrder(b: Tally, c: Tally)
    requires b.count == c.count && LexLess(b.name, c.name)
    ensures b.name != c.name
    ensures Precedes(b, c, NameAscending) && !Precedes(b, c, NameDescending)
  {
    LexLessIrreflexive(b.name);
    if LexLess(c.name, b.name) {
      LexLessTransitive(b.name, c.name, b.name);
    }
  }

  /** The listing of a non-empty list: its head inserted into the listing of the rest. */
  lemma SortUnfold(s: seq<Tally>, tb: TieBreak)
    requires |s| > 0 && DistinctNames(s)
    ensures SortTallies(s, tb) == InsertTally(s[0], SortTallies(s[1..], tb), tb)
  {
  }

  /** Two tallies with different names are listed in the order the tie-break puts them. */
  lemma SortTwo(a: Tally, b: Tally, tb: TieBreak)
    requires a.name != b.name
    ensures SortTallies([a, b], tb) == if Precedes(a, b, tb) then [a, b] else [b, a]
  {
    assert [a, b][1..] == [b];
    SortOne(b, tb);
    assert SortTallies([a, b], tb) == InsertTally(a, [b], tb);
    InsertIntoOne(a, b, tb);
  }

  /** A single tally is its own listing. */
  lemma SortOne(b: Tally, tb: TieBreak)
    ensures SortTallies([b], tb) == [b]
  {
    assert [b][1..] == [];
  }

  /** Inserting into a one-tally listing puts the new tally first exactly when it precedes. */
  lemma InsertIntoOne(a: Tally, b: Tally, tb: TieBreak)
    ensures InsertTally(a, [b], tb) == if Precedes(a, b, tb) then [a, b] else [b, a]
  {
    assert [b][1..] == [];
  }

  /** A tally that precedes nothing in the listing goes at its end. */
  lemma {:induction false} InsertLast(x: Tally, s: seq<Tally>, tb: TieBreak)
    requires forall j :: 0 <= j < |s| ==> !Precedes(x, s[j], tb)
    ensures InsertTally(x, s, tb) == s + [x]
  {
    if |s| > 0 {
      InsertLast(x, s[1..], tb);
      assert s + [x] == [s[0]] + (s[1..] + [x]);
    }
  }
}

=== FILE: wrappers.dfy ===
/** Optional values: `None` plays the part of Java's `null` throughout the model. */
module Wrappers {

  datatype Option<+T> = None | Some(value: T) {

    /** The value, or `default` when there is none. */
    function GetOr(default: T): T
    {
      match this
      case Some(v) => v
      case None => default
    }
  }
}
